=== FILE: README.md ===
# athena-dr tool-call and research-workflow core in Dafny

This project models the core of athena-dr, a deep-research agent. The agent's language
model writes tool calls as plain text, and athena-dr recovers them. It reads five textual
call formats, combines their calls, unwraps the model's answers and runs the search tools
the agent uses: Serper, PubMed, Jina Reader, TheSportsDB and Semantic Scholar. Around
these sit the search and answer sub-agents of the auto-search workflow, the web-page
reader, the token-budget guard, the rejection-sampling checker and the trace generators
that turn datasets into fine-tuning records.

Every operation is a pure function or a small method over immutable data with a contract.
The main operations also have lemmas that tie them to an inverse, an invariant or a
reference reading; the table below says which member states what.

Everything the code cannot compute for itself is a parameter:
- the network;
- JSON and XML decoding;
- MD5 digests;
- percent-decoding;
- the HTML text extractor;
- the language models.

Regular expressions are modelled by hand-derived deterministic matchers, one per pattern
(`Patterns`). Their finditer, search and sub semantics are stated once, in generic form.

Modules:
- `ToolCalls`, `TagGrammar`, `InvokeGrammar`, `BracketGrammar`, `ActionGrammar`,
  `EventGrammar`, `Combiner` and `CombinerIds`: the five call formats of `model.py` and
  their combination.
- `Answers`, `Prompts`, `AutoSearch`: the sub-agents and the auto-search workflow.
- `DeepResearch`, `TokenBudget`: the deep-research agent and its output-token guard.
- `Rejection`, `GenerateTrace`: F1 scoring, rejection sampling and trace generation.
- `Serper`, `PubMed`, `Jina`, `SportsDb`, `SemanticScholar`, `Citations`: the search tools
  and their citation ids.
- `WebPageReader`, `PercentEncoding`: the web-page reader and URL encoding.
- `ToolTable`: the MCP tool parameter table.
- `Text`, `JsonValues`, `Http`, `Wrappers`, `Patterns`: shared vocabulary.

Where the code and its documentation differ, the model follows the code:
- `<answer>` unwrapping (`split("<answer>")[1].split("</answer>")[0]`) also stops at a
  second `<answer>`, not only at `</answer>`.
- The `Action:` pattern always closes at the first `}`. A nested `arguments` object is
  therefore never decoded as JSON, and its closing brace is left behind in the cleaned
  text.
- The `[Event: ...]` pattern captures no `]`. The branch for a `tool_calls` list can only
  be reached with a decoder that builds arrays without `]`.
- The placeholder browse tool reports its error as `None` rather than `""`. Each of its
  calls therefore counts as failed.
- `" | ".join` of `anyOf` types can only be split apart again when no type contains `|`.

## Model

| member | source | states |
|---|---|---|
| ToolCalls.Finish | athena_dr/agent/model.py:105-111 | with no call, the text is returned untouched and the call list is absent; otherwise every block of the grammar's delimiter pattern is deleted, including blocks that gave no call, and the rest is stripped |
| ToolCalls.Coerce | athena_dr/agent/model.py:488-492 | an argument value becomes an integer exactly when it is all ASCII digits, and then it carries the digits' value; any other value stays the same text |
| ToolCalls.CoerceCanonical | athena_dr/agent/model.py:488-492 | a numeral without a leading zero survives coercion: printing the integer gives back the original text |
| ToolCalls.Renumber | athena_dr/agent/model.py:543-544 | the same calls in the same order, with ids `call_<base>`, `call_<base+1>`, ... |
| ToolCalls.Collect | athena_dr/agent/model.py:51-77 | `enumerate(matches)`: the ids increase; every call comes from the block whose index it carries; every block that yields a call is represented |
| JsonValues.AssignGet | athena_dr/agent/model.py:66-69 | the dictionary a store loop builds holds, for every key, the value of the last item storing it, or its earlier value |
| JsonValues.LastValueSpec | athena_dr/agent/model.py:66-69 | the last stored value exists exactly when some item stores the key, and no later item stores it |
| TagGrammar.FindChild | athena_dr/agent/model.py:59 | `root.find`: the first child with that tag — it carries the tag and no earlier child does; nothing is found exactly when no child has the tag |
| TagGrammar.MarkupArgs | athena_dr/agent/model.py:66-69 | the keys are exactly the tags of the children other than `tool_name` with non-empty text, without duplicates; each key holds the stripped text of the last such child with that tag (`FinalValue`) |
| TagGrammar.FallbackArgs | athena_dr/agent/model.py:88-93 | the keys are exactly the names of the `<name>...</name>` matches other than `tool_name`; each holds the stripped content of the last match with that name |
| TagGrammar.MarkupCall | athena_dr/agent/model.py:58-77 | a call exists exactly when the first `tool_name` child has non-empty text; its name is that text stripped, its id the block index, its arguments `MarkupArgs` of the children |
| TagGrammar.FallbackCall | athena_dr/agent/model.py:79-103 | after a parse error, a call exists exactly when `<tool_name>...</tool_name>` is found; its name is the first one's stripped content and its arguments `FallbackArgs` of the tag-pair matches |
| TagGrammar.BlockCall | athena_dr/agent/model.py:52-103 | the block is stripped and wrapped in `<root>`: when the markup parses, the call is `MarkupCall` of its children; when it does not, `FallbackCall` of the stripped block; either carries the block index and no `tool_name` argument |
| TagGrammar.NamelessBlockSkipped | athena_dr/agent/model.py:59-61 | a block whose markup parses but whose `tool_name` is missing or empty yields no call, whatever a regex would find |
| TagGrammar.TagBlock | athena_dr/agent/model.py:51-77 | the block parser names each call after its block's index |
| TagGrammar.ParseTag | athena_dr/agent/model.py:33-111 | `_parse_xml_tool_calls`: text without `<tool_call>` is returned unchanged with no calls; reported calls are non-empty; the cleaned text is the stripped text with the blocks removed; the ids increase and are never below their positions |
| TagGrammar.ParseTagCalls | athena_dr/agent/model.py:44-103 | the calls are those the block parser makes of the `<tool_call>` blocks, in block order |
| InvokeGrammar.InvokeArgs | athena_dr/agent/model.py:477-492 | the keys are exactly the names whose stripped value is non-empty; each holds the coerced value of the last such pair; values are non-negative integers or texts that are not all digits |
| InvokeGrammar.InvokeCall | athena_dr/agent/model.py:457-502 | after unescaping `\n`, a block yields a call exactly when it starts with a complete `<tag>...</tag>`; the name is that tag and the arguments are `InvokeArgs` of the pairs inside it |
| InvokeGrammar.InvokeBlockParser | athena_dr/agent/model.py:456-502 | the block parser names each call after its block's index |
| InvokeGrammar.ParseInvoke | athena_dr/agent/model.py:431-512 | `_parse_invoke_tool_calls`: text without `<invoke>` is unchanged; the cleaned text is the stripped text with the blocks removed; at most one call per block |
| InvokeGrammar.ParseInvokeCalls | athena_dr/agent/model.py:449-502 | the calls are those the block parser makes of the `<invoke>` blocks, in block order |
| BracketGrammar.CliArgs | athena_dr/agent/model.py:168-180 | the keys are exactly the `--flag` names, without duplicates; each holds the coerced value of the last occurrence of its flag, quoted or bare |
| BracketGrammar.ArrowArguments | athena_dr/agent/model.py:159-180 | no `--args` part gives no arguments; otherwise each flag holds the coerced value of its last occurrence; keys are distinct |
| BracketGrammar.LooseArguments | athena_dr/agent/model.py:202-215 | every key comes from a `'key': value` match; each holds the value of the last match with that key, a quoted text kept as it is and a bare value coerced |
| BracketGrammar.LooseArgsOf | athena_dr/agent/model.py:202-215 | no `args` part gives no arguments; otherwise each key holds the value of its last `'key': value` match |
| BracketGrammar.LooseCall | athena_dr/agent/model.py:194-215 | after a JSON decode error, a call exists exactly when a quoted `name` is found; the name is that non-empty capture and the arguments are the loose `args` reading |
| BracketGrammar.LooseNameNonEmpty | athena_dr/agent/model.py:196-200 | the name the loose pattern captures is never empty |
| BracketGrammar.JsonCall | athena_dr/agent/model.py:187-193 | a decoded object yields a call exactly when its `name` is truthy; its `args` are the arguments when they are an object |
| BracketGrammar.BracketCall | athena_dr/agent/model.py:149-226 | three-way dispatch on the stripped block: the arrow form when its tool name matches, with its flags; otherwise `JsonCall` of the decoded block when it decodes, and `LooseCall` when it does not |
| BracketGrammar.ArrowPrecedence | athena_dr/agent/model.py:154-183 | when the arrow form matches, the JSON decoder is never consulted: any two decoders give the same call |
| BracketGrammar.BracketBlockParser | athena_dr/agent/model.py:148-226 | the block parser names each call after its block's index |
| BracketGrammar.ParseBracket | athena_dr/agent/model.py:113-234 | `_parse_bracket_tool_calls`: text without `[TOOL_CALL]` is unchanged; the blocks are removed and the rest stripped; at most one call per block |
| BracketGrammar.ParseBracketCalls | athena_dr/agent/model.py:141-226 | the calls are those the block parser makes of the `[TOOL_CALL]` blocks, in block order |
| ActionGrammar.DecimalValue | athena_dr/agent/model.py:310-313 | `float` accepts exactly the digit runs with at most one dot and at least one digit; the value is exactly the digits read without the dot over `10^(digits after the dot)`, so the integer part is its floor and an all-digit run keeps its value |
| ActionGrammar.DecimalOf | athena_dr/agent/model.py:310-313 | `w.f` is the digits of `w` and `f` read together over `10^|f|`, and lies between the value of `w` and that plus one |
| ActionGrammar.DecimalRejects | athena_dr/agent/model.py:310-313 | `.` and `1.2.3` make `float` raise |
| ActionGrammar.Number | athena_dr/agent/model.py:309-313 | a numeral is an integer exactly when it is all digits; otherwise it is a non-negative float |
| ActionGrammar.KeyValueArgs | athena_dr/agent/model.py:304-315 | the block is abandoned exactly when a numeral makes `float` raise; otherwise the keys are those of the pairs that stored a value, each holding the value of its last such pair (quoted text, number or bare word) |
| ActionGrammar.KeyValueKeys | athena_dr/agent/model.py:304-315 | without a rejected numeral, a key is stored exactly when some pair with that key stores a value |
| ActionGrammar.KeyValueMatchesNumeric | athena_dr/agent/model.py:304 | the numeric group of every key-value match holds digits and dots only |
| ActionGrammar.FallbackArguments | athena_dr/agent/model.py:296-315 | no `"arguments": {...}` gives no arguments; any result has distinct keys |
| ActionGrammar.FallbackCall | athena_dr/agent/model.py:289-325 | the regex reading yields a call exactly when a `"name"` is found and no numeral raises; the name is the first quoted name and the arguments the fallback arguments |
| ActionGrammar.ActionCall | athena_dr/agent/model.py:262-325 | a non-empty decoded object decides alone: truthy `name`, and `arguments` passed on as given (`{}` when missing); anything else falls back to the regex reading |
| ActionGrammar.NamelessObjectSkipped | athena_dr/agent/model.py:273-277 | a decoded object without a truthy `name` yields nothing, whatever the regexes would find |
| ActionGrammar.ActionBlockParser | athena_dr/agent/model.py:262-328 | the block parser names each call after its block's index |
| ActionGrammar.ParseAction | athena_dr/agent/model.py:236-341 | `_parse_action_tool_calls`: text without `Action:` is unchanged; the blocks are removed, then empty cite markers, with strips; at most one call per block |
| ActionGrammar.ParseActionCalls | athena_dr/agent/model.py:254-328 | the calls are those the block parser makes of the `Action:` blocks, in block order |
| ActionGrammar.ActionGroupUnclosed | athena_dr/agent/model.py:259-264 | the group handed to the decoder never holds a `}` |
| ActionGrammar.StrayBrace | athena_dr/agent/model.py:259-333 | removing `Action:{{}}` leaves the nested object's closing brace |
| EventGrammar.Alias | athena_dr/agent/model.py:380-385 | `scholarly_search` and `web_search` are renamed to their tools; every other name is kept |
| EventGrammar.AliasIdempotent | athena_dr/agent/model.py:380-385 | renaming twice is renaming once |
| EventGrammar.FetchCall | athena_dr/agent/model.py:398-419 | a page fetch names the fetch tool and has the URL as its only argument |
| EventGrammar.ItemCall | athena_dr/agent/model.py:373-395 | an entry yields a call exactly when it is an object with a truthy `search_type` or `tool`; the consulted keys are popped and the rest are the arguments, unchanged |
| EventGrammar.UnnamedItemSkipped | athena_dr/agent/model.py:376-379 | an entry with neither a truthy `search_type` nor a truthy `tool` is dropped |
| EventGrammar.ListCalls | athena_dr/agent/model.py:372-395 | consecutive ids; every call comes from an entry of the list |
| EventGrammar.EventCalls | athena_dr/agent/model.py:366-419 | a non-object or undecodable event gives nothing; without `tool_calls`, a top-level `webpage_url` gives one fetch; a `tool_calls` list gives its calls, an object `tool_calls` with a `webpage_url` one fetch, any other `tool_calls` nothing; the ids are consecutive |
| EventGrammar.AllEventCalls | athena_dr/agent/model.py:365-422 | the ids run consecutively over all events (`len(tool_calls)`) |
| EventGrammar.ParseEvent | athena_dr/agent/model.py:343-429 | `_parse_json_tool_calls`: text without `[Event:` is unchanged; the blocks are removed and the rest stripped; the calls are exactly those of the events in order, numbered by position |
| EventGrammar.NoEventWithoutMarker | athena_dr/agent/model.py:362-363 | text without `[Event:` holds no event |
| EventGrammar.FetchesOnly | athena_dr/agent/model.py:396-419 | a decoded event with no array inside yields only page fetches |
| EventGrammar.EventListBranchDead | athena_dr/agent/model.py:362-395 | events never contain `]`, so with a decoder that needs `]` for arrays, every call is a page fetch |
| Combiner.Grammars | athena_dr/agent/model.py:534-569 | the five grammars in the order they run: tag, invoke, bracket, action, event |
| Combiner.GrammarsWellBehaved | athena_dr/agent/model.py:41-42 | each grammar turns the empty text away and reports an absent list rather than an empty one |
| Combiner.Run | athena_dr/agent/model.py:534-564 | each grammar runs on the text the previous one left |
| Combiner.Append | athena_dr/agent/model.py:541-545 | appended calls keep their bodies and are renumbered from the number already gathered |
| Combiner.Gather | athena_dr/agent/model.py:540-569 | the earlier calls are kept; the bodies are concatenated in stage order; the later ids are positions |
| Combiner.Combine | athena_dr/agent/model.py:514-571 | for any five well-behaved grammars: no calls exactly when every stage is silent; the last stage's text; all bodies in order; the first grammar's ids kept, the others renumbered |
| Combiner.ParseAll | athena_dr/agent/model.py:514-571 | `_parse_all_tool_calls` as written, with the properties of `Combine` |
| CombinerIds.DuplicateIds | athena_dr/agent/model.py:536-545 | a tag call whose id reaches the number of tag calls, with a later call at that position, gives two calls the same id |
| CombinerIds.WitnessBlockCalls | athena_dr/agent/model.py:52-77 | the second `<tool_call>` block of the witness text yields the call `a` with id 1 and no arguments |
| CombinerIds.WitnessActionCall | athena_dr/agent/model.py:262-288 | the witness's `Action:` block decodes to the call `b` with no arguments |
| CombinerIds.DuplicateIdsWitness | athena_dr/agent/model.py:514-571 | on the text in the first finding, with an XML parser and a JSON decoder that agree with ElementTree and `json.loads` on the texts involved, two combined calls share the id `call_1` |
| CombinerIds.ParseAllFixed | athena_dr/agent/model.py:514-571 | the same text and bodies, with every id equal to its position, so all ids are distinct |
| Answers.DropThink | athena_dr/agent/workflows/sub_agents.py:75-76 | text without `</think>` is kept; otherwise what follows the first `</think>`, with the later ones removed, stripped |
| Answers.DropThinkOnce | athena_dr/agent/workflows/sub_agents.py:75-76 | reasoning, one `</think>`, then the rest: the rest comes back stripped |
| Answers.AnswerSpan | athena_dr/agent/workflows/sub_agents.py:78-81 | text without `<answer>` is kept; otherwise the stripped text after the first `<answer>` up to the next `<answer>` or `</answer>`, which holds neither tag |
| Answers.AnswerSpanWrapped | athena_dr/agent/workflows/sub_agents.py:78-81 | text, `<answer>`, answer, `</answer>`, anything: the answer comes back stripped |
| Answers.AnswerSpanIdempotent | athena_dr/agent/workflows/sub_agents.py:78-81 | unwrapping twice is unwrapping once |
| Answers.Unbox | athena_dr/agent/workflows/sub_agents.py:86-87 | text without `\boxed{` is kept; otherwise the stripped box content up to the first `}` |
| Answers.PostprocessPlain | athena_dr/agent/workflows/sub_agents.py:73-89 | output with none of the markers is returned as it is |
| Answers.PostprocessBoxed | athena_dr/agent/workflows/sub_agents.py:83-89 | a boxed answer at the end comes back as its stripped content |
| Answers.ReaderPostprocess | athena_dr/agent/workflows/web_page_reader.py:49-57 | after the reasoning, the stripped text after the first `Cleaned webpage text:` up to any second one; text without the marker is kept |
| Answers.ReaderPostprocessWrapped | athena_dr/agent/workflows/web_page_reader.py:49-57 | reasoning, the marker, then a page: the page comes back stripped |
| Prompts.SearchField | athena_dr/agent/workflows/sub_agents.py:24-54 | the instruction chosen for each dataset name, both directions of every case, and the `ValueError` for an unclear sft-mix name |
| Prompts.UserTurn | athena_dr/agent/workflows/sub_agents.py:61-69 | the question, then a blank line and the instruction when there is one |
| Prompts.SearchPrompt | athena_dr/agent/workflows/sub_agents.py:16-71 | a system turn and a user turn exactly when the name is accepted |
| Prompts.AnswerField | athena_dr/agent/workflows/sub_agents.py:98-119 | the instruction of the answer agent for each name, and the `ValueError` for an unknown name |
| Prompts.AnswerPrompt | athena_dr/agent/workflows/sub_agents.py:96-144 | system, user, the history as the assistant's turn, then the fixed request |
| Prompts.ShortFormDivergence | athena_dr/agent/workflows/sub_agents.py:47-113 | an unlisted `short_form` name asks the search agent for an exact answer and the answer agent for a short-form one |
| Prompts.HleOnlyForSearch | athena_dr/agent/workflows/sub_agents.py:24-119 | `hle` is an exact-answer set for the search agent; the answer agent rejects it |
| Prompts.NoNameNoInstructions | athena_dr/agent/workflows/sub_agents.py:47-69 | without a dataset name, the user turn is the bare question |
| AutoSearch.SearchBackends | athena_dr/agent/workflows/auto_search_workflow.py:91-152 | `serper`, `s2` and `s2-only` are accepted, each with its pair of search tools; any other name raises |
| AutoSearch.BrowseBackendOf | athena_dr/agent/workflows/auto_search_workflow.py:154-192 | `serper`, `crawl4ai` and `jina` are accepted; no name gives the placeholder tool; any other name raises |
| AutoSearch.Setup | athena_dr/agent/workflows/auto_search_workflow.py:91-213 | the search name is checked before the browse name; a page-reading agent is chained exactly when requested |
| AutoSearch.TallyOutputs | athena_dr/agent/workflows/auto_search_workflow.py:274-309 | the loop over tool outputs: total, failures and errors in order, searched and browsed links; it raises exactly when a search output has no documents |
| AutoSearch.Urls | athena_dr/agent/workflows/auto_search_workflow.py:286-288 | one URL per document, in order |
| AutoSearch.PresentUrls | athena_dr/agent/workflows/auto_search_workflow.py:297-304 | exactly the non-empty document URLs |
| AutoSearch.FailedErrorsAppend | athena_dr/agent/workflows/auto_search_workflow.py:279-283 | the errors of a concatenation are those of each part, in order |
| AutoSearch.FailedErrorsCount | athena_dr/agent/workflows/auto_search_workflow.py:279-283 | no more failures than calls; an error is listed exactly when some output failed with it |
| AutoSearch.PlaceholderCountsAsFailed | athena_dr/agent/workflows/sub_agents.py:169-180 | a `None` error is not `""`, so the placeholder browse tool's call counts as failed |
| AutoSearch.SearchedLinksSource | athena_dr/agent/workflows/auto_search_workflow.py:285-288 | a link is searched exactly when a search output has a document with that URL |
| AutoSearch.BrowsedLinksSource | athena_dr/agent/workflows/auto_search_workflow.py:290-304 | browsed links come only from browse outputs and are never empty |
| AutoSearch.BrowsedLinksComplete | athena_dr/agent/workflows/auto_search_workflow.py:300-304 | without a chained agent, every non-empty URL of a browse output is listed |
| AutoSearch.ToSet | athena_dr/agent/workflows/auto_search_workflow.py:310-311 | `set(...)`: the same members as the list |
| AutoSearch.Run | athena_dr/agent/workflows/auto_search_workflow.py:231-346 | `__call__`: counts exactly on the `<answer>` path; the post-processed final response on each path; the link sets; the prompts' errors propagated |
| AutoSearch.RunFixed | athena_dr/agent/workflows/auto_search_workflow.py:313-346 | the same call, with the counts reported on both paths |
| AutoSearch.UnnamedAnswerPathFails | athena_dr/agent/workflows/sub_agents.py:111-119 | without a dataset name, output that lacks `<answer>` ends with `Unknown dataset name: None` |
| DeepResearch.PostprocessFinalResult | athena_dr/agent/deep_research.py:85-94 | text without `<answer>` is kept; otherwise the result holds no answer tags and unwrapping it again changes nothing |
| DeepResearch.FinalAnswerCheck | athena_dr/agent/deep_research.py:38-45 | both token counts are doubled, and the answer is always let through |
| DeepResearch.StepCalls | athena_dr/agent/deep_research.py:115-120 | a step contributes exactly its tool calls other than `final_answer` |
| DeepResearch.WithoutFinalAnswer | athena_dr/agent/deep_research.py:118-120 | exactly the names other than `final_answer` |
| DeepResearch.ToolCallNames | athena_dr/agent/deep_research.py:114-120 | `final_answer` is never collected |
| DeepResearch.ToolCallNamesAppend | athena_dr/agent/deep_research.py:114-120 | the names follow the steps in order |
| DeepResearch.ToolCallNamesSource | athena_dr/agent/deep_research.py:114-120 | a name is collected exactly when some action step called it and it is not `final_answer` |
| DeepResearch.Predict | athena_dr/agent/deep_research.py:96-127 | `total_tool_calls` is the length of `tool_calls`; the final result is unwrapped |
| DeepResearch.SelectExamples | athena_dr/agent/deep_research.py:139 | no limit and a limit of 0 both mean everything; a limit past the end raises; otherwise a prefix of that length |
| DeepResearch.GenerateSftTraces | athena_dr/agent/deep_research.py:130-164 | one trace per selected example whose prediction did not raise, in order, with prompt, answer and tools |
| TokenBudget.Configure | athena_dr/agent/token_limited_agent.py:15-26 | the budget defaults to 10000; the fallback of 1000 steps applies only when `max_steps` is left out |
| TokenBudget.Step | athena_dr/agent/token_limited_agent.py:28-45 | refused exactly when the total has reached the budget, with the message and the state unchanged; otherwise the parent step runs |
| TokenBudget.RefusalMessageNamesTotal | athena_dr/agent/token_limited_agent.py:37-40 | different totals give different refusal messages |
| TokenBudget.RefusalPersists | athena_dr/agent/token_limited_agent.py:34-36 | with a total that never goes down, a refusal is followed only by refusals |
| TokenBudget.RunSteps | athena_dr/agent/token_limited_agent.py:28-45 | the steps that ran are exactly the unrefused ones; with a total that never goes down, they are the first ones |
| Rejection.RemovePunctuation | athena_dr/agent/workflows/rejection_sampling.py:48-50 | every character that is not punctuation is kept, as often as it occurs, and punctuation never |
| Rejection.Without | athena_dr/agent/workflows/rejection_sampling.py:49-50 | the characters outside the excluded set are kept, each as often as it occurs, and excluded ones never |
| Rejection.WithoutAppend | athena_dr/agent/workflows/rejection_sampling.py:49-50 | the filter works character by character: it distributes over concatenation |
| Rejection.RemovePunctuationAppend | athena_dr/agent/workflows/rejection_sampling.py:48-50 | removing punctuation works character by character: it distributes over concatenation, so the kept characters stay in order |
| Rejection.RemovePunctuationChar | athena_dr/agent/workflows/rejection_sampling.py:48-50 | one character is dropped exactly when it is punctuation |
| Rejection.RemovePunctuationKeeps | athena_dr/agent/workflows/rejection_sampling.py:48-50 | text without punctuation passes unchanged |
| Rejection.DropArticles | athena_dr/agent/workflows/rejection_sampling.py:52-53 | every word that is not `a`, `an` or `the` is kept as often as it occurs, and articles never |
| Rejection.DropArticlesKeeps | athena_dr/agent/workflows/rejection_sampling.py:52-53 | a list without articles passes unchanged |
| Rejection.DropArticlesAppend | athena_dr/agent/workflows/rejection_sampling.py:52-53 | dropping articles works word by word: it distributes over concatenation |
| Rejection.Tokens | athena_dr/agent/workflows/rejection_sampling.py:43-61 | the tokens are non-empty and contain no space; a word is a token exactly when it is a word of the lower-cased, punctuation-free text and not an article, and it occurs as often as in that text |
| Rejection.NormalizeSplits | athena_dr/agent/workflows/rejection_sampling.py:55-60 | splitting the normalised text gives back the tokens |
| Rejection.TokensSettled | athena_dr/agent/workflows/rejection_sampling.py:43-58 | every token character is lower case and not punctuation |
| Rejection.NormalizeIdempotent | athena_dr/agent/workflows/rejection_sampling.py:43-58 | normalising twice is normalising once |
| Rejection.OverlapBound | athena_dr/agent/workflows/rejection_sampling.py:63-64 | the lists share no more tokens than either holds |
| Rejection.F1 | athena_dr/agent/workflows/rejection_sampling.py:63-74 | no shared token scores 0; otherwise the harmonic mean of precision and recall, which is `2n/(p+g)` |
| Rejection.F1Bounds | athena_dr/agent/workflows/rejection_sampling.py:40 | the score lies between 0 and 1 |
| Rejection.F1Symmetric | athena_dr/agent/workflows/rejection_sampling.py:63-74 | swapping prediction and gold does not change the score |
| Rejection.F1Identical | athena_dr/agent/workflows/rejection_sampling.py:63-74 | a non-empty token list against itself scores 1 |
| Rejection.SameNormalisationScoresOne | athena_dr/agent/workflows/rejection_sampling.py:38-74 | answers with the same non-empty normalisation score 1 |
| Rejection.CheckAnswer | athena_dr/agent/workflows/rejection_sampling.py:83-105 | a score at the threshold or above accepts; below it, only a judge reply of `a` or `A` accepts |
| Rejection.JudgeSaysA | athena_dr/agent/workflows/rejection_sampling.py:101 | the replies that lower-case to `a` are exactly `a` and `A` |
| Rejection.Check | athena_dr/agent/workflows/rejection_sampling.py:76-105 | a prediction that reaches the threshold is accepted |
| Rejection.ExactMatchAccepted | athena_dr/agent/workflows/rejection_sampling.py:76-105 | a prediction that normalises to the target is accepted whatever the judge says |
| GenerateTrace.Truncate | athena_dr/agent/workflows/generate_trace.py:29-30 | a prefix of the dataset: the first `max_examples` rows, none for a limit of 0 or less, everything without a limit or with one past the end |
| GenerateTrace.SourceIdsDistinct | athena_dr/agent/workflows/generate_trace.py:55 | different examples get different source ids |
| GenerateTrace.ProcessExample | athena_dr/agent/workflows/generate_trace.py:41-76 | the record's fields and its three-turn conversation; `KeyError` exactly when the trace lacks the counts |
| GenerateTrace.TryExample | athena_dr/agent/workflows/generate_trace.py:89-108 | the attempts run until one is accepted or they run out; a record exactly when the last attempt was accepted |
| GenerateTrace.KeptIndices | athena_dr/agent/workflows/generate_trace.py:86-103 | exactly the examples that gave a record, in increasing order |
| GenerateTrace.Kept | athena_dr/agent/workflows/generate_trace.py:102 | the records of those examples, in order |
| GenerateTrace.RetryLoop | athena_dr/agent/workflows/generate_trace.py:86-108 | every example is tried within the attempt limit; the records are kept in example order; an exception ends the loop |
| GenerateTrace.Attempt | athena_dr/agent/workflows/generate_trace.py:41-101 | one run of `process_example` and the check as written: with documented searches, a record exactly when the search output holds `<answer>`, and otherwise the `Unknown dataset name: None` error; a record carries the source id and the tool-output count; the verdict uses 0.9 |
| GenerateTrace.AttemptFixed | athena_dr/agent/workflows/generate_trace.py:41-101 | the attempt with the dataset name and threshold passed on: it succeeds for every accepted name and documented searches, carries the source id and count, and judges the final response with the configured threshold |
| GenerateTrace.GenerateTraces | athena_dr/agent/workflows/generate_trace.py:79-113 | every example's outcome is what its attempts give: they run until one is accepted or the attempts run out, and the record is the accepted attempt's; the records of the examples that gave one, in order; an error only from some attempt; and a run aborts as soon as one example's first search output lacks `<answer>` |
| GenerateTrace.GenerateTracesFixed | athena_dr/agent/workflows/generate_trace.py:79-113 | the corrected loop: every example's outcome is what its attempts, with the dataset name and threshold passed on, give; records carry the source ids of the examples that gave them, in dataset order, each after at most the allowed number of attempts |
| GenerateTrace.AnswerPathRecordFails | athena_dr/agent/workflows/generate_trace.py:59 | a workflow result from the answer-agent path makes `process_example` raise `KeyError` |
| GenerateTrace.FixedRunMakesRecord | athena_dr/agent/workflows/generate_trace.py:53-59 | with the counts on both paths, every workflow result makes a record with the number of tool outputs |
| GenerateTrace.ConfiguredThresholdIgnored | athena_dr/agent/workflows/generate_trace.py:25-33 | an attempt of a generator configured with 0.5 is rejected at an F1 of 0.8 when the judge says `B` |
| GenerateTrace.EightTenths | athena_dr/agent/workflows/rejection_sampling.py:63-74 | `x y z` against `x y` scores exactly 0.8 |
| GenerateTrace.FixedThresholdHonoured | athena_dr/agent/workflows/rejection_sampling.py:83-95 | with the dataset name and the threshold passed on, an attempt whose score reaches the configured threshold is accepted without the judge |
| Citations.NumberedIdInjective | athena_dr/agent/tools/pubmed.py:207 | numbered citation ids with one prefix name their number |
| Citations.TaggedEntry | athena_dr/agent/tools/serper_search.py:47-48 | an entry built as tag plus body opens with the tag |
| Serper.AnswerText | athena_dr/agent/tools/serper_search.py:46 | the answer when it is truthy, otherwise the snippet |
| Serper.OptionalLine | athena_dr/agent/tools/serper_search.py:58-63 | a knowledge-graph line exists exactly for a truthy value |
| Serper.AttributeLines | athena_dr/agent/tools/serper_search.py:65-67 | one `key: value` line per attribute, in order |
| Serper.GraphLines | athena_dr/agent/tools/serper_search.py:54-68 | the tagged head with the title or `N/A`, then the optional `Type`, `Description` and `URL` lines in that order, then one `key: value` line per attribute in order |
| Serper.FirstChars | athena_dr/agent/tools/serper_search.py:58-63 | the `Type`, `Description` and `URL` lines are present exactly when their values are truthy |
| Serper.OrganicEntries | athena_dr/agent/tools/serper_search.py:71-78 | one entry per organic result, numbered from 1 |
| Serper.ExpectedIdsDistinct | athena_dr/agent/tools/serper_search.py:45-73 | the citation ids of one response are all distinct |
| Serper.EntriesTagged | athena_dr/agent/tools/serper_search.py:42-78 | each entry opens with its citation tag, in order: answer box, knowledge graph, organic |
| Serper.EntryTagged | athena_dr/agent/tools/serper_search.py:42-78 | the same for one entry |
| Serper.Format | athena_dr/agent/tools/serper_search.py:80-82 | `No results found.` exactly when there are no entries; otherwise the entries joined with newlines, opening with the first tag |
| Serper.NoResultsIff | athena_dr/agent/tools/serper_search.py:43-82 | the fixed message appears exactly when there is no answer box, no knowledge graph and no organic result |
| PubMed.NextOffset | athena_dr/agent/tools/pubmed.py:53 | the next offset is defined exactly for digit strings, as their sum |
| PubMed.NextOffsetAdds | athena_dr/agent/tools/pubmed.py:53 | the next page starts at offset plus limit |
| PubMed.Authors | athena_dr/agent/tools/pubmed.py:88-95 | exactly the authors with both names, as `Last, Fore`, in order |
| PubMed.AuthorsAppend | athena_dr/agent/tools/pubmed.py:88-95 | the rule works element by element |
| PubMed.AuthorsAllComplete | athena_dr/agent/tools/pubmed.py:88-95 | complete elements give one author each, in order |
| PubMed.MergeMissing | athena_dr/agent/tools/pubmed.py:141-143 | only missing keys are added; existing keys keep their values |
| PubMed.StopIndex | athena_dr/agent/tools/pubmed.py:138-143 | the index where the merge loop raises, or the end |
| PubMed.ClearCitations | athena_dr/agent/tools/pubmed.py:145-146 | every paper's `citationCount` becomes `None`; nothing else changes |
| PubMed.Enrich | athena_dr/agent/tools/pubmed.py:123-149 | a usable reply merges each item into its paper; a failure, even midway, clears every `citationCount` |
| PubMed.EnrichKeeps | athena_dr/agent/tools/pubmed.py:140-146 | enrichment never overwrites a key a paper had, except `citationCount` in the handler |
| PubMed.EnrichAdds | athena_dr/agent/tools/pubmed.py:140-143 | each key the reply brings that the paper lacked is added with the reply's value |
| PubMed.AuthorLine | athena_dr/agent/tools/pubmed.py:208-212 | the first five names, then ` et al.` when there are more |
| PubMed.AuthorLineSixEnough | athena_dr/agent/tools/pubmed.py:208-212 | only the first six names matter to the line |
| PubMed.Truncate | athena_dr/agent/tools/pubmed.py:224-229 | an abstract over 500 characters keeps its first 500 followed by `...`; a shorter one is kept |
| PubMed.TruncateIdempotent | athena_dr/agent/tools/pubmed.py:224-229 | a truncated abstract stays as it is |
| PubMed.AuthorNames | athena_dr/agent/tools/pubmed.py:208-209 | no `authors` gives no names; with a list, one name per author, in order, the author's `name` printed or `""` without one |
| PubMed.PaperLines | athena_dr/agent/tools/pubmed.py:214-229 | seven lines, plus the abstract line exactly for a truthy abstract; the first line carries the tag |
| PubMed.PaperEntryTagged | athena_dr/agent/tools/pubmed.py:206-215 | each entry opens with its `pubmed_<n>` tag |
| PubMed.Entries | athena_dr/agent/tools/pubmed.py:206-231 | one entry per paper, numbered from 1 |
| PubMed.Format | athena_dr/agent/tools/pubmed.py:188-237 | no ids, no papers, or the header followed by the entries |
| PubMed.EntriesNumbered | athena_dr/agent/tools/pubmed.py:206-207 | the `n`-th entry opens with `[pubmed_<n>]`, and no two entries share an id |
| Jina.Failure | athena_dr/agent/tools/jina_fetch_content.py:86-90 | a failed page with the URL and the error |
| Jina.StringField | athena_dr/agent/tools/jina_fetch_content.py:77-81 | a missing field takes its default; a present one is its string |
| Jina.MetadataError | athena_dr/agent/tools/jina_fetch_content.py:70-74 | building `JinaMetadata` fails exactly when `metadata` is present and not an object, or its `lang` or `viewport` is present and neither null nor a string |
| Jina.BadMetadataFails | athena_dr/agent/tools/jina_fetch_content.py:68-90 | a `metadata` value that is not an object makes the fetch fail, whatever the other fields |
| Jina.Fetch | athena_dr/agent/tools/jina_fetch_content.py:42-90 | no key, a non-200 status and a raised request each give their failure; with status 200 the fetch succeeds exactly when the body and its `data` are objects, the metadata can be read and every field has its type, and the page then carries the fields with their defaults; unreadable metadata gives its own error |
| Jina.NoKeyNoRequest | athena_dr/agent/tools/jina_fetch_content.py:42-49 | without a key, the reply never matters |
| Jina.StatusNamed | athena_dr/agent/tools/jina_fetch_content.py:60-65 | the failure text names the status: different statuses give different errors |
| Jina.SnippetId | athena_dr/agent/tools/jina_fetch_content.py:133-134 | `jina_` and the first 8 hex digits |
| Jina.SuccessLines | athena_dr/agent/tools/jina_fetch_content.py:140-154 | the title line, the URL, the optional description and date exactly when present, a blank line, and the content or its placeholder |
| Jina.Format | athena_dr/agent/tools/jina_fetch_content.py:136-156 | the error text or the joined lines, both opening with the tag |
| Jina.SuccessEndsWithContent | athena_dr/agent/tools/jina_fetch_content.py:151-156 | a successful output ends with the content or its placeholder |
| PercentEncoding.QuoteDecodes | athena_dr/agent/tools/the_sports_db.py:37 | `quote` is well formed and decodes to exactly the UTF-8 bytes of the text |
| PercentEncoding.QuoteKeepsUnreserved | athena_dr/agent/tools/the_sports_db.py:37 | unreserved text passes unchanged |
| PercentEncoding.WellEncodedNoSlash | athena_dr/agent/tools/the_sports_db.py:37-38 | an encoded text holds no `/` |
| SportsDb.Slug | athena_dr/agent/tools/the_sports_db.py:36 | each character is the lower-case form of the `_`-joined words' character at that position, so the slug has no whitespace |
| SportsDb.SlugIdempotent | athena_dr/agent/tools/the_sports_db.py:36 | a slug is its own slug |
| SportsDb.RequestUrl | athena_dr/agent/tools/the_sports_db.py:36-38 | the base without trailing `/`, the endpoint, the type, and the encoded slug as one path segment |
| SportsDb.Results | athena_dr/agent/tools/the_sports_db.py:43-50 | an error status raises; a list under the key is returned; anything else becomes `[]` |
| SemanticScholar.PutIfGiven | athena_dr/agent/tools/semantic_scholar.py:79-86 | a parameter is set exactly when given; no other key changes |
| SemanticScholar.PaperSearchBase | athena_dr/agent/tools/semantic_scholar.py:72-77 | query, offset 0, the limit capped at 100, the fields |
| SemanticScholar.PaperSearchFilters | athena_dr/agent/tools/semantic_scholar.py:79-86 | each filter is added only when given; other keys are unchanged |
| SemanticScholar.PaperSearchParams | athena_dr/agent/tools/semantic_scholar.py:72-86 | the fixed four with the capped limit, and each filter exactly when given |
| SemanticScholar.StripAll | athena_dr/agent/tools/semantic_scholar.py:187 | each id stripped |
| SemanticScholar.NormalizeIds | athena_dr/agent/tools/semantic_scholar.py:185-188 | splitting the normalised ids at commas gives the original pieces, each stripped |
| SemanticScholar.NormalizeIdsIdempotent | athena_dr/agent/tools/semantic_scholar.py:185-188 | normalising twice is normalising once |
| SemanticScholar.SnippetSearchFilters | athena_dr/agent/tools/semantic_scholar.py:181-188 | each filter added only when given, the ids normalised |
| SemanticScholar.SnippetSearchParams | athena_dr/agent/tools/semantic_scholar.py:176-188 | query and limit, each filter exactly when given, the ids normalised |
| SemanticScholar.DerivedPdf | athena_dr/agent/tools/semantic_scholar.py:105-113 | with an object of external ids: the arXiv PDF link when `ArXiv` is present, else the ACL link when `ACL` is, else nothing |
| SemanticScholar.FillPdf | athena_dr/agent/tools/semantic_scholar.py:103-113 | a paper with a PDF is untouched; a missing one is filled when an id allows it; only `openAccessPdf` can change |
| SemanticScholar.ArxivFirst | athena_dr/agent/tools/semantic_scholar.py:106-113 | ArXiv wins over ACL |
| SemanticScholar.FillPdfIdempotent | athena_dr/agent/tools/semantic_scholar.py:103-113 | filling twice is filling once |
| SemanticScholar.FillPapers | athena_dr/agent/tools/semantic_scholar.py:102-113 | every paper is filled, in order |
| SemanticScholar.FillPapersIdempotent | athena_dr/agent/tools/semantic_scholar.py:102-113 | filling the list twice changes nothing more |
| SemanticScholar.PaperSearchResult | athena_dr/agent/tools/semantic_scholar.py:98-117 | an error status raises; a reply without `data` gets `[]`; otherwise the papers are filled; Ok exactly for a list of objects |
| WebPageReader.PerDocument | athena_dr/agent/workflows/web_page_reader.py:37 | `32000*4 // n`: `n` shares fit the budget and one more character each would not |
| WebPageReader.DocumentText | athena_dr/agent/workflows/web_page_reader.py:33-44 | an `output` is used as it is; other values are rendered; no documents give `""` |
| WebPageReader.PreprocessInput | athena_dr/agent/workflows/web_page_reader.py:29-47 | the question must be set; the input pairs it with the document text |
| WebPageReader.DocumentTextBound | athena_dr/agent/workflows/web_page_reader.py:35-40 | the document text stays within the budget plus the newlines |
| WebPageReader.DocumentPiecesArePrefixes | athena_dr/agent/workflows/web_page_reader.py:37 | each piece is the start of its document, and the whole document when it fits |
| WebPageReader.SplitOnce | athena_dr/agent/workflows/web_page_reader.py:106 | the text before the first separator and after it, which rebuild the text |
| WebPageReader.UrlParse | athena_dr/agent/workflows/web_page_reader.py:106 | the scheme is the lower-cased text before the first `:` when it is a scheme |
| WebPageReader.WikiUrlParses | athena_dr/agent/workflows/web_page_reader.py:106-109 | a plain `https://<host>/wiki/<title>` parses into its scheme, host and path |
| WebPageReader.RestUrl | athena_dr/agent/workflows/web_page_reader.py:110-114 | the REST URL, with a title that is well encoded, one path segment, and decodes to the unquoted title |
| WebPageReader.Collapse | athena_dr/agent/workflows/web_page_reader.py:75-76 | collapsing keeps the words |
| WebPageReader.CollapseIdempotent | athena_dr/agent/workflows/web_page_reader.py:75-76 | collapsing twice is collapsing once |
| WebPageReader.GetText | athena_dr/agent/workflows/web_page_reader.py:100-123 | the page text is at most 32000 characters; a 403 on a Wikipedia article is retried on the REST endpoint; every other failure raises |
| WebPageReader.PageTexts | athena_dr/agent/workflows/web_page_reader.py:125 | one text per URL in order, each within the limit; the first failure ends the run |
| ToolTable.OptionTypes | athena_dr/utils.py:18-21 | an option that is a number, null, boolean, a string containing `type` or a list holding `"type"` raises; an object whose `type` is not a string raises `TypeError`; otherwise the `type`s of the options that carry one, position by position, in option order |
| ToolTable.TypedIndices | athena_dr/utils.py:18-21 | the positions of the options that carry a `type`, strictly increasing, every such position included |
| ToolTable.TypeString | athena_dr/utils.py:13-25 | the schema's string type, a blank for a null type, and an error for any other type; else the option types joined with ` \| `, an empty cell for an object `anyOf` none of whose keys contains `type` or for a string `anyOf`, and an error for other `anyOf` values; else `object` for `allOf`, else `any` |
| ToolTable.AnyOfTypesRecoverable | athena_dr/utils.py:22 | when no type contains `\|`, splitting the cell at ` \| ` gives back the option types |
| ToolTable.RequiredCell | athena_dr/utils.py:44-46 | the mark exactly for the required names |
| ToolTable.DefaultCell | athena_dr/utils.py:48-57 | a dash for a missing or null default, lower-case booleans, quoted strings, printed integers |
| ToolTable.DefaultStringQuoted | athena_dr/utils.py:54-55 | every string default, empty included, is itself between double quotes |
| ToolTable.DescriptionCell | athena_dr/utils.py:59-63 | at most 60 characters; a longer text keeps 57 and ends in `...` |
| ToolTable.DescriptionCellIdempotent | athena_dr/utils.py:59-63 | a shortened description stays as it is |
| ToolTable.RequiredNames | athena_dr/utils.py:38 | `set(...)` of a list's strings, an object's keys or a string's characters; a list holding a list or an object raises, and so do null, numbers and booleans |
| ToolTable.PropertyRow | athena_dr/utils.py:40-65 | one property's row, with its type, required mark, default and description cells |
| ToolTable.ParametersTable | athena_dr/utils.py:28-67 | the table exists exactly when the properties are an object, `required` is readable and every row can be built; then one row per property, in schema order, each the property's own row |
| Http.Checked | athena_dr/agent/tools/semantic_scholar.py:98-99 | `raise_for_status` then `json()`: errors on 4xx and 5xx, otherwise the decoded body |

## Left out

- The network, clocks, `uuid4` ids, environment variables other than the Jina key, `print`
  and Rich console rendering, and `weave` tracing are not modelled; their results are inputs
  or are dropped.
- JSON and XML decoding, MD5, `unquote`, BeautifulSoup's visible-text extraction and the
  language-model calls are function parameters, not models.
- Character classes (`\w`, `\d`, `isdigit`, `lower`) are ASCII-only. Unicode digits and case
  mappings beyond ASCII are not modelled.
- `Rejection.DropArticles`: it removes whole whitespace-separated words after splitting. The
  source's `\b(a|an|the)\b` substitution runs before splitting and also removes an article
  that touches a non-word character other than a space. After ASCII punctuation is removed,
  only non-ASCII characters such as `“` or `—`, and the ASCII control characters that are not
  whitespace (`\x00`–`\x08`, `\x0e`–`\x1b` and `\x7f`), can do that: `“the answer”` gives
  the source the tokens `“` and `answer”`, and the model `“the` and `answer”`; `\x0ethe x`
  gives the source `\x0e` and `x`, and the model `\x0ethe` and `x`. The two readings agree on
  text whose non-space characters are ASCII letters and digits.
- `GenerateTrace.GenerateTraces`: the model covers one call on a fresh generator. The source
  appends to `self.sft_traces`, which `__init__` creates and every call returns, so a second
  call on the same generator also returns the earlier calls' records, and after an exception
  the object keeps the records appended so far. The model starts each run from no records
  and returns only the error on failure. The same holds for `GenerateTrace.GenerateTracesFixed`.
- `Rejection.Tokens`: its membership statement is about this whole-word reading, for the
  reason given under `Rejection.DropArticles`.
- Scores are exact rationals (`real`), not binary floating point.
- `ActionGrammar.Number`: a float is kept as an exact decimal value, not a binary float.
- `ActionGrammar.FallbackArguments`: its contract states only the missing-arguments case and distinct keys; the pairs themselves are stated by `KeyValueArgs`.
- Python's `int()` also accepts signs, underscores and surrounding spaces; only digit
  strings reach it in the modelled paths.
- smolagents' run loop, its memory and the `final_answer` tool are inputs (memory steps, the
  final text).
- `Dataset.push_to_hub` and the export of traces are not modelled.
- `fetch_pubmed_details`' XML walk is not modelled apart from the author rule. Titles,
  abstracts and dates are inputs.
- `PubMed.AuthorNames`: an author that is not an object makes Python's `author.get` raise
  `AttributeError`; the model prints an empty name for it instead. An `authors` value that is
  not a list is read as no authors.
- The Jina reply's `metadata` is checked, as `JinaMetadata` checks it, but not kept: the tool
  never shows it. Pydantic's validation is reduced to "a field present with another type
  fails"; its coercions and its error text for several bad fields at once are not modelled.
- `Jina.Fetch`: the texts of the errors raised inside its `try` are placeholders naming the
  exception type (for example `AttributeError: reply has no attribute 'get'`). Python's
  `str(e)` differs (`'list' object has no attribute 'get'`, pydantic's multi-line message);
  the missing-key and bad-status texts and the fact of failure are exact.
- The snippet search returns the decoded reply unchanged after `raise_for_status`. Nothing
  beyond `Http.Checked` is modelled for it.
- `WebPageReader.UrlParse`: its contract states only the scheme. Netloc and path are stated for plain Wikipedia URLs by `WikiUrlParses`. `urlsplit`'s stripping of control and whitespace characters and its port and bracket validation are not modelled.
- `WebPageReader.DocumentText`: its contract states the non-list cases and the empty list. The list case is stated by `DocumentTextBound` and `DocumentPiecesArePrefixes`.
- `SemanticScholar.DerivedPdf`: external ids that are not an object (a list or a string, where Python's `in` tests membership) derive no link.
- `SemanticScholar.PaperSearchResult`: a `data` value that is not a list of objects is rejected. Python iterates a dictionary's keys or a string's characters instead: an empty one gives no papers, and a non-empty one fails on `.get`.
- A `limit` of `None` passed explicitly to the paper search makes `min(None, 100)` raise.
  The model's limit is always an integer.
- `ToolTable.TypeString`: Rich is not part of this model; its drawing of `None` as a blank cell and its `NotRenderableError` for other non-string cells are taken as given.
- `Serper`: response fields are strings or absent (`Option<string>`). A JSON `null` is read
  as absent, so a `null` title prints `N/A` where Python prints `None`; non-string values
  are not modelled.
- `JsonValues.Show` prints floats, lists and dictionaries as placeholders. Only the scalars
  the formatters print are exact.
- `pretty_print_tools` and the MCP client that lists the tools are console output and are
  not modelled.
- `run_web_page_reader`'s per-text reader-agent calls are language-model calls. Only the
  texts handed to them and the post-processing of their output are modelled.
- The native tool calls of the model response and the stop-sequence trimming in
  `generate` are not modelled. The combined parser is modelled from `_parse_all_tool_calls`
  on.

## Findings

| source | as written | input that shows it | evidently intended | confidence | as-written member | corrected member |
|---|---|---|---|---|---|---|
| athena_dr/agent/model.py:73, 543-569 | XML-format calls keep `call_<block index>`, counting skipped blocks, while later formats are renumbered from the number of calls gathered so far | `<tool_call></tool_call><tool_call><tool_name>a</tool_name></tool_call>Action: {"name": "b"}` gives two calls with id `call_1` | every combined call has a distinct id, as the "re-number to avoid conflicts" comment says | not executed; high | CombinerIds.DuplicateIdsWitness | CombinerIds.ParseAllFixed |
| athena_dr/agent/workflows/generate_trace.py:59 with athena_dr/agent/workflows/auto_search_workflow.py:341-346 | `process_example` reads `trace["total_tool_calls"]`, which the workflow returns only when the search output holds `<answer>` | once a dataset name is passed (see the next row), any search output without `<answer>` and with an accepted name: `KeyError` | the counts are returned on both paths, so every workflow result can become a record | not executed; medium | GenerateTrace.AnswerPathRecordFails | GenerateTrace.FixedRunMakesRecord |
| athena_dr/agent/workflows/generate_trace.py:52 with athena_dr/agent/workflows/sub_agents.py:111-119 | `process_example` calls the workflow without `dataset_name`, so the answer agent's prompt reaches `raise ValueError(f"Unknown dataset name: {dataset_name}")` | any example whose search output lacks `<answer>` and whose searches all found documents: `generate_trace` aborts with `Unknown dataset name: None` | the generator's dataset name is passed to the workflow | not executed; high | GenerateTrace.GenerateTraces | GenerateTrace.AttemptFixed |
| athena_dr/agent/workflows/generate_trace.py:25, 28, 33 | the generator stores `f1_overlap_score_threshold` but builds its `TraceChecker` without it, so the checker always uses 0.9 | threshold 0.5, prediction `x y z`, target `x y` (F1 0.8), judge reply `B`: the example is rejected | the configured threshold is passed to the checker | not executed; high | GenerateTrace.ConfiguredThresholdIgnored | GenerateTrace.FixedThresholdHonoured |

=== FILE: action_grammar.dfy ===
/** The `Action: {...}` grammar (`_parse_action_tool_calls`). The braces after `Action:` are
    decoded as JSON; a block that does not decode to a non-empty object is read by regexes
    for `"name": "..."` and `"arguments": {...}`. Once a call is found, the blocks and then
    empty `<cite id=...></cite>---` markers are deleted. */
module ActionGrammar {
  import opened Wrappers
  import opened Text
  import opened JsonValues
  import opened Patterns
  import opened ToolCalls

  // ---------------------------------------------------------------------------
  // `float(v)` on the numerals the key-value pattern captures

  /** A run of ASCII digits and dots, the only texts `[\d.]+` captures. */
  predicate NumericRun(v: string) {
    forall k :: 0 <= k < |v| ==> IsAsciiDigit(v[k]) || v[k] == '.'
  }

  /** The numerals `float` accepts among those runs: digits only, or digits on either side
      of a single dot with at least one digit in all. */
  predicate DecimalShaped(v: string) {
    || IsDigits(v)
    || exists i :: 0 <= i < |v| && v[i] == '.' && AllDigits(v[..i]) && AllDigits(v[i + 1..]) && |v| >= 2
  }

  function Pow10(n: nat): (r: nat)
    ensures r > 0
  {
    if n == 0 then 1 else 10 * Pow10(n - 1)
  }

  /** The digits in front of the first dot. */
  function IntegerPart(v: string): (w: string)
    requires NumericRun(v)
    ensures AllDigits(w)
    ensures |w| <= |v| && v[..|w|] == w
    ensures |w| < |v| ==> v[|w|] == '.'
    decreases |v|
  {
    if |v| == 0 || v[0] == '.' then [] else [v[0]] + IntegerPart(v[1..])
  }

  /** The digits after the first dot; empty when there is no dot. */
  function FractionPart(v: string): string
    requires NumericRun(v)
  {
    var n := |IntegerPart(v)|;
    if n < |v| then v[n + 1..] else ""
  }

  /** `float(v)`: `None` stands for the `ValueError` raised on `.` or `1.2.3`. The value of
      an accepted numeral is the number its digits spell with the dot left out, divided by
      ten for every digit after the dot; its integer part is its floor. */
  function DecimalValue(v: string): (r: Option<real>)
    requires NumericRun(v)
    ensures r.Some? <==> DecimalShaped(v)
    ensures r.Some? ==>
      && AllDigits(IntegerPart(v) + FractionPart(v))
      && r.value == DigitsValue(IntegerPart(v) + FractionPart(v)) as real / Pow10(|FractionPart(v)|) as real
    ensures r.Some? ==> DigitsValue(IntegerPart(v)) as real <= r.value < DigitsValue(IntegerPart(v)) as real + 1.0
    ensures r.Some? && IsDigits(v) ==> r.value == DigitsValue(v) as real
  {
    var whole := IntegerPart(v);
    var n := |whole|;
    if n == |v| then
      assert whole == v;
      if n == 0 then None
      else
        WholeExact(v);
        Some(DigitsValue(v) as real)
    else
      var frac := v[n + 1..];
      if !AllDigits(frac) || (n == 0 && |frac| == 0) then
        assert !IsDigits(v);
        assert !DecimalShaped(v) by {
          if exists i :: 0 <= i < |v| && v[i] == '.' && AllDigits(v[..i]) && AllDigits(v[i + 1..]) && |v| >= 2 {
            var i :| 0 <= i < |v| && v[i] == '.' && AllDigits(v[..i]) && AllDigits(v[i + 1..]) && |v| >= 2;
            FirstDot(v, i);
          }
        }
        None
      else
        assert DecimalShaped(v) by {
          assert v[..n] == whole;
        }
        assert FractionPart(v) == frac;
        Some(DecimalOf(whole, frac))
  }

  /** The number `w.f` written with the digit strings `w` and `f`: the number the digits
      spell with the dot left out, divided by ten for every digit after the dot. */
  function DecimalOf(w: string, f: string): (x: real)
    requires AllDigits(w) && AllDigits(f)
    ensures AllDigits(w + f)
    ensures x == DigitsValue(w + f) as real / Pow10(|f|) as real
    ensures DigitsValue(w) as real <= x < DigitsValue(w) as real + 1.0
  {
    DigitsAppend(w, f);
    DecimalScale(DigitsValue(w), DigitsValue(f), Pow10(|f|), DigitsValue(w + f));
    FractionBelowOne(f);
    DigitsValue(w) as real + DigitsValue(f) as real / Pow10(|f|) as real
  }

  /** A numeral without a dot is its own digits. */
  lemma WholeExact(v: string)
    requires NumericRun(v) && IntegerPart(v) == v
    ensures AllDigits(IntegerPart(v) + FractionPart(v))
    ensures DigitsValue(v) as real == DigitsValue(IntegerPart(v) + FractionPart(v)) as real / Pow10(|FractionPart(v)|) as real
  {
    assert FractionPart(v) == "";
    assert IntegerPart(v) + FractionPart(v) == v;
  }

  /** `a + b / q` is `(a * q + b) / q`. */
  lemma DecimalScale(a: nat, b: nat, q: nat, n: nat)
    requires q > 0 && n == a * q + b
    ensures a as real + b as real / q as real == n as real / q as real
  {
    var x, y, p := a as real, b as real, q as real;
    assert (a * q) as real == x * p;
    assert n as real == x * p + y;
    SplitQuotient(x * p, y, p);
    CancelFactor(x, p);
  }

  lemma SplitQuotient(u: real, v: real, p: real)
    requires p > 0.0
    ensures (u + v) / p == u / p + v / p
  {
  }

  lemma CancelFactor(x: real, p: real)
    requires p > 0.0
    ensures x * p / p == x
  {
  }

  /** Digits read after others shift the others by a power of ten. */
  lemma {:induction false} DigitsAppend(a: string, b: string)
    requires AllDigits(a) && AllDigits(b)
    ensures AllDigits(a + b)
    ensures DigitsValue(a + b) == DigitsValue(a) * Pow10(|b|) + DigitsValue(b)
    decreases |b|
  {
    if |b| == 0 {
      assert a + b == a;
    } else {
      var init := b[..|b| - 1];
      DigitsAppend(a, init);
      assert (a + b)[..|a + b| - 1] == a + init;
      assert DigitsValue(a) * Pow10(|b|) == DigitsValue(a) * Pow10(|init|) * 10;
    }
  }


  /** A dot with only digits in front of it is where the integer part ends. */
  lemma FirstDot(v: string, i: nat)
    requires NumericRun(v)
    requires i < |v| && v[i] == '.' && AllDigits(v[..i])
    ensures |IntegerPart(v)| == i
  {
  }

  /** A fraction's digits stay below one. */
  lemma FractionBelowOne(frac: string)
    requires AllDigits(frac)
    ensures 0.0 <= DigitsValue(frac) as real / Pow10(|frac|) as real < 1.0
  {
    DigitsBelowPow10(frac);
    RatioBelowOne(DigitsValue(frac) as real, Pow10(|frac|) as real);
  }

  lemma RatioBelowOne(x: real, p: real)
    requires 0.0 <= x < p
    ensures 0.0 <= x / p < 1.0
  {
    var q := x / p;
    assert q * p == x;
  }

  lemma {:induction false} DigitsBelowPow10(s: string)
    requires AllDigits(s)
    ensures DigitsValue(s) < Pow10(|s|)
    decreases |s|
  {
    if |s| > 0 {
      DigitsBelowPow10(s[..|s| - 1]);
    }
  }

  /** `.` and `1.2.3` make `float` raise. */
  lemma DecimalRejects()
    ensures DecimalValue(".").None?
    ensures DecimalValue("1.2.3").None?
  {
    assert IntegerPart(".") == [];
    assert IntegerPart("1.2.3") == "1" by {
      assert IntegerPart(".2.3") == [];
    }
    assert "1.2.3"[2..][1] == '.';
  }

  // ---------------------------------------------------------------------------
  // The regex fallback

  /** Whether capture group `i` (counted from 0) took part in the match. */
  predicate Took(m: Match, i: nat) {
    i < |m.groups| && m.groups[i].Some?
  }

  /** The numeric group, if it took part, holds digits and dots only. */
  predicate NumericGroups(m: Match) {
    Took(m, 2) ==> NumericRun(m.groups[2].value)
  }

  /** A pair whose value was read by the numeric alternative and that `float` rejects. */
  predicate Rejects(m: Match)
    requires NumericGroups(m)
  {
    !Took(m, 1) && Took(m, 2) && DecimalValue(m.groups[2].value).None?
  }

  /** A pair that stores a value: one of the three value alternatives took part. */
  predicate Stores(m: Match) {
    Took(m, 1) || Took(m, 2) || Took(m, 3)
  }

  /** `int(val) if val.isdigit() else float(val)` for an accepted numeral. */
  function Number(v: string): (r: Json)
    requires NumericRun(v) && DecimalValue(v).Some?
    ensures r.JInt? <==> IsDigits(v)
    ensures r.JInt? ==> r.i >= 0 && r.i == DigitsValue(v)
    ensures r.JFloat? ==> r.r >= 0.0 && r.r == DecimalValue(v).value
  {
    if IsDigits(v) then JInt(DigitsValue(v)) else JFloat(DecimalValue(v).value)
  }

  /** What one key-value match assigns: the quoted text, the numeral as `int` or `float`, or
      the bare word, under the key. A numeral `float` rejects assigns nothing; it abandons
      the whole block instead (see `KeyValueArgs`). */
  function KeyValueAssignment(m: Match): Assignment {
    var key := Group(m, 0);
    if Took(m, 1) then Some((key, JStr(m.groups[1].value)))
    else if Took(m, 2) then
      var v := m.groups[2].value;
      if NumericRun(v) && DecimalValue(v).Some? then Some((key, Number(v))) else None
    else if Took(m, 3) then Some((key, JStr(m.groups[3].value)))
    else None
  }

  /** The arguments the key-value matches store, in order, a repeated key keeping its last
      value; `None` when a numeral makes `float` raise, which abandons the whole block. */
  function KeyValueArgs(ms: seq<Match>, acc: Fields): (r: Option<Fields>)
    requires DistinctKeys(acc)
    requires forall m | m in ms :: NumericGroups(m)
    ensures r.None? <==> exists m :: m in ms && Rejects(m)
    ensures r.Some? ==> DistinctKeys(r.value)
    ensures r.Some? ==> forall k :: HasKey(r.value, k) <==>
      HasKey(acc, k) || exists m :: m in ms && Group(m, 0) == k && Stores(m)
    ensures r.Some? ==> forall k :: Get(r.value, k) == FinalValue(ms, KeyValueAssignment, acc, k)
  {
    if exists m :: m in ms && Rejects(m) then None
    else
      AssignDistinct(ms, KeyValueAssignment, acc);
      KeyValueKeys(ms, acc);
      AssignGet(ms, KeyValueAssignment, acc);
      Some(Assign(ms, KeyValueAssignment, acc))
  }

  /** Without a rejected numeral, the keys assigned are those of the matches that store a
      value. */
  lemma KeyValueKeys(ms: seq<Match>, acc: Fields)
    requires forall m | m in ms :: NumericGroups(m) && !Rejects(m)
    ensures forall k :: HasKey(Assign(ms, KeyValueAssignment, acc), k) <==>
      HasKey(acc, k) || exists m :: m in ms && Group(m, 0) == k && Stores(m)
  {
    AssignKeys(ms, KeyValueAssignment, acc);
    forall m | m in ms
      ensures KeyValueAssignment(m).Some? <==> Stores(m)
      ensures KeyValueAssignment(m).Some? ==> KeyValueAssignment(m).value.0 == Group(m, 0)
    {
    }
    forall m | m in ms
      ensures exists i :: 0 <= i < |ms| && ms[i] == m
    {
    }
  }

  /** Every key-value match of a text has a numeric group of digits and dots. */
  lemma KeyValueMatchesNumeric(s: string)
    ensures forall m | m in FindAll(JsonKeyValue, s, 0) :: NumericGroups(m)
  {
    forall m | m in FindAll(JsonKeyValue, s, 0)
      ensures NumericGroups(m)
    {
      FindAllMatches(JsonKeyValue, s, 0, m);
      MatchAtIsScanner(JsonKeyValue, s, m.start);
    }
  }

  /** The arguments of the regex fallback: none when `"arguments": {...}` is missing,
      otherwise the pairs inside its braces. */
  function FallbackArguments(block: string): (r: Option<Fields>)
    ensures Search(JsonArguments, block, 0).None? ==> r == Some([])
    ensures r.Some? ==> DistinctKeys(r.value)
  {
    match Search(JsonArguments, block, 0)
    case None => Some([])
    case Some(a) =>
      var inner := Group(a, 0);
      KeyValueMatchesNumeric(inner);
      KeyValueArgs(FindAll(JsonKeyValue, inner, 0), [])
  }

  /** The regex reading of a whole `Action: {...}` match: `"name": "..."` names the tool. */
  function FallbackCall(block: string, idx: nat): (r: Option<ToolCall>)
    ensures r.Some? <==> Search(JsonName, block, 0).Some? && FallbackArguments(block).Some?
    ensures r.Some? ==> r.value.id == idx && r.value.name.JStr? && r.value.name.s != ""
    ensures r.Some? ==> r.value.arguments == JObj(FallbackArguments(block).value)
    ensures r.Some? ==> r.value.name == JStr(Group(Search(JsonName, block, 0).value, 0))
  {
    match Search(JsonName, block, 0)
    case None => None
    case Some(nm) =>
      MatchAtIsScanner(JsonName, block, nm.start);
      match FallbackArguments(block)
      case None => None
      case Some(args) => Some(ToolCall(idx, JStr(Group(nm, 0)), JObj(args)))
  }

  /** A decoded block that is a non-empty object (`data and isinstance(data, dict)`). */
  predicate Decoded(data: Option<Json>) {
    data.Some? && data.value.JObj? && Truthy(data.value)
  }

  /** One block: `group` is the text between the outer braces, `block` the whole match. A
      non-empty object decides alone: its truthy `name` names the tool and its `arguments`
      (an empty object when missing) are passed on as they are. */
  function ActionCall(parse: JsonParser, block: string, group: string, idx: nat): (r: Option<ToolCall>)
    ensures r.Some? ==> r.value.id == idx
    ensures var data := parse("{" + group + "}"); Decoded(data) ==>
      && (r.Some? <==> Get(data.value.fields, "name").Some? && Truthy(Get(data.value.fields, "name").value))
      && (r.Some? ==> r.value.name == Get(data.value.fields, "name").value)
      && (r.Some? ==> r.value.arguments == Get(data.value.fields, "arguments").GetOr(JObj([])))
    ensures !Decoded(parse("{" + group + "}")) ==> r == FallbackCall(block, idx)
  {
    var data := parse("{" + group + "}");
    if Decoded(data) then
      var name := Get(data.value.fields, "name");
      if name.Some? && Truthy(name.value) then
        Some(ToolCall(idx, name.value, Get(data.value.fields, "arguments").GetOr(JObj([]))))
      else None
    else FallbackCall(block, idx)
  }

  /** A block that decodes to an object without a truthy `name` yields nothing, whatever the
      regexes would find in it. */
  lemma NamelessObjectSkipped(parse: JsonParser, block: string, group: string, idx: nat)
    requires Decoded(parse("{" + group + "}"))
    requires var f := parse("{" + group + "}").value.fields; Get(f, "name").None? || !Truthy(Get(f, "name").value)
    ensures ActionCall(parse, block, group, idx).None?
  {
  }

  /** The text a match covers, `match.group(0)`. */
  function Span(s: string, m: Match): (r: string)
    ensures m.start <= m.end <= |s| ==> r == s[m.start..m.end]
  {
    if m.start <= m.end <= |s| then s[m.start..m.end] else ""
  }

  function ActionBlockParser(parse: JsonParser, s: string): (f: BlockParser)
    ensures KeepsIndex(f)
  {
    (m: Match, idx: nat) => ActionCall(parse, Span(s, m), Group(m, 0), idx)
  }

  /** `_parse_action_tool_calls`. */
  function ParseAction(parse: JsonParser, s: string): (r: Outcome)
    ensures !Contains(s, "Action:") ==> r == Outcome(s, None)
    ensures r.calls.None? ==> r.text == s
    ensures r.calls.Some? ==> |r.calls.value| > 0 && r.text == Strip(Sub(EmptyCite, Strip(Sub(ActionBlock, s))))
    ensures r.calls.Some? ==> |r.calls.value| <= |FindAll(ActionBlock, s, 0)|
  {
    if s == "" || !Contains(s, "Action:") then Outcome(s, None)
    else
      var ms := FindAll(ActionBlock, s, 0);
      var o := Finish(s, ActionBlock, Collect(ActionBlockParser(parse, s), ms, 0));
      if o.calls.Some? then Outcome(Strip(Sub(EmptyCite, o.text)), o.calls) else o
  }

  /** Once the marker is present, the calls are those the blocks yield. */
  lemma ParseActionCalls(parse: JsonParser, s: string)
    requires Contains(s, "Action:")
    ensures CallsOf(ParseAction(parse, s)) == Collect(ActionBlockParser(parse, s), FindAll(ActionBlock, s, 0), 0)
  {
    assert OccursAt(s, "Action:", Find(s, "Action:", 0).value);
  }

  /** The braces after `Action:` close at the first `}`: the group handed to the decoder
      never holds one, so an `arguments` object nested inside is cut short. */
  lemma ActionGroupUnclosed(s: string, m: Match)
    requires m in FindAll(ActionBlock, s, 0)
    ensures '}' !in Group(m, 0)
  {
    FindAllMatches(ActionBlock, s, 0, m);
    MatchAtIsScanner(ActionBlock, s, m.start);
  }

  /** The closing brace of a nested object survives the deletion of the block. */
  lemma StrayBrace()
    ensures Sub(ActionBlock, "Action:{{}}") == "}"
  {
    var s := "Action:{{}}";
    assert OccursAt(s, "Action:", 0);
    assert SkipSpace(s, 7) == 7;
    assert RunEnd(s, 8, NoneOf("}")) == 9;
    assert RunEnd(s, 9, NoneOf("}")) == 9;
    MatchAtIsScanner(ActionBlock, s, 0);
    var m := Match(0, 10, [Some("{")]);
    assert s[8..9] == "{";
    assert BracedAt(s, 0, 7) == Some(m);
    assert KeywordBracedAt(s, 0, "Action:", "") == Some(m);
    assert ScannerOf(ActionBlock)(s, 0) == Some(m);
    assert MatchAt(ActionBlock, s, 0) == Some(m);
    assert Search(ActionBlock, s, 0) == Some(m);
    assert !OccursAt(s, "Action:", 10);
    assert MatchAt(ActionBlock, s, 10).None?;
    assert MatchAt(ActionBlock, s, 11).None?;
    assert Search(ActionBlock, s, 10).None?;
    assert FindAll(ActionBlock, s, 0) == [m];
  }
}

=== FILE: answers.dfy ===
/** Unwrapping of model output: the reasoning before `</think>` is dropped, an `<answer>`
    element is unwrapped, a `\boxed{...}` answer is unboxed, and the web-page reader keeps
    what follows `Cleaned webpage text:`. The search agent and the answer agent share one
    post-processing function; the deep-research agent only unwraps `<answer>`. */
module Answers {
  import opened Text

  const ThinkClose: string := "</think>"
  const AnswerOpen: string := "<answer>"
  const AnswerClose: string := "</answer>"
  /** `"\boxed{"` in the source: `\b` is a backspace, so this is backspace, `oxed{`. */
  const MangledBoxed: string := "\U{0008}oxed{"
  const Boxed: string := "\\boxed{"
  const CleanedMarker: string := "Cleaned webpage text:"

  /** `"".join(s.split("</think>")[1:]).strip()` when `</think>` occurs: the text after the
      first `</think>`, with every later `</think>` removed, stripped. */
  function DropThink(s: string): (r: string)
    ensures !Contains(s, ThinkClose) ==> r == s
    ensures Contains(s, ThinkClose) ==> r == Strip(Replace(After(s, ThinkClose), ThinkClose, ""))
  {
    if Contains(s, ThinkClose) then
      SplitTail(s, ThinkClose);
      Strip(Concat(Split(s, ThinkClose)[1..]))
    else s
  }

  /** Reasoning followed by a single `</think>` leaves the stripped rest. */
  lemma DropThinkOnce(reasoning: string, rest: string)
    requires !Contains(reasoning + "</think", ThinkClose)
    requires !Contains(rest, ThinkClose)
    ensures DropThink(reasoning + ThinkClose + rest) == Strip(rest)
  {
    assert ThinkClose[..|ThinkClose| - 1] == "</think";
    FirstOccurrence(reasoning, ThinkClose, rest);
    ReplaceAbsent(rest, ThinkClose, "");
  }

  /** `s.split("<answer>")[1].split("</answer>")[0].strip()` when `<answer>` occurs: the
      stripped text after the first `<answer>`, up to the next `</answer>` or `<answer>`. */
  function AnswerSpan(s: string): (r: string)
    ensures !Contains(s, AnswerOpen) ==> r == s
    ensures Contains(s, AnswerOpen) ==> !Contains(r, AnswerOpen) && !Contains(r, AnswerClose)
    ensures Contains(s, AnswerOpen) ==> r == Strip(Before(Before(After(s, AnswerOpen), AnswerOpen), AnswerClose))
  {
    if Contains(s, AnswerOpen) then
      SplitTail(s, AnswerOpen);
      var inner := Split(s, AnswerOpen)[1];
      var r := Strip(Before(inner, AnswerClose));
      NotContainsPrefix(inner, Before(inner, AnswerClose), AnswerOpen);
      NotContainsStrip(Before(inner, AnswerClose), AnswerOpen);
      NotContainsStrip(Before(inner, AnswerClose), AnswerClose);
      r
    else s
  }

  /** A prefix of a text without `pat` has none either. */
  lemma NotContainsPrefix(s: string, p: string, pat: string)
    requires StartsWith(s, p)
    requires !Contains(s, pat)
    ensures !Contains(p, pat)
  {
    NotContainsSlice(s, pat, 0, |p|);
    assert s[0..|p|] == p;
  }

  /** The reference reading: text, `<answer>`, the answer, `</answer>`, anything. When no
      marker is completed early, the answer comes back stripped. */
  lemma AnswerSpanWrapped(pre: string, answer: string, post: string)
    requires !Contains(pre + "<answer", AnswerOpen)
    requires !Contains(answer + AnswerClose, AnswerOpen)
    requires !Contains(answer + "</answer", AnswerClose)
    ensures AnswerSpan(pre + AnswerOpen + answer + AnswerClose + post) == Strip(answer)
  {
    var rest := answer + AnswerClose + post;
    assert pre + AnswerOpen + answer + AnswerClose + post == pre + AnswerOpen + rest;
    assert AnswerOpen[..|AnswerOpen| - 1] == "<answer";
    assert AnswerClose[..|AnswerClose| - 1] == "</answer";
    FirstOccurrence(pre, AnswerOpen, rest);
    var inner := Before(rest, AnswerOpen);
    AnswerCloseBeforeOpen(answer, post);
    FirstOccurrence(answer, AnswerClose, post);
    assert StartsWith(inner, answer + AnswerClose);
    var t := answer + AnswerClose;
    assert inner == t + inner[|t|..];
    FirstOccurrence(answer, AnswerClose, inner[|t|..]);
  }

  /** No `<answer>` starts before the end of `answer + "</answer>"` unless it lies inside it:
      the part of `"</answer>"` after its `<` holds no `<`. */
  lemma AnswerCloseBeforeOpen(answer: string, post: string)
    requires !Contains(answer + AnswerClose, AnswerOpen)
    ensures StartsWith(Before(answer + AnswerClose + post, AnswerOpen), answer + AnswerClose)
  {
    var s := answer + AnswerClose + post;
    var t := answer + AnswerClose;
    assert s[..|t|] == t;
    forall k: nat | k < |t|
      ensures !OccursAt(s, AnswerOpen, k)
    {
      OccursInPrefix(s, AnswerOpen, |t|, k);
      if |answer| < k {
        assert s[k] == AnswerClose[k - |answer|];
      }
    }
    match Find(s, AnswerOpen, 0)
    case None =>
    case Some(i) =>
      NotContainsBeforeFirst(s, AnswerOpen, i);
  }

  /** `postprocess_final_result`: unwrapping twice is unwrapping once, since the unwrapped
      text holds no `<answer>`. */
  lemma AnswerSpanIdempotent(s: string)
    ensures AnswerSpan(AnswerSpan(s)) == AnswerSpan(s)
  {
  }

  /** `s.split("\\boxed{")[1].split("}")[0].strip()` when `\boxed{` occurs. */
  function Unbox(s: string): (r: string)
    ensures !Contains(s, Boxed) ==> r == s
    ensures Contains(s, Boxed) ==> '}' !in r && !Contains(r, Boxed)
    ensures Contains(s, Boxed) ==> r == Strip(Before(Before(After(s, Boxed), Boxed), "}"))
  {
    if Contains(s, Boxed) then
      SplitTail(s, Boxed);
      var inner := Split(s, Boxed)[1];
      var r := Strip(Before(inner, "}"));
      NotContainsPrefix(inner, Before(inner, "}"), Boxed);
      NotContainsStrip(Before(inner, "}"), Boxed);
      NotContainsStrip(Before(inner, "}"), "}");
      NoCharWithoutOccurrence(r, '}');
      r
    else s
  }

  /** A character that is not found as a one-character text does not occur. */
  lemma NoCharWithoutOccurrence(s: string, c: char)
    ensures !Contains(s, [c]) ==> c !in s
  {
    forall k | 0 <= k < |s| && s[k] == c
      ensures Contains(s, [c])
    {
      assert s[k..k + 1] == [c];
      ContainsAt(s, [c], k);
    }
  }

  /** `postprocess_output` of both the search agent and the answer agent (their bodies are
      the same text): drop the reasoning, unwrap `<answer>`, repair the backspace-mangled
      `\boxed{`, unbox. */
  function Postprocess(s: string): (r: string)
  {
    Unbox(Replace(AnswerSpan(DropThink(s)), MangledBoxed, Boxed))
  }

  /** Output without any of the markers is returned as it is. */
  lemma PostprocessPlain(s: string)
    requires !Contains(s, ThinkClose) && !Contains(s, AnswerOpen)
    requires !Contains(s, MangledBoxed) && !Contains(s, Boxed)
    ensures Postprocess(s) == s
  {
    ReplaceAbsent(s, MangledBoxed, Boxed);
  }

  /** A boxed answer with nothing after its closing brace: the box's content, stripped. */
  lemma PostprocessBoxed(pre: string, answer: string)
    requires var s := pre + Boxed + answer + "}";
      !Contains(s, ThinkClose) && !Contains(s, AnswerOpen) && !Contains(s, MangledBoxed)
    requires !Contains(pre + "\\boxed", Boxed)
    requires !Contains(answer + "}", Boxed)
    requires '}' !in answer
    ensures Postprocess(pre + Boxed + answer + "}") == Strip(answer)
  {
    var s := pre + Boxed + answer + "}";
    ReplaceAbsent(s, MangledBoxed, Boxed);
    assert Boxed[..|Boxed| - 1] == "\\boxed";
    assert s == pre + Boxed + (answer + "}");
    FirstOccurrence(pre, Boxed, answer + "}");
    CharOccurrence(answer, '}');
    assert answer + "}" == answer + "}" + "";
    FirstOccurrence(answer, "}", "");
  }

  /** A one-character text occurs exactly when the character does. */
  lemma CharOccurrence(s: string, c: char)
    ensures Contains(s, [c]) <==> c in s
  {
    NoCharWithoutOccurrence(s, c);
    if Contains(s, [c]) {
      var i := Find(s, [c], 0).value;
      assert s[i..i + 1] == [c];
      assert s[i] == c;
    }
  }

  /** `WebPageReaderAgentV2.postprocess_output`: after the reasoning, the stripped text
      following the first `Cleaned webpage text:` up to any second one. */
  function ReaderPostprocess(s: string): (r: string)
    ensures var t := DropThink(s);
      && (!Contains(t, CleanedMarker) ==> r == t)
      && (Contains(t, CleanedMarker) ==> r == Strip(Before(After(t, CleanedMarker), CleanedMarker)))
    ensures Contains(DropThink(s), CleanedMarker) ==> !Contains(r, CleanedMarker)
  {
    var t := DropThink(s);
    if Contains(t, CleanedMarker) then
      SplitTail(t, CleanedMarker);
      NotContainsStrip(Split(t, CleanedMarker)[1], CleanedMarker);
      Strip(Split(t, CleanedMarker)[1])
    else t
  }

  /** Reasoning, then the marker, then the cleaned page: the page comes back stripped. */
  lemma ReaderPostprocessWrapped(reasoning: string, page: string)
    requires !Contains(reasoning + "</think", ThinkClose)
    requires !Contains(CleanedMarker + page, ThinkClose)
    requires !Contains(page, CleanedMarker)
    requires page != [] && !IsSpace(page[|page| - 1])
    ensures ReaderPostprocess(reasoning + ThinkClose + CleanedMarker + page) == Strip(page)
  {
    var rest := CleanedMarker + page;
    assert reasoning + ThinkClose + CleanedMarker + page == reasoning + ThinkClose + rest;
    DropThinkOnce(reasoning, rest);
    MarkerLeads(page);
    assert DropThink(reasoning + ThinkClose + rest) == rest;
  }

  /** The marker followed by a page that ends in a visible character is already stripped,
      and the marker's first occurrence is the leading one. */
  lemma MarkerLeads(page: string)
    requires page != [] && !IsSpace(page[|page| - 1])
    ensures Strip(CleanedMarker + page) == CleanedMarker + page
    ensures After(CleanedMarker + page, CleanedMarker) == page
  {
    var rest := CleanedMarker + page;
    assert !IsSpace(rest[0]) by {
      assert rest[0] == 'C';
    }
    assert rest[|rest| - 1] == page[|page| - 1];
    StripUnchanged(rest);
    assert !Contains(CleanedMarker[..|CleanedMarker| - 1], CleanedMarker);
    assert rest == [] + CleanedMarker + page;
    FirstOccurrence([], CleanedMarker, page);
  }
}

=== FILE: auto_search.dfy ===
/** `AutoReasonSearchWorkflow`: the choice of search and browse tools from their configured
    names, the tally of the search agent's tool outputs, and the shape of the result. The
    agents themselves (language-model calls, tool calls) are inputs: the search agent's
    generated text and tool outputs, and the answer agent's generated text. */
module AutoSearch {
  import opened Wrappers
  import opened Text
  import opened Answers
  import opened Prompts

  // ---------------------------------------------------------------------------
  // Components

  const SnippetSearchName: string := "snippet_search"
  const GoogleSearchName: string := "google_search"
  const BrowseName: string := "browse_webpage"

  datatype SearchBackend = SerperSearch | SemanticScholarSnippets
  datatype BrowseBackend = SerperBrowse | Crawl4AIBrowse | JinaBrowse | NoBrowse

  /** The tools `setup_components` builds: the backend serving `snippet_search`, the one
      serving `google_search`, the one serving `browse_webpage`, and whether a page-reading
      agent is chained after the browse tool. */
  datatype Components = Components(search: SearchBackend, search2: SearchBackend, browse: BrowseBackend, chained: bool)

  /** The search tools for `search_tool_name`. */
  function SearchBackends(name: string): (r: Result<(SearchBackend, SearchBackend), string>)
    ensures r.Ok? <==> name == "serper" || name == "s2" || name == "s2-only"
    ensures r.Err? ==> r.error == "Invalid search tool name: " + name
    ensures r.Ok? ==> (r.value.0 == SerperSearch <==> name == "serper")
    ensures r.Ok? ==> (r.value.1 == SemanticScholarSnippets <==> name == "s2-only")
  {
    if name == "serper" then Ok((SerperSearch, SerperSearch))
    else if name == "s2" then Ok((SemanticScholarSnippets, SerperSearch))
    else if name == "s2-only" then Ok((SemanticScholarSnippets, SemanticScholarSnippets))
    else Err("Invalid search tool name: " + name)
  }

  /** The browse tool for `browse_tool_name`; no name means the placeholder tool. */
  function BrowseBackendOf(name: Option<string>): (r: Result<BrowseBackend, string>)
    ensures r.Ok? <==> name.None? || name.value in {"serper", "crawl4ai", "jina"}
    ensures r.Err? ==> r.error == "Invalid browse tool name: " + Shown(name)
    ensures r == Ok(NoBrowse) <==> name.None?
  {
    match name
    case None => Ok(NoBrowse)
    case Some(n) =>
      if n == "serper" then Ok(SerperBrowse)
      else if n == "crawl4ai" then Ok(Crawl4AIBrowse)
      else if n == "jina" then Ok(JinaBrowse)
      else Err("Invalid browse tool name: " + n)
  }

  /** `setup_components`: the search name is checked before the browse name. */
  function Setup(searchName: string, browseName: Option<string>, useBrowseAgent: bool): (r: Result<Components, string>)
    ensures r.Ok? <==> SearchBackends(searchName).Ok? && BrowseBackendOf(browseName).Ok?
    ensures SearchBackends(searchName).Err? ==> r == Err(SearchBackends(searchName).error)
    ensures SearchBackends(searchName).Ok? && BrowseBackendOf(browseName).Err? ==>
      r == Err(BrowseBackendOf(browseName).error)
    ensures r.Ok? ==> r.value.chained == useBrowseAgent
  {
    var (s1, s2) :- SearchBackends(searchName);
    var b :- BrowseBackendOf(browseName);
    Ok(Components(s1, s2, b, useBrowseAgent))
  }

  // ---------------------------------------------------------------------------
  // Tool outputs

  datatype Document = Document(url: Option<string>)

  /** The `raw_output` of a chained browse call: its `tool_outputs` entry, if present, holds
      the documents of each tool in the chain. */
  datatype RawOutput = RawOutput(toolOutputs: Option<seq<seq<Document>>>)

  /** One tool output: the tool's name, its `error` (`""` when the call succeeded, `None` for
      the placeholder browse tool), its `documents` if it has that attribute, and its raw
      output. */
  datatype ToolOutput = ToolOutput(toolName: string, error: Option<string>, documents: Option<seq<Document>>, raw: Option<RawOutput>)

  /** What the search agent returns: its generated text and the outputs of its tool calls. */
  datatype AgentOutput = AgentOutput(generatedText: string, toolOutputs: seq<ToolOutput>)

  predicate IsSearch(o: ToolOutput) {
    o.toolName == SnippetSearchName || o.toolName == GoogleSearchName
  }

  /** A failed call is one whose error is not the empty string. */
  predicate Failed(o: ToolOutput) {
    o.error != Some("")
  }

  /** Every search output has documents; reading them from one without raises. */
  predicate SearchesDocumented(os: seq<ToolOutput>) {
    forall i :: 0 <= i < |os| && IsSearch(os[i]) ==> os[i].documents.Some?
  }

  function Last<T>(s: seq<T>): T
    requires |s| > 0
  {
    s[|s| - 1]
  }

  /** The errors of the failed outputs, in order. */
  function FailedErrors(os: seq<ToolOutput>): seq<Option<string>>
    decreases |os|
  {
    if os == [] then []
    else FailedErrors(os[..|os| - 1]) + if Failed(Last(os)) then [Last(os).error] else []
  }

  /** The URLs of the documents of the search outputs, in order, repeats included. */
  function SearchedLinks(os: seq<ToolOutput>): seq<Option<string>>
    decreases |os|
  {
    if os == [] then []
    else SearchedLinks(os[..|os| - 1]) + if IsSearch(Last(os)) then Urls(Last(os).documents.GetOr([])) else []
  }

  function Urls(docs: seq<Document>): (r: seq<Option<string>>)
    ensures |r| == |docs|
    ensures forall k :: 0 <= k < |docs| ==> r[k] == docs[k].url
  {
    seq(|docs|, k requires 0 <= k < |docs| => docs[k].url)
  }

  /** The non-empty URLs among `docs`, in order. */
  function PresentUrls(docs: seq<Document>): (r: seq<string>)
    ensures forall u :: u in r <==> u != "" && exists k :: 0 <= k < |docs| && docs[k].url == Some(u)
  {
    if docs == [] then []
    else
      var rest := PresentUrls(docs[1..]);
      assert forall k :: 0 < k < |docs| ==> docs[k] == docs[1..][k - 1];
      if docs[0].url.Some? && docs[0].url.value != "" then [docs[0].url.value] + rest else rest
  }

  /** The links one browse output contributes. Through a chained browse agent they are the
      documents of the first tool of the chain; otherwise the output's own documents. */
  function BrowsedOf(o: ToolOutput, chained: bool): seq<string> {
    if o.toolName != BrowseName then []
    else if chained then
      match o.raw
      case None => []
      case Some(raw) =>
        if raw.toolOutputs.Some? && |raw.toolOutputs.value| > 0 then PresentUrls(raw.toolOutputs.value[0]) else []
    else PresentUrls(o.documents.GetOr([]))
  }

  function BrowsedLinks(os: seq<ToolOutput>, chained: bool): seq<string>
    decreases |os|
  {
    if os == [] then [] else BrowsedLinks(os[..|os| - 1], chained) + BrowsedOf(Last(os), chained)
  }

  /** The tally of `__call__`: the counts, the errors in order, and the two link lists before
      deduplication. */
  datatype Tally = Tally(total: nat, failed: nat, errors: seq<Option<string>>, searched: seq<Option<string>>, browsed: seq<string>)

  /** The loop over the tool outputs. Reading `documents` from a search output without them
      raises `AttributeError`. */
  method TallyOutputs(os: seq<ToolOutput>, chained: bool) returns (r: Result<Tally, string>)
    ensures r.Ok? <==> SearchesDocumented(os)
    ensures r.Ok? ==> r.value.total == |os|
    ensures r.Ok? ==> r.value.errors == FailedErrors(os) && r.value.failed == |r.value.errors|
    ensures r.Ok? ==> r.value.searched == SearchedLinks(os)
    ensures r.Ok? ==> r.value.browsed == BrowsedLinks(os, chained)
  {
    var total, failed := 0, 0;
    var errors, searched, browsed := [], [], [];
    var i := 0;
    while i < |os|
      invariant i <= |os|
      invariant total == i
      invariant errors == FailedErrors(os[..i]) && failed == |errors|
      invariant searched == SearchedLinks(os[..i])
      invariant browsed == BrowsedLinks(os[..i], chained)
      invariant SearchesDocumented(os[..i])
    {
      var o := os[i];
      assert os[..i + 1][..i] == os[..i] && Last(os[..i + 1]) == o;
      total := total + 1;
      if o.error != Some("") {
        failed := failed + 1;
        errors := errors + [o.error];
      }
      if o.toolName == SnippetSearchName || o.toolName == GoogleSearchName {
        if o.documents.None? {
          assert !SearchesDocumented(os) by {
            assert IsSearch(os[i]) && os[i].documents.None?;
          }
          return Err("AttributeError: 'ToolOutput' object has no attribute 'documents'");
        }
        searched := searched + Urls(o.documents.value);
      }
      browsed := browsed + BrowsedOf(o, chained);
      i := i + 1;
      assert SearchesDocumented(os[..i]) by {
        forall j | 0 <= j < i && IsSearch(os[..i][j])
          ensures os[..i][j].documents.Some?
        {
          if j < i - 1 {
            assert os[..i][j] == os[..i - 1][j];
          }
        }
      }
    }
    assert os[..|os|] == os;
    r := Ok(Tally(total, failed, errors, searched, browsed));
  }

  /** The tally as a function: what `TallyOutputs` returns. */
  function TallyOf(os: seq<ToolOutput>, chained: bool): Tally {
    Tally(|os|, |FailedErrors(os)|, FailedErrors(os), SearchedLinks(os), BrowsedLinks(os, chained))
  }

  // ---------------------------------------------------------------------------
  // Properties of the tally

  /** The errors of a concatenation are the errors of each part, in order. */
  lemma {:induction false} FailedErrorsAppend(a: seq<ToolOutput>, b: seq<ToolOutput>)
    ensures FailedErrors(a + b) == FailedErrors(a) + FailedErrors(b)
    decreases |b|
  {
    if b != [] {
      var b' := b[..|b| - 1];
      assert (a + b)[..|a + b| - 1] == a + b';
      assert Last(a + b) == Last(b);
      FailedErrorsAppend(a, b');
      var x := if Failed(Last(b)) then [Last(b).error] else [];
      assert FailedErrors(a + b) == FailedErrors(a + b') + x;
      assert FailedErrors(b) == FailedErrors(b') + x;
      assert FailedErrors(a) + FailedErrors(b') + x == FailedErrors(a) + (FailedErrors(b') + x);
    } else {
      assert a + b == a;
    }
  }

  /** No more failures than calls, and an error is listed exactly when some output failed
      with it. */
  lemma {:induction false} FailedErrorsCount(os: seq<ToolOutput>)
    ensures |FailedErrors(os)| <= |os|
    ensures forall e :: e in FailedErrors(os) <==> exists i :: 0 <= i < |os| && Failed(os[i]) && os[i].error == e
    decreases |os|
  {
    if os != [] {
      var init := os[..|os| - 1];
      FailedErrorsCount(init);
      assert forall i :: 0 <= i < |init| ==> init[i] == os[i];
      assert Last(os) == os[|os| - 1];
    }
  }

  /** The placeholder browse tool reports its error as `None`, which is not `""`: every call
      to it counts as failed. */
  lemma PlaceholderCountsAsFailed(o: ToolOutput)
    requires o.error == None
    ensures FailedErrors([o]) == [None]
  {
    assert [o][..0] == [];
  }

  /** Searched links come only from the two search tools: a link is listed exactly when a
      search output has a document with that URL. */
  lemma {:induction false} SearchedLinksSource(os: seq<ToolOutput>, u: Option<string>)
    ensures u in SearchedLinks(os) <==>
      exists i, k :: 0 <= i < |os| && IsSearch(os[i]) && os[i].documents.Some?
        && 0 <= k < |os[i].documents.value| && os[i].documents.value[k].url == u
    decreases |os|
  {
    if os != [] {
      var init := os[..|os| - 1];
      SearchedLinksSource(init, u);
      assert forall i :: 0 <= i < |init| ==> init[i] == os[i];
      var o := Last(os);
      assert o == os[|os| - 1];
      if IsSearch(o) && o.documents.Some? {
        var us := Urls(o.documents.value);
        assert u in us <==> exists k :: 0 <= k < |o.documents.value| && o.documents.value[k].url == u;
      }
    }
  }

  /** Browsed links come only from browse outputs and are never empty. */
  lemma {:induction false} BrowsedLinksSource(os: seq<ToolOutput>, chained: bool, u: string)
    requires u in BrowsedLinks(os, chained)
    ensures u != ""
    ensures exists i :: 0 <= i < |os| && os[i].toolName == BrowseName
    decreases |os|
  {
    var init := os[..|os| - 1];
    assert forall i :: 0 <= i < |init| ==> init[i] == os[i];
    if u in BrowsedLinks(init, chained) {
      BrowsedLinksSource(init, chained, u);
    } else {
      assert u in BrowsedOf(Last(os), chained);
      assert os[|os| - 1].toolName == BrowseName;
    }
  }

  /** Without a chained agent, every non-empty document URL of a browse output is listed. */
  lemma {:induction false} BrowsedLinksComplete(os: seq<ToolOutput>, i: nat, k: nat)
    requires i < |os| && os[i].toolName == BrowseName && os[i].documents.Some?
    requires k < |os[i].documents.value| && os[i].documents.value[k].url.Some?
    requires os[i].documents.value[k].url.value != ""
    ensures os[i].documents.value[k].url.value in BrowsedLinks(os, false)
    decreases |os|
  {
    var init := os[..|os| - 1];
    if i < |init| {
      assert init[i] == os[i];
      BrowsedLinksComplete(init, i, k);
    } else {
      assert Last(os) == os[i];
    }
  }

  // ---------------------------------------------------------------------------
  // The result

  /** The counts the `<answer>` path reports. */
  datatype Counts = Counts(total: nat, failed: nat, errors: seq<Option<string>>)

  /** The dictionary `__call__` returns. `transcript` is the generated text of the agent output
      kept as `full_traces`. The link lists come from `list(set(...))`, whose order is not
      fixed; they are sets here. */
  datatype TraceResult = TraceResult(
    finalResponse: string,
    transcript: string,
    browsed: set<string>,
    searched: set<Option<string>>,
    counts: Option<Counts>)

  function ToSet<T(!new)>(s: seq<T>): (r: set<T>)
    ensures forall x :: x in r <==> x in s
  {
    set x | x in s
  }

  /** `AutoReasonSearchWorkflow.__call__` given what the agents produce. The search agent's
      prompt is built first (and may refuse the dataset name); the tally follows. Output with
      `<answer>` is post-processed and returned with the counts; otherwise the answer agent is
      asked (its prompt may refuse the name too) and its output is returned without them. */
  function Run(problem: string, name: Option<string>, texts: PromptTexts, chained: bool,
               search: AgentOutput, answerText: string): (r: Result<TraceResult, string>)
    ensures SearchField(name).Err? ==> r == Err(SearchField(name).error)
    ensures r.Ok? ==> SearchesDocumented(search.toolOutputs)
    ensures r.Ok? ==> (r.value.counts.Some? <==> Contains(search.generatedText, AnswerOpen))
    ensures r.Ok? ==> r.value.searched == ToSet(SearchedLinks(search.toolOutputs))
    ensures r.Ok? ==> r.value.browsed == ToSet(BrowsedLinks(search.toolOutputs, chained))
    ensures r.Ok? && Contains(search.generatedText, AnswerOpen) ==>
      r.value.finalResponse == Postprocess(search.generatedText) &&
      r.value.counts == Some(Counts(|search.toolOutputs|, |FailedErrors(search.toolOutputs)|, FailedErrors(search.toolOutputs)))
    ensures r.Ok? && !Contains(search.generatedText, AnswerOpen) ==>
      r.value.finalResponse == Postprocess(answerText) && r.value.transcript == answerText
    ensures SearchField(name).Ok? && SearchesDocumented(search.toolOutputs) ==>
      (r.Ok? <==> Contains(search.generatedText, AnswerOpen) || AnswerField(Shown(name)).Ok?)
  {
    var _ :- SearchPrompt(problem, name, texts);
    var os := search.toolOutputs;
    if !SearchesDocumented(os) then Err("AttributeError: 'ToolOutput' object has no attribute 'documents'")
    else
      var t := TallyOf(os, chained);
      var browsed, searched := ToSet(t.browsed), ToSet(t.searched);
      if Contains(search.generatedText, AnswerOpen) then
        Ok(TraceResult(Postprocess(search.generatedText), search.generatedText, browsed, searched,
                       Some(Counts(t.total, t.failed, t.errors))))
      else
        var _ :- AnswerPrompt(problem, search.generatedText, Shown(name), texts);
        Ok(TraceResult(Postprocess(answerText), answerText, browsed, searched, None))
  }

  /** The same call with the counts reported on both paths. */
  function RunFixed(problem: string, name: Option<string>, texts: PromptTexts, chained: bool,
                    search: AgentOutput, answerText: string): (r: Result<TraceResult, string>)
    ensures r.Ok? <==> Run(problem, name, texts, chained, search, answerText).Ok?
    ensures r.Ok? ==> (r.value.counts ==
      Some(Counts(|search.toolOutputs|, |FailedErrors(search.toolOutputs)|, FailedErrors(search.toolOutputs))))
    ensures r.Ok? ==> r.value.finalResponse == Run(problem, name, texts, chained, search, answerText).value.finalResponse
  {
    var t :- Run(problem, name, texts, chained, search, answerText);
    var os := search.toolOutputs;
    Ok(t.(counts := Some(Counts(|os|, |FailedErrors(os)|, FailedErrors(os)))))
  }

  /** Without a dataset name the answer agent refuses (`Unknown dataset name: None`): output
      without `<answer>` then ends the call with that error. */
  lemma UnnamedAnswerPathFails(problem: string, texts: PromptTexts, chained: bool, search: AgentOutput, answerText: string)
    requires !Contains(search.generatedText, AnswerOpen)
    requires SearchesDocumented(search.toolOutputs)
    ensures Run(problem, None, texts, chained, search, answerText) == Err("Unknown dataset name: None")
  {
    assert !Contains("None", "sft-mix") && !Contains("None", "short_form") && !Contains("None", "long_form");
    assert !Contains("None", "exact_answer");
    assert "None" !in AnswerExactSets && "None" !in LongFormSets && "None" !in ShortFormSets;
    assert SearchField(None) == Ok(None);
    assert "Unknown dataset name: " + "None" == "Unknown dataset name: None";
    assert AnswerField("None") == Err("Unknown dataset name: None");
  }
}

=== FILE: bracket_grammar.dfy ===
/** The `[TOOL_CALL]...[/TOOL_CALL]` grammar (`_parse_bracket_tool_calls`). A block is read in
    arrow form (`{tool => "name", args => { --flag value }}`) when it has one; otherwise its
    single quotes become double quotes and it is decoded as JSON, and when decoding fails a
    loose regex reading of `'name': '...'` and `'args': {...}` is tried. */
module BracketGrammar {
  import opened Wrappers
  import opened Text
  import opened JsonValues
  import opened Patterns
  import opened ToolCalls

  /** A stored argument value as `Coerce` makes it: a non-negative integer or a non-empty
      text that is not all digits. */
  predicate Coerced(v: Json) {
    (v.JInt? && v.i >= 0) || (v.JStr? && !IsDigits(v.s))
  }

  predicate AllCoerced(fields: Fields) {
    forall k | k in Keys(fields) :: Coerced(Get(fields, k).value)
  }

  /** What one `--name value` or `--name "value"` match assigns: the quoted value when the
      quoted alternative took part, the bare one otherwise, all digits made an integer. */
  function CliAssignment(m: Match): (a: Assignment)
    ensures a.Some? && Coerced(a.value.1)
  {
    var value := if 1 < |m.groups| && m.groups[1].Some? then Group(m, 1) else Group(m, 2);
    Some((Group(m, 0), Coerce(value)))
  }

  /** `--name value` and `--name "value"` pairs: all-digit values become integers, a repeated
      flag keeps its last value. */
  function CliArgs(ms: seq<Match>, acc: Fields): (r: Fields)
    requires DistinctKeys(acc) && AllCoerced(acc)
    ensures DistinctKeys(r) && AllCoerced(r)
    ensures forall k :: HasKey(r, k) <==> HasKey(acc, k) || exists m :: m in ms && Group(m, 0) == k
    ensures forall k :: Get(r, k) == FinalValue(ms, CliAssignment, acc, k)
  {
    AssignDistinct(ms, CliAssignment, acc);
    AssignKeys(ms, CliAssignment, acc);
    AssignGet(ms, CliAssignment, acc);
    AssignKeepsValues(ms, CliAssignment, acc, Coerced);
    Assign(ms, CliAssignment, acc)
  }

  /** The arguments of the arrow form: the flags inside `args => {...}`, each with the value
      of its last occurrence; none when that part is missing. */
  function ArrowArguments(block: string): (r: Fields)
    ensures DistinctKeys(r) && AllCoerced(r)
    ensures Search(ArrowArgs, block, 0).None? ==> r == []
    ensures Search(ArrowArgs, block, 0).Some? ==>
      var inner := Group(Search(ArrowArgs, block, 0).value, 0);
      forall k :: Get(r, k) == LastValue(FindAll(CliArg, inner, 0), CliAssignment, k)
  {
    match Search(ArrowArgs, block, 0)
    case None => []
    case Some(a) => CliArgs(FindAll(CliArg, Group(a, 0), 0), [])
  }

  /** What one `'key': 'value'` or `'key': 123` match assigns: the quoted text as it is, or
      the digits as an integer. */
  function LooseAssignment(m: Match): Assignment {
    if 1 < |m.groups| && m.groups[1].Some? then Some((Group(m, 0), JStr(Group(m, 1))))
    else if 2 < |m.groups| && m.groups[2].Some? then Some((Group(m, 0), Coerce(Group(m, 2))))
    else None
  }

  /** `'key': 'value'` and `'key': 123` pairs of the loose reading, a repeated key keeping
      its last value. */
  function LooseArguments(ms: seq<Match>, acc: Fields): (r: Fields)
    requires DistinctKeys(acc)
    ensures DistinctKeys(r)
    ensures forall k :: HasKey(r, k) ==> HasKey(acc, k) || exists m :: m in ms && Group(m, 0) == k
    ensures forall k :: Get(r, k) == FinalValue(ms, LooseAssignment, acc, k)
  {
    AssignDistinct(ms, LooseAssignment, acc);
    AssignKeys(ms, LooseAssignment, acc);
    AssignGet(ms, LooseAssignment, acc);
    Assign(ms, LooseAssignment, acc)
  }

  /** The arguments of the loose reading: the pairs inside a quoted `args` object, none when
      there is no such object. */
  function LooseArgsOf(block: string): (r: Fields)
    ensures DistinctKeys(r)
    ensures Search(LooseArgs, block, 0).None? ==> r == []
    ensures Search(LooseArgs, block, 0).Some? ==>
      var inner := Group(Search(LooseArgs, block, 0).value, 0);
      forall k :: Get(r, k) == LastValue(FindAll(LooseKeyValue, inner, 0), LooseAssignment, k)
  {
    match Search(LooseArgs, block, 0)
    case None => []
    case Some(a) => LooseArguments(FindAll(LooseKeyValue, Group(a, 0), 0), [])
  }

  /** The loose reading after a JSON decode error: a quoted `name` gives the tool, a quoted
      `args` object its arguments. */
  function LooseCall(block: string, idx: nat): (r: Option<ToolCall>)
    ensures r.Some? <==> Search(LooseName, block, 0).Some?
    ensures r.Some? ==> r.value.id == idx && r.value.name.JStr? && r.value.name.s != "" && r.value.arguments.JObj?
    ensures r.Some? ==> r.value.name == JStr(Group(Search(LooseName, block, 0).value, 0))
    ensures r.Some? ==> r.value.arguments == JObj(LooseArgsOf(block))
  {
    match Search(LooseName, block, 0)
    case None => None
    case Some(nm) =>
      LooseNameNonEmpty(block, nm.start);
      Some(ToolCall(idx, JStr(Group(nm, 0)), JObj(LooseArgsOf(block))))
  }

  /** The quoted name the loose reading captures is never empty. */
  lemma LooseNameNonEmpty(s: string, p: nat)
    requires p <= |s|
    requires MatchAt(LooseName, s, p).Some?
    ensures Group(MatchAt(LooseName, s, p).value, 0) != ""
  {
    MatchAtIsScanner(LooseName, s, p);
  }

  /** The JSON reading: an object's `name`, if truthy, names the tool; its `args`, if an
      object, are the arguments. */
  function JsonCall(data: Json, idx: nat): (r: Option<ToolCall>)
    ensures r.Some? <==> data.JObj? && Get(data.fields, "name").Some? && Truthy(Get(data.fields, "name").value)
    ensures r.Some? ==> r.value.id == idx && r.value.name == Get(data.fields, "name").value && r.value.arguments.JObj?
    ensures r.Some? && Get(data.fields, "args").Some? && Get(data.fields, "args").value.JObj? ==>
      r.value.arguments == Get(data.fields, "args").value
  {
    if !data.JObj? then None
    else
      var name := Get(data.fields, "name");
      var args := Get(data.fields, "args").GetOr(JObj([]));
      if name.Some? && Truthy(name.value) then Some(ToolCall(idx, name.value, if args.JObj? then args else JObj([])))
      else None
  }

  /** One block, stripped first. */
  function BracketCall(parse: JsonParser, body: string, idx: nat): (r: Option<ToolCall>)
    ensures r.Some? ==> r.value.id == idx
    ensures var block := Strip(body); Search(ArrowToolName, block, 0).Some? ==>
      r == Some(ToolCall(idx, JStr(Group(Search(ArrowToolName, block, 0).value, 0)), JObj(ArrowArguments(block))))
    ensures var block := Strip(body); var data := parse(Replace(block, "'", "\""));
      Search(ArrowToolName, block, 0).None? ==>
        && (data.Some? ==> r == JsonCall(data.value, idx))
        && (data.None? ==> r == LooseCall(block, idx))
  {
    var block := Strip(body);
    match Search(ArrowToolName, block, 0)
    case Some(nm) => Some(ToolCall(idx, JStr(Group(nm, 0)), JObj(ArrowArguments(block))))
    case None =>
      match parse(Replace(block, "'", "\""))
      case Some(data) => JsonCall(data, idx)
      case None => LooseCall(block, idx)
  }

  /** When a block has the arrow form, the JSON decoder is never consulted: any two decoders
      give the same call. */
  lemma ArrowPrecedence(p1: JsonParser, p2: JsonParser, body: string, idx: nat)
    requires Search(ArrowToolName, Strip(body), 0).Some?
    ensures BracketCall(p1, body, idx) == BracketCall(p2, body, idx)
    ensures BracketCall(p1, body, idx).Some?
  {
  }

  function BracketBlockParser(parse: JsonParser): (f: BlockParser)
    ensures KeepsIndex(f)
  {
    (m: Match, idx: nat) => BracketCall(parse, Group(m, 0), idx)
  }

  /** `_parse_bracket_tool_calls`. */
  function ParseBracket(parse: JsonParser, s: string): (r: Outcome)
    ensures !Contains(s, "[TOOL_CALL]") ==> r == Outcome(s, None)
    ensures r.calls.None? ==> r.text == s
    ensures r.calls.Some? ==> |r.calls.value| > 0 && r.text == Strip(Sub(BracketBlock, s))
    ensures r.calls.Some? ==> |r.calls.value| <= |FindAll(BracketBlock, s, 0)|
  {
    if s == "" || !Contains(s, "[TOOL_CALL]") then Outcome(s, None)
    else
      var ms := FindAll(BracketBlock, s, 0);
      Finish(s, BracketBlock, Collect(BracketBlockParser(parse), ms, 0))
  }

  /** Once the marker is present, the calls are those the blocks yield. */
  lemma ParseBracketCalls(parse: JsonParser, s: string)
    requires Contains(s, "[TOOL_CALL]")
    ensures CallsOf(ParseBracket(parse, s)) == Collect(BracketBlockParser(parse), FindAll(BracketBlock, s, 0), 0)
  {
    assert OccursAt(s, "[TOOL_CALL]", Find(s, "[TOOL_CALL]", 0).value);
  }
}

=== FILE: citations.dfy ===
/** Citation ids shared by the search tools: every entry of a tool's output opens with a tag
    `[<id>]`, and numbered ids are a fixed prefix followed by the entry's position from 1. */
module Citations {
  import opened Text

  /** The tag that heads an entry. */
  function Tag(id: string): string {
    "[" + id + "]"
  }

  /** `f"{prefix}{n}"`. */
  function NumberedId(prefix: string, n: nat): string {
    prefix + NatToString(n)
  }

  /** Numbered ids with the same prefix name their number: different numbers never share an
      id. */
  lemma NumberedIdInjective(prefix: string, a: nat, b: nat)
    requires NumberedId(prefix, a) == NumberedId(prefix, b)
    ensures a == b
  {
    assert NatToString(a) == NumberedId(prefix, a)[|prefix|..];
    assert NatToString(b) == NumberedId(prefix, b)[|prefix|..];
    NatToStringInjective(a, b);
  }

  /** An entry built as its tag followed by a body starts with the tag. */
  lemma TaggedEntry(tag: string, body: string)
    ensures StartsWith(tag + body, tag)
  {
    assert (tag + body)[..|tag|] == tag;
  }
}

=== FILE: combiner.dfy ===
/** `_parse_all_tool_calls`: the five grammars run one after the other, each on the text the
    previous one left, and their calls are concatenated. The calls of the first grammar keep
    the ids they were given; those of the other four are renumbered from the number of calls
    gathered before them. */
module Combiner {
  import opened Wrappers
  import opened Text
  import opened JsonValues
  import opened ToolCalls
  import TagGrammar
  import InvokeGrammar
  import BracketGrammar
  import ActionGrammar
  import EventGrammar

  /** A grammar: model output in, cleaned text and calls out. */
  type Grammar = string -> Outcome

  /** A grammar that reports `None` rather than an empty list, and turns away the empty text. */
  ghost predicate WellBehaved(g: Grammar) {
    && (forall s :: Reported(g(s)))
    && g("") == Outcome("", None)
  }

  /** An outcome that carries calls carries at least one. */
  predicate Reported(o: Outcome) {
    o.calls.None? || |o.calls.value| > 0
  }

  /** The five grammars in the order they run: tag, invoke, bracket, action, event. */
  function Grammars(xml: XmlParser, parse: JsonParser): (gs: seq<Grammar>)
    ensures |gs| == 5
    ensures forall s :: gs[0](s) == TagGrammar.ParseTag(xml, s)
    ensures forall s :: gs[1](s) == InvokeGrammar.ParseInvoke(s)
    ensures forall s :: gs[2](s) == BracketGrammar.ParseBracket(parse, s)
    ensures forall s :: gs[3](s) == ActionGrammar.ParseAction(parse, s)
    ensures forall s :: gs[4](s) == EventGrammar.ParseEvent(parse, s)
  {
    [ (s: string) => TagGrammar.ParseTag(xml, s),
      (s: string) => InvokeGrammar.ParseInvoke(s),
      (s: string) => BracketGrammar.ParseBracket(parse, s),
      (s: string) => ActionGrammar.ParseAction(parse, s),
      (s: string) => EventGrammar.ParseEvent(parse, s) ]
  }

  /** Each grammar reports `None` rather than an empty list and turns away the empty text. */
  lemma GrammarsWellBehaved(xml: XmlParser, parse: JsonParser)
    ensures forall k :: 0 <= k < 5 ==> WellBehaved(Grammars(xml, parse)[k])
  {
    var gs := Grammars(xml, parse);
    forall s ensures Reported(gs[0](s)) {
      assert gs[0](s) == TagGrammar.ParseTag(xml, s);
    }
    forall s ensures Reported(gs[1](s)) {
      assert gs[1](s) == InvokeGrammar.ParseInvoke(s);
    }
    forall s ensures Reported(gs[2](s)) {
      assert gs[2](s) == BracketGrammar.ParseBracket(parse, s);
    }
    forall s ensures Reported(gs[3](s)) {
      assert gs[3](s) == ActionGrammar.ParseAction(parse, s);
    }
    forall s ensures Reported(gs[4](s)) {
      assert gs[4](s) == EventGrammar.ParseEvent(parse, s);
    }
  }

  /** One application of a well-behaved grammar. */
  lemma Behaves(g: Grammar, s: string)
    requires WellBehaved(g)
    ensures g(s).calls.None? <==> CallsOf(g(s)) == []
    ensures s == "" ==> g(s) == Outcome("", None)
  {
    assert Reported(g(s));
  }

  /** The outcome of each grammar, each applied to the text its predecessor left. */
  function Run(gs: seq<Grammar>, s: string): (st: seq<Outcome>)
    ensures |st| == |gs|
    ensures |gs| > 0 ==> st[0] == gs[0](s)
    ensures forall k :: 0 < k < |gs| ==> st[k] == gs[k](st[k - 1].text)
    decreases |gs|
  {
    if |gs| == 0 then []
    else
      var o := gs[0](s);
      var rest := Run(gs[1..], o.text);
      assert forall k :: 1 < k < |gs| ==> rest[k - 1] == gs[k](rest[k - 2].text);
      [o] + rest
  }

  function Stages(xml: XmlParser, parse: JsonParser, s: string): (st: seq<Outcome>)
    ensures |st| == 5
  {
    Run(Grammars(xml, parse), s)
  }

  /** No grammar found a call. */
  predicate Silent(st: seq<Outcome>) {
    forall k :: 0 <= k < |st| ==> st[k].calls.None?
  }

  /** What a call asks for, without its id. */
  function Body(c: ToolCall): (Json, Json) {
    (c.name, c.arguments)
  }

  function Bodies(calls: seq<ToolCall>): (r: seq<(Json, Json)>)
    ensures |r| == |calls|
    ensures forall k :: 0 <= k < |r| ==> r[k] == Body(calls[k])
  {
    seq(|calls|, k requires 0 <= k < |calls| => Body(calls[k]))
  }

  /** The bodies of all calls of the outcomes, in outcome order. */
  function AllBodies(st: seq<Outcome>): seq<(Json, Json)>
    decreases |st|
  {
    if |st| == 0 then [] else Bodies(CallsOf(st[0])) + AllBodies(st[1..])
  }

  /** `all_tool_calls.extend(calls)` after `tc["id"] = f"call_{len(all_tool_calls) + i}"`. */
  function Append(acc: seq<ToolCall>, calls: seq<ToolCall>): (r: seq<ToolCall>)
    ensures |r| == |acc| + |calls|
    ensures r[..|acc|] == acc
    ensures Bodies(r) == Bodies(acc) + Bodies(calls)
    ensures forall k :: |acc| <= k < |r| ==> r[k].id == k
  {
    var r := acc + Renumber(calls, |acc|);
    assert Bodies(r) == Bodies(acc) + Bodies(calls);
    r
  }

  /** The calls of the outcomes appended to `acc` in order, each renumbered. */
  function Gather(st: seq<Outcome>, acc: seq<ToolCall>): (r: seq<ToolCall>)
    ensures |acc| <= |r| && r[..|acc|] == acc
    ensures Bodies(r) == Bodies(acc) + AllBodies(st)
    ensures forall k :: |acc| <= k < |r| ==> r[k].id == k
    ensures |r| == |acc| <==> forall k :: 0 <= k < |st| ==> CallsOf(st[k]) == []
    decreases |st|
  {
    if |st| == 0 then acc
    else
      var acc' := Append(acc, CallsOf(st[0]));
      var r := Gather(st[1..], acc');
      PrefixStep(acc, acc', r);
      BodiesStep(st, acc, acc', r);
      SilentStep(st);
      r
  }

  lemma BodiesStep(st: seq<Outcome>, acc: seq<ToolCall>, mid: seq<ToolCall>, r: seq<ToolCall>)
    requires |st| > 0
    requires Bodies(mid) == Bodies(acc) + Bodies(CallsOf(st[0]))
    requires Bodies(r) == Bodies(mid) + AllBodies(st[1..])
    ensures Bodies(r) == Bodies(acc) + AllBodies(st)
  {
    assert AllBodies(st) == Bodies(CallsOf(st[0])) + AllBodies(st[1..]);
  }

  lemma SilentStep(st: seq<Outcome>)
    requires |st| > 0
    ensures (forall k :: 0 <= k < |st| ==> CallsOf(st[k]) == []) <==>
      CallsOf(st[0]) == [] && forall k :: 0 <= k < |st[1..]| ==> CallsOf(st[1..][k]) == []
  {
    assert forall k :: 0 <= k < |st| - 1 ==> st[1..][k] == st[k + 1];
  }

  /** Two renumbering steps in a row: the first list stays a prefix, and every later id is
      its position. */
  lemma PrefixStep(acc: seq<ToolCall>, mid: seq<ToolCall>, r: seq<ToolCall>)
    requires |acc| <= |mid| <= |r| && mid[..|acc|] == acc && r[..|mid|] == mid
    requires forall k :: |acc| <= k < |mid| ==> mid[k].id == k
    requires forall k :: |mid| <= k < |r| ==> r[k].id == k
    ensures r[..|acc|] == acc
    ensures forall k :: |acc| <= k < |r| ==> r[k].id == k
  {
    assert r[..|acc|] == r[..|mid|][..|acc|];
    forall k | |acc| <= k < |mid|
      ensures r[k].id == k
    {
      assert r[k] == r[..|mid|][k];
    }
  }

  /** The combination of any five well-behaved grammars run in order. */
  function Combine(gs: seq<Grammar>, s: string): (r: Outcome)
    requires |gs| == 5
    requires forall k :: 0 <= k < 5 ==> WellBehaved(gs[k])
    ensures r.calls.None? <==> Silent(Run(gs, s))
    ensures r.text == Run(gs, s)[4].text
    ensures Bodies(CallsOf(r)) == AllBodies(Run(gs, s))
    ensures var first := CallsOf(Run(gs, s)[0]);
      |first| <= |CallsOf(r)| && CallsOf(r)[..|first|] == first
    ensures forall k :: |CallsOf(Run(gs, s)[0])| <= k < |CallsOf(r)| ==> CallsOf(r)[k].id == k
  {
    var st := Run(gs, s);
    var calls := Gather(st[1..], CallsOf(st[0]));
    StagesReport(gs, s);
    GatherAll(st);
    if s == "" then Outcome(s, None)
    else Outcome(st[4].text, if |calls| == 0 then None else Some(calls))
  }

  /** Every stage of a run of well-behaved grammars reports `None` rather than an empty
      list, and a run on the empty text finds nothing and leaves nothing. */
  lemma StagesReport(gs: seq<Grammar>, s: string)
    requires |gs| == 5
    requires forall k :: 0 <= k < 5 ==> WellBehaved(gs[k])
    ensures forall k :: 0 <= k < 5 ==> (Run(gs, s)[k].calls.None? <==> CallsOf(Run(gs, s)[k]) == [])
    ensures s == "" ==> Silent(Run(gs, s)) && Run(gs, s)[4].text == ""
  {
    var st := Run(gs, s);
    Behaves(gs[0], s);
    Behaves(gs[1], st[0].text);
    Behaves(gs[2], st[1].text);
    Behaves(gs[3], st[2].text);
    Behaves(gs[4], st[3].text);
  }

  /** Gathering all stages after the first onto the first stage's calls. */
  lemma GatherAll(st: seq<Outcome>)
    requires |st| > 0
    ensures var calls := Gather(st[1..], CallsOf(st[0]));
      && Bodies(calls) == AllBodies(st)
      && (|calls| == 0 <==> forall k :: 0 <= k < |st| ==> CallsOf(st[k]) == [])
  {
    assert forall k :: 0 <= k < |st| - 1 ==> st[1..][k] == st[k + 1];
  }

  /** `_parse_all_tool_calls` as written: the first grammar's ids are kept. */
  function ParseAll(xml: XmlParser, parse: JsonParser, s: string): (r: Outcome)
    ensures r.calls.None? <==> Silent(Stages(xml, parse, s))
    ensures r.text == Stages(xml, parse, s)[4].text
    ensures Bodies(CallsOf(r)) == AllBodies(Stages(xml, parse, s))
    ensures var first := CallsOf(Stages(xml, parse, s)[0]);
      |first| <= |CallsOf(r)| && CallsOf(r)[..|first|] == first
    ensures forall k :: |CallsOf(Stages(xml, parse, s)[0])| <= k < |CallsOf(r)| ==> CallsOf(r)[k].id == k
  {
    GrammarsWellBehaved(xml, parse);
    Combine(Grammars(xml, parse), s)
  }
}

// The ids of the combined list can repeat; ParseAllFixed renumbers the whole list.
module CombinerIds {
  import opened Wrappers
  import opened Text
  import opened JsonValues
  import opened Patterns
  import opened ToolCalls
  import opened Combiner
  import TagGrammar
  import InvokeGrammar
  import BracketGrammar
  import ActionGrammar
  import EventGrammar

  /** A tag call whose id (its block's index, counting skipped blocks) reaches the number
      of tag calls lands in the range the later grammars are renumbered into: when a later
      grammar contributes a call at that position, two calls share an id. */
  lemma DuplicateIds(xml: XmlParser, parse: JsonParser, s: string, k: nat)
    requires var first := CallsOf(Stages(xml, parse, s)[0]);
      k < |first| && |first| <= first[k].id < |CallsOf(ParseAll(xml, parse, s))|
    ensures !DistinctIds(CallsOf(ParseAll(xml, parse, s)))
  {
    var first := CallsOf(Stages(xml, parse, s)[0]);
    var calls := CallsOf(ParseAll(xml, parse, s));
    var t := first[k].id;
    assert calls[..|first|] == first;
    assert calls[k] == first[k];
    assert calls[t].id == t;
  }

  /** `_parse_all_tool_calls` with the whole combined list renumbered, so that every id is
      the call's position. */
  function ParseAllFixed(xml: XmlParser, parse: JsonParser, s: string): (r: Outcome)
    ensures r.text == ParseAll(xml, parse, s).text
    ensures r.calls.None? <==> ParseAll(xml, parse, s).calls.None?
    ensures Bodies(CallsOf(r)) == AllBodies(Stages(xml, parse, s))
    ensures forall k :: 0 <= k < |CallsOf(r)| ==> CallsOf(r)[k].id == k
    ensures DistinctIds(CallsOf(r))
  {
    RenumberAll(ParseAll(xml, parse, s))
  }

  /** An outcome with its calls renumbered from 0: the same text and bodies, ids equal to
      positions. */
  function RenumberAll(o: Outcome): (r: Outcome)
    ensures r.text == o.text
    ensures r.calls.None? <==> o.calls.None?
    ensures Bodies(CallsOf(r)) == Bodies(CallsOf(o))
    ensures forall k :: 0 <= k < |CallsOf(r)| ==> CallsOf(r)[k].id == k
  {
    match o.calls
    case None => o
    case Some(calls) =>
      var fixed := Renumber(calls, 0);
      assert Bodies(fixed) == Bodies(calls);
      Outcome(o.text, Some(fixed))
  }
  // ---------------------------------------------------------------------------
  // A text on which the ids repeat: `<tool_call></tool_call><tool_call><tool_name>a</tool_name>
  // </tool_call>Action: {"name": "b"}`. The empty first block yields nothing, so the second
  // block's call keeps id 1; the `Action:` block left behind is renumbered to 1 as well.

  const Open: string := "<tool_call>"
  const Close: string := "</tool_call>"
  const Named: string := "<tool_name>a</tool_name>"
  const Left: string := "Action: {\"name\": \"b\"}"
  const Witness: string := Open + Close + Open + Named + Close + Left

  /** `ET.fromstring` on the two bodies of the witness: the empty root has no children, the
      other holds one `tool_name` element with text `a`. */
  function WitnessXml(): XmlParser {
    t => if t == "<root></root>" then Some([])
      else if t == "<root>" + Named + "</root>" then Some([XmlChild("tool_name", Some("a"))])
      else None
  }

  /** `json.loads` on the witness's one JSON text: an object whose `name` is `b`. */
  function WitnessJson(): JsonParser {
    t => if t == "{\"name\": \"b\"}" then Some(JObj([("name", JStr("b"))])) else None
  }

  /** No occurrence of `pat` in `s` when one of its characters is missing from `s`. */
  lemma MissingChar(s: string, pat: string, j: nat)
    requires j < |pat| && pat[j] !in s
    ensures !Contains(s, pat)
  {
    forall k | 0 <= k && k + |pat| <= |s|
      ensures !OccursAt(s, pat, k)
    {
      assert s[k..k + |pat|][j] == s[k + j];
    }
  }

  /** A `<tool_call>` block at `p` whose body holds no closing tag is what a search from
      `p` finds. */
  lemma ToolCallBlockAt(s: string, p: nat, q: nat)
    requires p + |Open| <= q && q + |Close| <= |s|
    requires OccursAt(s, Open, p) && Find(s, Close, p + |Open|) == Some(q)
    ensures Search(ToolCallBlock, s, p) == Some(Match(p, q + |Close|, [Some(s[p + |Open|..q])]))
  {
    MatchAtIsScanner(ToolCallBlock, s, p);
    var m := Match(p, q + |Close|, [Some(s[p + |Open|..q])]);
    assert MatchAt(ToolCallBlock, s, p) == Some(m);
    var r := Search(ToolCallBlock, s, p);
    assert r.Some? && r.value.start == p;
  }

  /** The first block is empty and closes at once. */
  lemma WitnessFirstBlock()
    ensures Search(ToolCallBlock, Witness, 0) == Some(Match(0, 23, [Some("")]))
  {
    var s := Witness;
    assert s[0..11] == Open;
    assert s[11..23] == Close;
    assert |Open| == 11 && |Close| == 12;
    assert OccursAt(s, Open, 0) && OccursAt(s, Close, 11);
    assert Find(s, Close, 11) == Some(11);
    ToolCallBlockAt(s, 0, 11);
    assert s[0 + |Open|..11] == "";
  }

  /** The second block holds the `tool_name` element: its `</tool_name>` is not the closing
      tag. */
  lemma WitnessSecondBlock()
    ensures Search(ToolCallBlock, Witness, 23) == Some(Match(23, 70, [Some(Named)]))
  {
    var s := Witness;
    assert s[23..34] == Open;
    assert s[34..58] == Named;
    assert s[58..70] == Close;
    NamedHoldsNoClose();
    assert OccursAt(s, Close, 58);
    var f := Find(s, Close, 34);
    assert f.Some? && f.value <= 58;
    ToolCallBlockAt(s, 23, 58);
  }

  /** No `</tool_call>` starts inside the `tool_name` element of the second block. */
  lemma NamedHoldsNoClose()
    ensures forall k :: 34 <= k < 58 ==> !OccursAt(Witness, Close, k)
  {
    var s := Witness;
    assert s[34..58] == Named;
    forall k | 34 <= k < 58
      ensures !OccursAt(s, Close, k)
    {
      assert s[k..k + 12][0] == s[k];
      assert s[k..k + 12][7] == s[k + 7];
    }
  }

  /** No block opens in what follows the second. */
  lemma WitnessNoMoreBlocks()
    ensures Search(ToolCallBlock, Witness, 70).None?
  {
    var s := Witness;
    assert s[70..] == Left;
    MissingChar(Left, Open, 0);
    forall q | 70 <= q <= |s|
      ensures MatchAt(ToolCallBlock, s, q).None?
    {
      MatchAtIsScanner(ToolCallBlock, s, q);
      if q + |Open| <= |s| {
        assert s[q..q + |Open|][0] == s[q] == Left[q - 70];
      }
    }
  }

  lemma WitnessBlocks()
    ensures FindAll(ToolCallBlock, Witness, 0) == [Match(0, 23, [Some("")]), Match(23, 70, [Some(Named)])]
    ensures Sub(ToolCallBlock, Witness) == Left
  {
    var s := Witness;
    var m1 := Match(0, 23, [Some("")]);
    var m2 := Match(23, 70, [Some(Named)]);
    WitnessFirstBlock();
    WitnessSecondBlock();
    WitnessNoMoreBlocks();
    assert FindAll(ToolCallBlock, s, 70) == [];
    assert FindAll(ToolCallBlock, s, 23) == [m2];
    assert FindAll(ToolCallBlock, s, 0) == [m1, m2];
    assert [m1, m2][1..] == [m2];
    assert Cut(ToolCallBlock, s, [m2], 23) == s[23..23] + s[70..];
    assert s[70..] == Left;
  }

  /** The empty block parses to a root without a `tool_name` child and yields nothing; the
      second block yields the call `a` with no arguments. */
  lemma WitnessBlockCalls()
    ensures TagGrammar.BlockCall(WitnessXml(), "", 0).None?
    ensures TagGrammar.BlockCall(WitnessXml(), Named, 1) == Some(ToolCall(1, JStr("a"), JObj([])))
  {
    WitnessEmptyBlock();
    WitnessNamedBlock();
  }

  lemma WitnessEmptyBlock()
    ensures TagGrammar.BlockCall(WitnessXml(), "", 0).None?
  {
    StripUnchanged("");
    assert "<root>" + "" + "</root>" == "<root></root>";
  }

  lemma WitnessNamedBlock()
    ensures TagGrammar.BlockCall(WitnessXml(), Named, 1) == Some(ToolCall(1, JStr("a"), JObj([])))
  {
    StripUnchanged(Named);
    StripUnchanged("a");
    var children := [XmlChild("tool_name", Some("a"))];
    assert WitnessXml()("<root>" + Named + "</root>") == Some(children);
    assert TagGrammar.FindChild(children, "tool_name") == Some(children[0]);
    assert TagGrammar.MarkupArgs(children, []) == [];
  }

  /** Of the two blocks only the second yields a call, and it keeps its index 1. */
  lemma WitnessTagCalls()
    ensures var calls := Collect(TagGrammar.TagBlock(WitnessXml()), FindAll(ToolCallBlock, Witness, 0), 0);
      |calls| == 1 && calls[0].id == 1
  {
    WitnessBlocks();
    WitnessBlockCalls();
    var ms := FindAll(ToolCallBlock, Witness, 0);
    var f := TagGrammar.TagBlock(WitnessXml());
    assert Group(ms[0], 0) == "" && Group(ms[1], 0) == Named;
    assert f(ms[0], 0).None?;
    var c := f(ms[1], 1).value;
    assert Collect(f, ms, 2) == [];
    assert Collect(f, ms, 1) == [c];
  }

  /** The tag grammar keeps one call, with id 1, and leaves the `Action:` block. */
  lemma WitnessTagStage()
    ensures TagGrammar.ParseTag(WitnessXml(), Witness).text == Left
    ensures var calls := CallsOf(TagGrammar.ParseTag(WitnessXml(), Witness));
      |calls| == 1 && calls[0].id == 1
  {
    WitnessBlocks();
    WitnessTagCalls();
    WitnessHasMarker();
    WitnessLeftStripped();
    TagStage(WitnessXml(), Witness, Left);
  }

  lemma WitnessLeftStripped()
    ensures Strip(Left) == Left
  {
    StripUnchanged(Left);
  }

  /** The tag grammar's outcome, from the blocks' calls and the text they leave. */
  lemma TagStage(xml: XmlParser, s: string, left: string)
    requires Contains(s, "<tool_call>")
    requires Sub(ToolCallBlock, s) == left && Strip(left) == left
    requires var calls := Collect(TagGrammar.TagBlock(xml), FindAll(ToolCallBlock, s, 0), 0);
      |calls| == 1 && calls[0].id == 1
    ensures TagGrammar.ParseTag(xml, s).text == left
    ensures var calls := CallsOf(TagGrammar.ParseTag(xml, s));
      |calls| == 1 && calls[0].id == 1
  {
    TagGrammar.ParseTagCalls(xml, s);
  }

  lemma WitnessHasMarker()
    ensures Contains(Witness, "<tool_call>")
  {
    assert OccursAt(Witness, "<tool_call>", 0);
  }

  /** The action grammar finds the call `b` in what the tag grammar left. */
  lemma WitnessActionStage()
    ensures |CallsOf(ActionGrammar.ParseAction(WitnessJson(), Left))| > 0
  {
    var parse := WitnessJson();
    WitnessActionBlock();
    assert Contains(Left, "Action:") by {
      assert OccursAt(Left, "Action:", 0);
    }
    var ms := FindAll(ActionBlock, Left, 0);
    var m := ms[0];
    assert ActionGrammar.Span(Left, m) == Left;
    assert Group(m, 0) == "\"name\": \"b\"";
    WitnessActionCall();
    assert ActionGrammar.ActionBlockParser(parse, Left)(m, 0).Some?;
    ActionStage(parse, Left);
  }

  /** When the first `Action:` block yields a call, the action grammar reports calls. */
  lemma ActionStage(parse: JsonParser, s: string)
    requires Contains(s, "Action:")
    requires var ms := FindAll(ActionBlock, s, 0);
      |ms| > 0 && ActionGrammar.ActionBlockParser(parse, s)(ms[0], 0).Some?
    ensures |CallsOf(ActionGrammar.ParseAction(parse, s))| > 0
  {
    var ms := FindAll(ActionBlock, s, 0);
    var f := ActionGrammar.ActionBlockParser(parse, s);
    assert f(ms[0], 0).value in Collect(f, ms, 0);
  }

  /** The decoder reads the block's braces as an object named `b`. */
  lemma WitnessActionCall()
    ensures ActionGrammar.ActionCall(WitnessJson(), Left, "\"name\": \"b\"", 0) == Some(ToolCall(0, JStr("b"), JObj([])))
  {
    assert "{" + "\"name\": \"b\"" + "}" == "{\"name\": \"b\"}";
  }

  /** `Action: {"name": "b"}` is one action block whose group is `"name": "b"`. */
  lemma WitnessActionBlock()
    ensures |FindAll(ActionBlock, Left, 0)| > 0
    ensures FindAll(ActionBlock, Left, 0)[0] == Match(0, 21, [Some("\"name\": \"b\"")])
    ensures ActionGrammar.Span(Left, FindAll(ActionBlock, Left, 0)[0]) == Left
  {
    LeftScan();
    MatchAtIsScanner(ActionBlock, Left, 0);
    assert MatchAt(ActionBlock, Left, 0) == Some(Match(0, 21, [Some(Left[9..20])]));
  }

  /** How the action pattern's pieces scan `Left`. */
  lemma LeftScan()
    ensures |Left| == 21 && OccursAt(Left, "Action:", 0) && Left[8] == '{' && Left[20] == '}'
    ensures SkipSpace(Left, 7) == 8 && SkipSpace(Left, 8) == 8
    ensures RunEnd(Left, 9, NoneOf("}")) == 20
    ensures Left[9..20] == "\"name\": \"b\""
  {
    var s := Left;
    var group := "\"name\": \"b\"";
    assert s == "Action: {" + group + "}";
    assert s[9..20] == group;
    assert OccursAt(s, "Action:", 0);
    RunEndAt(s, 7, Space, 8);
    RunEndAt(s, 8, Space, 8);
    assert '}' !in group;
    forall k | 9 <= k < 20
      ensures InClass(s[k], NoneOf("}"))
    {
      assert s[k] == group[k - 9];
    }
    RunEndAt(s, 9, NoneOf("}"), 20);
  }

  /** A run of a class that stops at `e` ends at `e`. */
  lemma {:induction false} RunEndAt(s: string, p: nat, cls: CharClass, e: nat)
    requires p <= e < |s|
    requires forall k :: p <= k < e ==> InClass(s[k], cls)
    requires !InClass(s[e], cls)
    ensures RunEnd(s, p, cls) == e
    decreases e - p
  {
    if p < e {
      RunEndAt(s, p + 1, cls, e);
    }
  }

  /** Neither the invoke nor the bracket grammar finds its marker in what is left. */
  lemma WitnessMarkersAbsent()
    ensures InvokeGrammar.ParseInvoke(Left) == Outcome(Left, None)
    ensures BracketGrammar.ParseBracket(WitnessJson(), Left) == Outcome(Left, None)
  {
    WitnessNoInvoke();
    WitnessNoBracket();
  }

  lemma WitnessNoInvoke()
    ensures InvokeGrammar.ParseInvoke(Left) == Outcome(Left, None)
  {
    MissingChar(Left, "<invoke>", 0);
  }

  lemma WitnessNoBracket()
    ensures BracketGrammar.ParseBracket(WitnessJson(), Left) == Outcome(Left, None)
  {
    MissingChar(Left, "[TOOL_CALL]", 0);
  }

  /** The bodies of five outcomes are at least those of the first and the fourth. */
  lemma FiveBodies(st: seq<Outcome>)
    requires |st| == 5
    ensures |AllBodies(st)| >= |CallsOf(st[0])| + |CallsOf(st[3])|
  {
    assert st[1..][1..] == st[2..] && st[2..][1..] == st[3..];
    assert AllBodies(st) == Bodies(CallsOf(st[0])) + AllBodies(st[1..]);
    assert AllBodies(st[1..]) == Bodies(CallsOf(st[1])) + AllBodies(st[2..]);
    assert AllBodies(st[2..]) == Bodies(CallsOf(st[2])) + AllBodies(st[3..]);
    assert AllBodies(st[3..]) == Bodies(CallsOf(st[3])) + AllBodies(st[4..]);
  }

  /** The outcomes of the five grammars on `Witness`, in the terms the argument needs. */
  lemma WitnessStages()
    ensures var st := Stages(WitnessXml(), WitnessJson(), Witness);
      && |CallsOf(st[0])| == 1 && CallsOf(st[0])[0].id == 1
      && |CallsOf(st[3])| > 0
  {
    var xml, parse := WitnessXml(), WitnessJson();
    var gs := Grammars(xml, parse);
    var st := Run(gs, Witness);
    WitnessTagStage();
    WitnessMarkersAbsent();
    WitnessActionStage();
    assert st[0] == TagGrammar.ParseTag(xml, Witness);
    assert st[1] == InvokeGrammar.ParseInvoke(Left);
    assert st[2] == BracketGrammar.ParseBracket(parse, Left);
    assert st[3] == ActionGrammar.ParseAction(parse, Left);
  }

  /** On `Witness`, two calls of `_parse_all_tool_calls` share id 1. */
  lemma DuplicateIdsWitness()
    ensures !DistinctIds(CallsOf(ParseAll(WitnessXml(), WitnessJson(), Witness)))
  {
    var xml, parse := WitnessXml(), WitnessJson();
    WitnessStages();
    FiveBodies(Stages(xml, parse, Witness));
    DuplicateIds(xml, parse, Witness, 0);
  }
}

=== FILE: deep_research.dfy ===
/** `DeepResearchAgent`: unwrapping of its final result, the names of the tools the agent
    called, and the loop that turns a dataset into fine-tuning traces. The agent's run is an
    input: its final text and its memory steps, or nothing when it raises. */
module DeepResearch {
  import opened Wrappers
  import opened Text
  import opened Answers

  const FinalAnswerTool: string := "final_answer"

  /** `postprocess_final_result`: the text between the first `<answer>` and what follows it,
      stripped; text without `<answer>` is kept. The result holds no answer tags, so a second
      pass changes nothing (`AnswerSpan` is the same unwrapping the sub-agents apply). */
  function PostprocessFinalResult(s: string): (r: string)
    ensures !Contains(s, AnswerOpen) ==> r == s
    ensures Contains(s, AnswerOpen) ==> !Contains(r, AnswerOpen) && !Contains(r, AnswerClose)
    ensures AnswerSpan(r) == r
  {
    AnswerSpanIdempotent(s);
    AnswerSpan(s)
  }

  /** The token counts a monitor reports. */
  datatype TokenCounts = TokenCounts(input: int, output: int)

  /** `increment_web_agent_token_counts`, the final-answer check: it doubles both counts of
      the object the monitor hands out and always lets the answer through. */
  function FinalAnswerCheck(counts: TokenCounts): (r: (bool, TokenCounts))
    ensures r.0
    ensures r.1.input == 2 * counts.input && r.1.output == 2 * counts.output
  {
    (true, TokenCounts(counts.input + counts.input, counts.output + counts.output))
  }

  // ---------------------------------------------------------------------------
  // Tool calls of a run

  /** A memory step: an action step with its tool calls (`None` when it made none), or any
      other kind of step. */
  datatype Step = ActionStep(toolCalls: Option<seq<string>>) | OtherStep

  /** The names a step contributes: its tool calls other than `final_answer`, in order. */
  function StepCalls(step: Step): (r: seq<string>)
    ensures forall n :: n in r <==> step.ActionStep? && step.toolCalls.Some? && n in step.toolCalls.value && n != FinalAnswerTool
  {
    if step.ActionStep? && step.toolCalls.Some? then WithoutFinalAnswer(step.toolCalls.value) else []
  }

  function WithoutFinalAnswer(names: seq<string>): (r: seq<string>)
    ensures forall n :: n in r <==> n in names && n != FinalAnswerTool
    ensures |r| <= |names|
  {
    if names == [] then []
    else
      var rest := WithoutFinalAnswer(names[1..]);
      assert forall n :: n in names <==> n == names[0] || n in names[1..];
      if names[0] != FinalAnswerTool then [names[0]] + rest else rest
  }

  /** The `tool_calls` list `predict` collects over the memory steps. */
  function ToolCallNames(steps: seq<Step>): (r: seq<string>)
    ensures FinalAnswerTool !in r
    decreases |steps|
  {
    if steps == [] then []
    else ToolCallNames(steps[..|steps| - 1]) + StepCalls(steps[|steps| - 1])
  }

  /** The names follow the steps: those of a concatenation are those of each part, in order. */
  lemma {:induction false} ToolCallNamesAppend(a: seq<Step>, b: seq<Step>)
    ensures ToolCallNames(a + b) == ToolCallNames(a) + ToolCallNames(b)
    decreases |b|
  {
    if b == [] {
      assert a + b == a;
    } else {
      var b', last := b[..|b| - 1], b[|b| - 1];
      assert b == b' + [last];
      assert a + b == (a + b') + [last];
      ToolCallNamesSnoc(a + b', last);
      ToolCallNamesSnoc(b', last);
      ToolCallNamesAppend(a, b');
      Regroup(ToolCallNames(a), ToolCallNames(b'), StepCalls(last), ToolCallNames(a + b), ToolCallNames(b));
    }
  }

  lemma ToolCallNamesSnoc(steps: seq<Step>, step: Step)
    ensures ToolCallNames(steps + [step]) == ToolCallNames(steps) + StepCalls(step)
  {
    assert (steps + [step])[..|steps|] == steps;
  }

  lemma Regroup<T>(x: seq<T>, y: seq<T>, z: seq<T>, xyz: seq<T>, yz: seq<T>)
    requires xyz == x + y + z && yz == y + z
    ensures xyz == x + yz
  {
  }

  /** A name is collected exactly when some action step called that tool and it is not the
      final answer. */
  lemma {:induction false} ToolCallNamesSource(steps: seq<Step>, n: string)
    ensures n in ToolCallNames(steps) <==>
      (n != FinalAnswerTool && exists i :: 0 <= i < |steps| && steps[i].ActionStep? && steps[i].toolCalls.Some? && n in steps[i].toolCalls.value)
    decreases |steps|
  {
    if steps != [] {
      var init := steps[..|steps| - 1];
      ToolCallNamesSource(init, n);
      assert forall i :: 0 <= i < |init| ==> init[i] == steps[i];
    }
  }

  /** What `predict` returns, apart from the agent's memory and message trace. */
  datatype Prediction = Prediction(finalResult: string, toolCalls: seq<string>, totalToolCalls: nat)

  /** `predict` given the agent's final text and memory steps. */
  function Predict(finalText: string, steps: seq<Step>): (r: Prediction)
    ensures r.totalToolCalls == |r.toolCalls|
    ensures r.toolCalls == ToolCallNames(steps)
    ensures r.finalResult == PostprocessFinalResult(finalText)
  {
    var calls := ToolCallNames(steps);
    Prediction(PostprocessFinalResult(finalText), calls, |calls|)
  }

  // ---------------------------------------------------------------------------
  // Fine-tuning traces

  datatype DataPoint = DataPoint(prompt: string, answer: string)

  /** One fine-tuning trace: prompt, reference answer, the agent's answer and its tools. */
  datatype SftTrace = SftTrace(prompt: string, originalAnswer: string, answer: string, toolCalls: seq<string>, totalToolCalls: nat)

  /** `dataset.select(range(max_examples)) if max_examples else dataset`: no limit and a
      limit of 0 both mean the whole dataset; a limit beyond its end raises; a negative one
      selects nothing. */
  function SelectExamples<T>(dataset: seq<T>, maxExamples: Option<int>): (r: Result<seq<T>, string>)
    ensures maxExamples.None? || maxExamples == Some(0) ==> r == Ok(dataset)
    ensures r.Err? <==> maxExamples.Some? && maxExamples.value > |dataset|
    ensures r.Ok? && maxExamples.Some? && maxExamples.value != 0 ==>
      |r.value| == (if maxExamples.value < 0 then 0 else maxExamples.value) && r.value == dataset[..|r.value|]
  {
    match maxExamples
    case None => Ok(dataset)
    case Some(m) =>
      if m == 0 then Ok(dataset)
      else if m < 0 then Ok([])
      else if m > |dataset| then Err("IndexError: Index " + IntToString(|dataset|) + " out of range for dataset of size " + IntToString(|dataset|) + ".")
      else Ok(dataset[..m])
  }

  function TraceOf(point: DataPoint, p: Prediction): SftTrace {
    SftTrace(point.prompt, point.answer, p.finalResult, p.toolCalls, p.totalToolCalls)
  }

  /** `generate_sft_traces`. `predict(i)` is the prediction for the `i`-th selected example,
      `None` when it raised; those examples are skipped. `kept` lists the examples that gave
      a trace, in order. */
  method GenerateSftTraces(dataset: seq<DataPoint>, maxExamples: Option<int>, predict: nat -> Option<Prediction>)
    returns (r: Result<seq<SftTrace>, string>, kept: seq<nat>)
    ensures r.Err? <==> SelectExamples(dataset, maxExamples).Err?
    ensures r.Ok? ==> |r.value| == |kept| <= |SelectExamples(dataset, maxExamples).value|
    ensures r.Ok? ==> forall j, l :: 0 <= j < l < |kept| ==> kept[j] < kept[l]
    ensures r.Ok? ==> forall i :: 0 <= i < |SelectExamples(dataset, maxExamples).value| ==>
      (i in kept <==> predict(i).Some?)
    ensures r.Ok? ==> forall j :: 0 <= j < |kept| ==>
      kept[j] < |SelectExamples(dataset, maxExamples).value| && predict(kept[j]).Some? &&
      r.value[j] == TraceOf(SelectExamples(dataset, maxExamples).value[kept[j]], predict(kept[j]).value)
  {
    var selected := SelectExamples(dataset, maxExamples);
    if selected.Err? {
      return Err(selected.error), [];
    }
    var points := selected.value;
    var traces: seq<SftTrace> := [];
    kept := [];
    var i := 0;
    while i < |points|
      invariant i <= |points|
      invariant |traces| == |kept| <= i
      invariant forall j, l :: 0 <= j < l < |kept| ==> kept[j] < kept[l]
      invariant forall x :: 0 <= x < i ==> (x in kept <==> predict(x).Some?)
      invariant forall j :: 0 <= j < |kept| ==>
        kept[j] < i && predict(kept[j]).Some? && traces[j] == TraceOf(points[kept[j]], predict(kept[j]).value)
    {
      var p := predict(i);
      if p.Some? {
        traces := traces + [TraceOf(points[i], p.value)];
        kept := kept + [i];
      }
      i := i + 1;
    }
    r := Ok(traces);
  }
}

=== FILE: event_grammar.dfy ===
/** The `[Event: {...}]` grammar (`_parse_json_tool_calls`). The braces are decoded as JSON;
    a `tool_calls` list holds search requests, and a `webpage_url` (at the top level or as
    the `tool_calls` object) asks for a page fetch. Calls are numbered consecutively in the
    order they are found. */
module EventGrammar {
  import opened Wrappers
  import opened Text
  import opened JsonValues
  import opened Patterns
  import opened ToolCalls

  const FetchTool: string := "crawl4ai_fetch_webpage_content"

  /** `tool_name_map.get(name, name)`: the two search types the events use are renamed to
      the tools that serve them. */
  function Alias(name: Json): (r: Json)
    ensures name == JStr("scholarly_search") ==> r == JStr("semantic_scholar_paper_search")
    ensures name == JStr("web_search") ==> r == JStr("serper_search_tool")
    ensures name != JStr("scholarly_search") && name != JStr("web_search") ==> r == name
  {
    if name == JStr("scholarly_search") then JStr("semantic_scholar_paper_search")
    else if name == JStr("web_search") then JStr("serper_search_tool")
    else name
  }

  /** Renaming twice is renaming once: no target name is itself renamed. */
  lemma AliasIdempotent(name: Json)
    ensures Alias(Alias(name)) == Alias(name)
  {
  }

  /** A page fetch: the fetch tool with the URL as its only argument. */
  function FetchCall(id: nat, url: Json): (r: ToolCall)
    ensures r.id == id && r.name == JStr(FetchTool)
    ensures r.arguments.JObj? && Keys(r.arguments.fields) == {"url"} && Get(r.arguments.fields, "url") == Some(url)
  {
    ToolCall(id, JStr(FetchTool), JObj([("url", url)]))
  }

  /** One entry of a `tool_calls` list. A truthy `search_type` names the tool (and a `tool`
      key then stays among the arguments); otherwise a truthy `tool` does. Both keys are
      removed when they are consulted, and the remaining keys are the arguments. */
  function ItemCall(item: Json, id: nat): (r: Option<ToolCall>)
    ensures r.Some? <==> (item.JObj? &&
      ((Get(item.fields, "search_type").Some? && Truthy(Get(item.fields, "search_type").value)) ||
       (Get(item.fields, "tool").Some? && Truthy(Get(item.fields, "tool").value))))
    ensures r.Some? ==> r.value.id == id && r.value.arguments.JObj?
    ensures r.Some? ==> !HasKey(r.value.arguments.fields, "search_type")
    ensures r.Some? && Get(item.fields, "search_type").Some? && Truthy(Get(item.fields, "search_type").value) ==>
      r.value.name == Alias(Get(item.fields, "search_type").value) &&
      Keys(r.value.arguments.fields) == Keys(item.fields) - {"search_type"}
    ensures r.Some? && !(Get(item.fields, "search_type").Some? && Truthy(Get(item.fields, "search_type").value)) ==>
      r.value.name == Alias(Get(item.fields, "tool").value) &&
      Keys(r.value.arguments.fields) == Keys(item.fields) - {"search_type", "tool"}
    ensures r.Some? ==> forall k :: k != "search_type" && k != "tool" ==>
      Get(r.value.arguments.fields, k) == Get(item.fields, k)
  {
    if !item.JObj? then None
    else
      var (st, rest) := Pop(item.fields, "search_type");
      if st.Some? && Truthy(st.value) then Some(ToolCall(id, Alias(st.value), JObj(rest)))
      else
        var (tool, rest') := Pop(rest, "tool");
        if tool.Some? && Truthy(tool.value) then Some(ToolCall(id, Alias(tool.value), JObj(rest')))
        else None
  }

  /** The calls of a `tool_calls` list, numbered from `next` on. */
  function ListCalls(items: seq<Json>, next: nat): (r: seq<ToolCall>)
    ensures |r| <= |items|
    ensures forall k :: 0 <= k < |r| ==> r[k].id == next + k
    ensures forall c :: c in r ==> exists item :: item in items && ItemCall(item, c.id) == Some(c)
    decreases |items|
  {
    if |items| == 0 then []
    else
      var first := ItemCall(items[0], next);
      var rest := ListCalls(items[1..], next + if first.Some? then 1 else 0);
      assert forall x :: x in items[1..] ==> x in items;
      if first.Some? then [first.value] + rest else rest
  }

  /** The calls one decoded event yields, numbered from `next` on. */
  function EventCalls(data: Option<Json>, next: nat): (r: seq<ToolCall>)
    ensures forall k :: 0 <= k < |r| ==> r[k].id == next + k
    ensures data.None? || !data.value.JObj? ==> r == []
    ensures data.Some? && data.value.JObj? && !HasKey(data.value.fields, "tool_calls") ==>
      r == if HasKey(data.value.fields, "webpage_url") then [FetchCall(next, Get(data.value.fields, "webpage_url").value)] else []
    ensures data.Some? && data.value.JObj? && HasKey(data.value.fields, "tool_calls") ==>
      var calls := Get(data.value.fields, "tool_calls").value;
      && (calls.JArr? ==> r == ListCalls(calls.items, next))
      && (calls.JObj? && HasKey(calls.fields, "webpage_url") ==>
            r == [FetchCall(next, Get(calls.fields, "webpage_url").value)])
      && (!calls.JArr? && !(calls.JObj? && HasKey(calls.fields, "webpage_url")) ==> r == [])
  {
    if data.None? || !data.value.JObj? then []
    else
      var f := data.value.fields;
      match Get(f, "tool_calls")
      case Some(calls) =>
        if calls.JArr? then ListCalls(calls.items, next)
        else if calls.JObj? && HasKey(calls.fields, "webpage_url") then [FetchCall(next, Get(calls.fields, "webpage_url").value)]
        else []
      case None =>
        if HasKey(f, "webpage_url") then [FetchCall(next, Get(f, "webpage_url").value)] else []
  }

  /** The calls of the events from `i` on, numbered from `next` on. */
  function AllEventCalls(parse: JsonParser, ms: seq<Match>, i: nat, next: nat): (r: seq<ToolCall>)
    requires i <= |ms|
    ensures forall k :: 0 <= k < |r| ==> r[k].id == next + k
    decreases |ms| - i
  {
    if i == |ms| then []
    else
      var calls := EventCalls(parse(Group(ms[i], 0)), next);
      calls + AllEventCalls(parse, ms, i + 1, next + |calls|)
  }

  /** `_parse_json_tool_calls`. Only an empty text is turned away at once. */
  function ParseEvent(parse: JsonParser, s: string): (r: Outcome)
    ensures !Contains(s, "[Event:") ==> r == Outcome(s, None)
    ensures r.calls.None? ==> r.text == s
    ensures r.calls.Some? ==> |r.calls.value| > 0 && r.text == Strip(Sub(EventBlock, s))
    ensures forall k :: 0 <= k < |CallsOf(r)| ==> CallsOf(r)[k].id == k
    ensures CallsOf(r) == AllEventCalls(parse, FindAll(EventBlock, s, 0), 0, 0)
  {
    NoEventWithoutMarker(s);
    if s == "" then Outcome(s, None)
    else
      var ms := FindAll(EventBlock, s, 0);
      Finish(s, EventBlock, AllEventCalls(parse, ms, 0, 0))
  }

  /** A text without `[Event:` holds no event. */
  lemma NoEventWithoutMarker(s: string)
    ensures !Contains(s, "[Event:") ==> FindAll(EventBlock, s, 0) == []
  {
    var r := Search(EventBlock, s, 0);
    if r.Some? {
      MatchAtIsScanner(EventBlock, s, r.value.start);
      ContainsAt(s, "[Event:", r.value.start);
    }
  }

  // ---------------------------------------------------------------------------
  // The list branch cannot be reached

  /** A value without an array inside decodes to calls that are all page fetches. */
  lemma {:induction false} FetchesOnly(data: Option<Json>, next: nat)
    requires data.Some? ==> !HasArray(data.value)
    ensures forall c :: c in EventCalls(data, next) ==> c.name == JStr(FetchTool)
  {
    if data.Some? && data.value.JObj? {
      var f := data.value.fields;
      match Get(f, "tool_calls")
      case Some(calls) =>
        assert ("tool_calls", calls) in f;
        var i :| 0 <= i < |f| && f[i] == ("tool_calls", calls);
        assert !HasArray(f[i].1);
      case None =>
    }
  }

  /** Every event the pattern captures lacks `]`, so a decoder that only produces arrays
      from text containing `]` never yields a `tool_calls` list: every call of the grammar
      is a page fetch, and the search-request branch is dead. */
  lemma {:induction false} EventListBranchDead(parse: JsonParser, s: string)
    requires ArraysNeedBracket(parse)
    ensures forall c :: c in CallsOf(ParseEvent(parse, s)) ==> c.name == JStr(FetchTool)
  {
    if s != "" {
      var ms := FindAll(EventBlock, s, 0);
      forall j | 0 <= j < |ms|
        ensures ']' !in Group(ms[j], 0)
      {
        FindAllMatches(EventBlock, s, 0, ms[j]);
        MatchAtIsScanner(EventBlock, s, ms[j].start);
      }
      AllFetches(parse, ms, 0, 0);
    }
  }

  lemma {:induction false} AllFetches(parse: JsonParser, ms: seq<Match>, i: nat, next: nat)
    requires ArraysNeedBracket(parse)
    requires i <= |ms|
    requires forall j :: i <= j < |ms| ==> ']' !in Group(ms[j], 0)
    ensures forall c :: c in AllEventCalls(parse, ms, i, next) ==> c.name == JStr(FetchTool)
    decreases |ms| - i
  {
    if i < |ms| {
      var data := parse(Group(ms[i], 0));
      FetchesOnly(data, next);
      var calls := EventCalls(data, next);
      AllFetches(parse, ms, i + 1, next + |calls|);
    }
  }

  /** An entry whose `search_type` and `tool` are both missing or falsy is dropped. */
  lemma UnnamedItemSkipped(item: Json, id: nat)
    requires item.JObj?
    requires Get(item.fields, "search_type").None? || !Truthy(Get(item.fields, "search_type").value)
    requires Get(item.fields, "tool").None? || !Truthy(Get(item.fields, "tool").value)
    ensures ItemCall(item, id).None?
  {
  }
}

=== FILE: generate_trace.dfy ===
/** `TraceGenerator`: run the search workflow on each example of a dataset, retrying until
    the checker accepts the answer or the attempts run out, and keep one training record per
    accepted example. The workflow runs and the judge's replies are inputs, indexed by
    example and attempt. */
module GenerateTrace {
  import opened Wrappers
  import opened Text
  import opened Prompts
  import opened AutoSearch
  import opened Answers
  import opened Rejection

  const DefaultMaxAttempts: nat := 5
  const ShortFormType: string := "short_form"
  const MissingCountsError: string := "KeyError: 'total_tool_calls'"

  /** `__init__`: a given `max_examples` keeps the first `min(max_examples, len)` rows; a
      negative one keeps none. */
  function Truncate<T(==)>(dataset: seq<T>, maxExamples: Option<int>): (r: seq<T>)
    ensures maxExamples.None? ==> r == dataset
    ensures maxExamples.Some? && maxExamples.value <= 0 ==> r == []
    ensures maxExamples.Some? && 0 <= maxExamples.value <= |dataset| ==> |r| == maxExamples.value
    ensures maxExamples.Some? && maxExamples.value >= |dataset| ==> r == dataset
    ensures IsPrefix(dataset, r)
  {
    if maxExamples.None? then dataset
    else if maxExamples.value <= 0 then []
    else if maxExamples.value < |dataset| then dataset[..maxExamples.value]
    else dataset
  }

  predicate IsPrefix<T(==)>(s: seq<T>, prefix: seq<T>) {
    |prefix| <= |s| && s[..|prefix|] == prefix
  }

  datatype Example = Example(question: string, target: string)

  /** One training record. Its random `id` is left out. */
  datatype Record = Record(
    sourceId: string,
    question: string,
    source: string,
    kind: string,
    numToolCalls: nat,
    conversation: seq<Message>)

  function SourceId(name: string, idx: nat): string {
    name + "_" + NatToString(idx)
  }

  /** Records of different examples of one dataset have different source ids. */
  lemma SourceIdsDistinct(name: string, i: nat, j: nat)
    requires SourceId(name, i) == SourceId(name, j)
    ensures i == j
  {
    var p := name + "_";
    assert NatToString(i) == SourceId(name, i)[|p|..];
    assert NatToString(j) == SourceId(name, j)[|p|..];
    NatToStringInjective(i, j);
  }

  /** `process_example` once the workflow has returned `trace`: the question is wrapped in the
      evaluation prompt, and the record is system prompt, question, generated text. The
      number of tool calls is read from the trace, which raises when it lacks the counts. */
  function ProcessExample(idx: nat, example: Example, name: string, system: string,
                          wrap: string -> string, trace: TraceResult): (r: Result<Record, string>)
    ensures r.Err? <==> trace.counts.None?
    ensures r.Err? ==> r.error == MissingCountsError
    ensures r.Ok? ==> (&& r.value.sourceId == SourceId(name, idx)
      && r.value.question == example.question
      && r.value.source == name
      && r.value.kind == ShortFormType
      && r.value.numToolCalls == trace.counts.value.total
      && |r.value.conversation| == 3
      && r.value.conversation[0] == Message("system", system)
      && r.value.conversation[1] == Message("user", wrap(example.question))
      && r.value.conversation[2] == Message("assistant", trace.transcript))
  {
    match trace.counts
    case None => Err(MissingCountsError)
    case Some(counts) =>
      Ok(Record(SourceId(name, idx), example.question, name, ShortFormType, counts.total,
        [Message("system", system), Message("user", wrap(example.question)), Message("assistant", trace.transcript)]))
  }

  // ---------------------------------------------------------------------------
  // The retry loop

  /** Everything the loop consults: the dataset, its name, the system prompt, the evaluation
      prompt wrapper, the configured `f1_overlap_score_threshold`, the workflow's prompt
      texts and whether it chains browsing, and for attempt `k` of example `i` the search
      agent's output, the answer agent's text and the judge's reply. */
  datatype Generator = Generator(
    dataset: seq<Example>,
    name: string,
    system: string,
    wrap: string -> string,
    configured: real,
    texts: PromptTexts,
    chained: bool,
    search: (nat, nat) -> AgentOutput,
    answer: (nat, nat) -> string,
    grade: (nat, nat) -> string)

  /** What attempt `k` on example `i` yields: `Err` when it raises, otherwise its record and
      the checker's verdict. */
  type Attempts<R> = (nat, nat) -> Result<(R, bool), string>

  predicate Accepts<R>(attempt: Attempts<R>, i: nat, k: nat) {
    attempt(i, k).Ok? && attempt(i, k).value.1
  }

  /** What the attempts on example `i` come to when none raised: `n` runs, at most the
      allowed number; all but the last were rejected; a record exactly when the last one was
      accepted, and then it is that attempt's record; without a record, every attempt ran. */
  predicate Tried<R(==)>(attempt: Attempts<R>, i: nat, maxAttempts: nat, n: nat, record: Option<R>) {
    && n <= maxAttempts
    && (forall k :: 0 <= k < n ==> attempt(i, k).Ok?)
    && (forall k :: 0 <= k && k + 1 < n ==> !Accepts(attempt, i, k))
    && (record.Some? <==> n > 0 && Accepts(attempt, i, n - 1))
    && (record.None? ==> n == maxAttempts)
    && (record.Some? ==> n > 0 && record.value == attempt(i, n - 1).value.0)
  }

  /** The attempts on example `i`: how many ran, and the record of the accepted one if any. */
  method TryExample<R(==)>(attempt: Attempts<R>, i: nat, maxAttempts: nat) returns (r: Result<(nat, Option<R>), string>)
    ensures r.Err? ==> exists k :: 0 <= k < maxAttempts && attempt(i, k).Err?
    ensures r.Ok? ==> Tried(attempt, i, maxAttempts, r.value.0, r.value.1)
  {
    var k := 0;
    while k < maxAttempts
      invariant k <= maxAttempts
      invariant forall j :: 0 <= j < k ==> attempt(i, j).Ok? && !Accepts(attempt, i, j)
    {
      var outcome := attempt(i, k);
      if outcome.Err? {
        return Err(outcome.error);
      }
      if outcome.value.1 {
        return Ok((k + 1, Some(outcome.value.0)));
      }
      k := k + 1;
    }
    return Ok((maxAttempts, None));
  }

  /** The positions of the examples that gave a record, in order. */
  function KeptIndices<R>(outcomes: seq<(nat, Option<R>)>): (ix: seq<nat>)
    ensures forall j :: 0 <= j < |ix| ==> ix[j] < |outcomes| && outcomes[ix[j]].1.Some?
    ensures forall j, l :: 0 <= j < l < |ix| ==> ix[j] < ix[l]
    ensures forall i :: 0 <= i < |outcomes| && outcomes[i].1.Some? ==> i in ix
    ensures |ix| <= |outcomes|
    decreases |outcomes|
  {
    if outcomes == [] then []
    else
      var init := outcomes[..|outcomes| - 1];
      assert forall i :: 0 <= i < |init| ==> init[i] == outcomes[i];
      KeptIndices(init) + if outcomes[|outcomes| - 1].1.Some? then [|outcomes| - 1] else []
  }

  /** The records, in example order. */
  function Kept<R(==)>(outcomes: seq<(nat, Option<R>)>): (rs: seq<R>)
    ensures |rs| == |KeptIndices(outcomes)|
    ensures forall j :: 0 <= j < |rs| ==> Some(rs[j]) == outcomes[KeptIndices(outcomes)[j]].1
  {
    var ix := KeptIndices(outcomes);
    seq(|ix|, j requires 0 <= j < |ix| => outcomes[ix[j]].1.value)
  }

  /** The loop of `generate_trace` over `count` examples in order, each tried until accepted:
      `outcomes` says how many workflow runs each example took and which record it gave; the
      result keeps the records in example order. An exception from any attempt ends the
      whole loop. */
  method RetryLoop<R(==)>(attempt: Attempts<R>, count: nat, maxAttempts: nat) returns (r: Result<seq<R>, string>, outcomes: seq<(nat, Option<R>)>)
    ensures r.Err? ==> exists i, k :: 0 <= i < count && 0 <= k < maxAttempts && attempt(i, k).Err?
    ensures r.Ok? ==> |outcomes| == count && r.value == Kept(outcomes)
    ensures r.Ok? ==> forall i :: 0 <= i < count ==> Tried(attempt, i, maxAttempts, outcomes[i].0, outcomes[i].1)
  {
    outcomes := [];
    var i := 0;
    while i < count
      invariant i <= count && |outcomes| == i
      invariant forall x :: 0 <= x < i ==> Tried(attempt, x, maxAttempts, outcomes[x].0, outcomes[x].1)
    {
      var outcome := TryExample(attempt, i, maxAttempts);
      if outcome.Err? {
        r := Err(outcome.error);
        return;
      }
      outcomes := outcomes + [outcome.value];
      i := i + 1;
    }
    r := Ok(Kept(outcomes));
  }

  /** Attempt `k` on example `i`, as written: the workflow is called with the wrapped
      question and no dataset name, the record is built from its result, and the checker,
      built without a threshold, judges the final response against the default 0.9. When
      the search output lacks `<answer>` the answer agent cannot pick its instructions
      without a dataset name and raises `ValueError`. */
  function Attempt(g: Generator, i: nat, k: nat): (r: Result<(Record, bool), string>)
    ensures r.Ok? ==> i < |g.dataset| && r.value.0.sourceId == SourceId(g.name, i)
    ensures i < |g.dataset| && SearchesDocumented(g.search(i, k).toolOutputs) ==>
      (r.Ok? <==> Contains(g.search(i, k).generatedText, AnswerOpen))
    ensures (i < |g.dataset| && SearchesDocumented(g.search(i, k).toolOutputs)
      && !Contains(g.search(i, k).generatedText, AnswerOpen)) ==> r == Err("Unknown dataset name: None")
    ensures r.Ok? ==> r.value.0.numToolCalls == |g.search(i, k).toolOutputs|
    ensures r.Ok? ==>
      r.value.1 == Check(Postprocess(g.search(i, k).generatedText), g.dataset[i].target, DefaultThreshold, g.grade(i, k))
  {
    if i >= |g.dataset| then Err("IndexError: list index out of range")
    else
      var search := g.search(i, k);
      var run := Run(g.wrap(g.dataset[i].question), None, g.texts, g.chained, search, g.answer(i, k));
      if !SearchesDocumented(search.toolOutputs) then Err(run.error)
      else if !Contains(search.generatedText, AnswerOpen) then
        UnnamedAnswerPathFails(g.wrap(g.dataset[i].question), g.texts, g.chained, search, g.answer(i, k));
        Err("Unknown dataset name: None")
      else
        assert !Contains("None", "sft-mix");
        var record := ProcessExample(i, g.dataset[i], g.name, g.system, g.wrap, run.value).value;
        Ok((record, Check(run.value.finalResponse, g.dataset[i].target, DefaultThreshold, g.grade(i, k))))
  }

  /** Attempt `k` on example `i` as evidently intended: the dataset name is passed to the
      workflow, the counts are reported on both paths, and the checker uses the configured
      threshold. With a dataset name both agents know, every attempt whose searches are
      documented yields a record. */
  function AttemptFixed(g: Generator, i: nat, k: nat): (r: Result<(Record, bool), string>)
    ensures r.Ok? ==> i < |g.dataset| && r.value.0.sourceId == SourceId(g.name, i)
    ensures (i < |g.dataset| && SearchField(Some(g.name)).Ok? && AnswerField(g.name).Ok?
      && SearchesDocumented(g.search(i, k).toolOutputs)) ==> r.Ok?
    ensures r.Ok? ==> FixedRun(g, i, k).Ok?
    ensures r.Ok? ==> r.value.0.numToolCalls == |g.search(i, k).toolOutputs|
    ensures r.Ok? ==>
      r.value.1 == Check(FixedRun(g, i, k).value.finalResponse, g.dataset[i].target, g.configured, g.grade(i, k))
  {
    if i >= |g.dataset| then Err("IndexError: list index out of range")
    else
      var run := FixedRun(g, i, k);
      if run.Err? then Err(run.error)
      else
        var record := ProcessExample(i, g.dataset[i], g.name, g.system, g.wrap, run.value).value;
        Ok((record, Check(run.value.finalResponse, g.dataset[i].target, g.configured, g.grade(i, k))))
  }

  /** The workflow run of the corrected attempt: with the dataset name, counts on both paths. */
  function FixedRun(g: Generator, i: nat, k: nat): Result<TraceResult, string>
    requires i < |g.dataset|
  {
    RunFixed(g.wrap(g.dataset[i].question), Some(g.name), g.texts, g.chained, g.search(i, k), g.answer(i, k))
  }

  /** The first attempt on example `i` reaches the answer agent, which raises. */
  predicate AbortsFirst(g: Generator, i: nat) {
    SearchesDocumented(g.search(i, 0).toolOutputs) && !Contains(g.search(i, 0).generatedText, AnswerOpen)
  }

  /** Attempt `k` of example `i` as `generate_trace` makes it. */
  function AsWrittenAttempts(g: Generator): Attempts<Record> {
    (i: nat, k: nat) => Attempt(g, i, k)
  }

  /** Attempt `k` of example `i` with the dataset name and the threshold passed on. */
  function FixedAttempts(g: Generator): Attempts<Record> {
    (i: nat, k: nat) => AttemptFixed(g, i, k)
  }

  /** `generate_trace` as written: one example whose first search output is documented but
      lacks `<answer>` ends the whole run with `ValueError`, whatever came before it. */
  method GenerateTraces(g: Generator, maxAttempts: nat) returns (r: Result<seq<Record>, string>, outcomes: seq<(nat, Option<Record>)>)
    ensures r.Ok? ==> |outcomes| == |g.dataset| && r.value == Kept(outcomes)
    ensures r.Err? ==> exists i, k :: 0 <= i < |g.dataset| && 0 <= k < maxAttempts && Attempt(g, i, k).Err?
    ensures maxAttempts > 0 && (exists i :: 0 <= i < |g.dataset| && AbortsFirst(g, i)) ==> r.Err?
    ensures r.Ok? ==> forall i :: 0 <= i < |g.dataset| ==>
      Tried(AsWrittenAttempts(g), i, maxAttempts, outcomes[i].0, outcomes[i].1)
  {
    var attempt := AsWrittenAttempts(g);
    r, outcomes := RetryLoop(attempt, |g.dataset|, maxAttempts);
    if r.Ok? && maxAttempts > 0 {
      forall i | 0 <= i < |g.dataset| ensures !AbortsFirst(g, i) {
        assert Tried(attempt, i, maxAttempts, outcomes[i].0, outcomes[i].1);
        assert attempt(i, 0).Ok?;
      }
    }
  }

  /** `generate_trace` with the corrected attempt: the records carry the source ids of the
      examples that gave them, in dataset order, each after at most `maxAttempts` runs. */
  method GenerateTracesFixed(g: Generator, maxAttempts: nat) returns (r: Result<seq<Record>, string>, outcomes: seq<(nat, Option<Record>)>)
    ensures r.Ok? ==> |outcomes| == |g.dataset| && r.value == Kept(outcomes) && |r.value| <= |g.dataset|
    ensures r.Ok? ==> forall j :: 0 <= j < |r.value| ==> r.value[j].sourceId == SourceId(g.name, KeptIndices(outcomes)[j])
    ensures r.Ok? ==> forall i :: 0 <= i < |outcomes| ==> outcomes[i].0 <= maxAttempts
    ensures r.Err? ==> exists i, k :: 0 <= i < |g.dataset| && 0 <= k < maxAttempts && AttemptFixed(g, i, k).Err?
    ensures r.Ok? ==> forall i :: 0 <= i < |g.dataset| ==>
      Tried(FixedAttempts(g), i, maxAttempts, outcomes[i].0, outcomes[i].1)
  {
    var attempt := FixedAttempts(g);
    r, outcomes := RetryLoop(attempt, |g.dataset|, maxAttempts);
    if r.Ok? {
      forall j | 0 <= j < |r.value|
        ensures r.value[j].sourceId == SourceId(g.name, KeptIndices(outcomes)[j])
      {
        var i := KeptIndices(outcomes)[j];
        assert Tried(attempt, i, maxAttempts, outcomes[i].0, outcomes[i].1);
        assert attempt(i, outcomes[i].0 - 1).Ok?;
      }
    }
  }

  // ---------------------------------------------------------------------------
  // Interactions with the workflow

  /** Had a dataset name been passed, a workflow result from the answer-agent path would
      still carry no counts, so turning it into a record raises `KeyError`. */
  lemma AnswerPathRecordFails(problem: string, name: Option<string>, texts: PromptTexts, chained: bool,
                              search: AgentOutput, answerText: string, idx: nat, example: Example,
                              dataset: string, system: string, wrap: string -> string)
    requires !Contains(search.generatedText, AnswerOpen)
    requires Run(problem, name, texts, chained, search, answerText).Ok?
    ensures ProcessExample(idx, example, dataset, system, wrap, Run(problem, name, texts, chained, search, answerText).value)
      == Err(MissingCountsError)
  {
  }

  /** With the counts reported on both paths every workflow result makes a record, and it
      records the number of tool outputs. */
  lemma FixedRunMakesRecord(problem: string, name: Option<string>, texts: PromptTexts, chained: bool,
                            search: AgentOutput, answerText: string, idx: nat, example: Example,
                            dataset: string, system: string, wrap: string -> string)
    requires RunFixed(problem, name, texts, chained, search, answerText).Ok?
    ensures var rec := ProcessExample(idx, example, dataset, system, wrap, RunFixed(problem, name, texts, chained, search, answerText).value);
      rec.Ok? && rec.value.numToolCalls == |search.toolOutputs|
  {
  }

  /** The generator stores `f1_overlap_score_threshold` but builds its checker without it: a
      generator configured with 0.5 still rejects a final response scoring 0.8 when the judge
      answers `B`. A score of 0.8 is reached by the prediction `x y z` against `x y`. */
  lemma ConfiguredThresholdIgnored(g: Generator, i: nat, k: nat)
    requires g.configured == 0.5 && g.grade(i, k) == "B"
    requires Attempt(g, i, k).Ok?
    requires Score(Postprocess(g.search(i, k).generatedText), g.dataset[i].target) == 0.8
    ensures !Attempt(g, i, k).value.1
  {
    assert !CheckAnswer(0.8, DefaultThreshold, "B");
  }

  /** The prediction `x y z` against the target `x y` scores 0.8 once tokenised. */
  lemma EightTenths()
    ensures F1(["x", "y", "z"], ["x", "y"]) == 0.8
  {
    var p, q := ["x", "y", "z"], ["x", "y"];
    assert multiset(p) * multiset(q) == multiset(q);
    assert |multiset(q)| == 2;
  }

  /** With the threshold passed on, a final response that reaches the configured threshold
      is accepted whatever the judge says; a 0.8 then passes a threshold of 0.5. */
  lemma FixedThresholdHonoured(g: Generator, i: nat, k: nat)
    requires AttemptFixed(g, i, k).Ok?
    requires Score(FixedRun(g, i, k).value.finalResponse, g.dataset[i].target) >= g.configured
    ensures AttemptFixed(g, i, k).value.1
  {
  }
}

=== FILE: http.dfy ===
/** What the tools receive from `requests`: an exception, or a reply with its status, its
    body text and the body decoded as JSON. Nothing is sent or received in the model; the
    reply is an input. */
module Http {
  import opened Wrappers
  import opened Text
  import opened JsonValues

  /** `Err` in `body` carries the text of the decoding exception. */
  datatype Reply = Raised(message: string) | Reply(status: int, text: string, body: Result<Json, string>)

  /** The statuses `raise_for_status` raises on: client and server errors. */
  predicate ErrorStatus(status: int) {
    400 <= status < 600
  }

  /** `res.raise_for_status(); res.json()`. */
  function Checked(reply: Reply): (r: Result<Json, string>)
    ensures reply.Raised? ==> r == Err(reply.message)
    ensures reply.Reply? && ErrorStatus(reply.status) ==> r.Err?
    ensures reply.Reply? && !ErrorStatus(reply.status) ==> r == reply.body
  {
    match reply
    case Raised(m) => Err(m)
    case Reply(status, _, body) =>
      if ErrorStatus(status) then Err("HTTPError: " + IntToString(status)) else body
  }
}

=== FILE: invoke_grammar.dfy ===
/** The `<invoke>...</invoke>` grammar (`_parse_invoke_tool_calls`): the first tag inside the
    block names the tool, and the tags inside that one are its arguments. */
module InvokeGrammar {
  import opened Wrappers
  import opened Text
  import opened JsonValues
  import opened Patterns
  import opened ToolCalls

  /** A stored argument value: a non-negative integer, or a non-empty text that is not all
      digits. */
  predicate InvokeValue(v: Json) {
    (v.JInt? && v.i >= 0) || (v.JStr? && v.s != "" && !IsDigits(v.s))
  }

  /** What one `<name>value</name>` match assigns: the stripped value under the name, an
      all-digit value as an integer; an empty value assigns nothing. */
  function InvokeAssignment(m: Match): (a: Assignment)
    ensures a.Some? ==> InvokeValue(a.value.1)
  {
    var value := Strip(Group(m, 1));
    if value == "" then None else Some((Group(m, 0), Coerce(value)))
  }

  /** The arguments of `<name>value</name>` pairs: values are stripped, empty ones skipped,
      all-digit ones turned into integers; a repeated name keeps its last value. */
  function InvokeArgs(ms: seq<Match>, acc: Fields): (r: Fields)
    requires DistinctKeys(acc)
    requires forall k :: HasKey(acc, k) ==> InvokeValue(Get(acc, k).value)
    ensures DistinctKeys(r)
    ensures forall k :: HasKey(r, k) ==> InvokeValue(Get(r, k).value)
    ensures forall k :: HasKey(r, k) <==>
      HasKey(acc, k) || exists m :: m in ms && Group(m, 0) == k && Strip(Group(m, 1)) != ""
    ensures forall k :: Get(r, k) == FinalValue(ms, InvokeAssignment, acc, k)
  {
    AssignDistinct(ms, InvokeAssignment, acc);
    AssignKeys(ms, InvokeAssignment, acc);
    AssignGet(ms, InvokeAssignment, acc);
    AssignKeepsValues(ms, InvokeAssignment, acc, InvokeValue);
    Assign(ms, InvokeAssignment, acc)
  }

  /** One `<invoke>` block: its stripped body, with every two-character `\n` escape turned
      into a line break, must start with a complete `<tool>...</tool>` element. */
  function InvokeCall(body: string, idx: nat): (r: Option<ToolCall>)
    ensures var content := Replace(Strip(body), "\\n", "\n");
      r.Some? <==> MatchAt(IdentTag, content, 0).Some?
    ensures r.Some? ==> var content := Replace(Strip(body), "\\n", "\n");
      && r.value.id == idx
      && r.value.name.JStr?
      && StartsWith(content, "<" + r.value.name.s + ">")
      && r.value.arguments.JObj?
    ensures r.Some? ==> var content := Replace(Strip(body), "\\n", "\n");
      var m := MatchAt(IdentTag, content, 0).value;
      && r.value.name == JStr(Group(m, 0))
      && r.value.arguments == JObj(InvokeArgs(FindAll(IdentTag, Group(m, 1), 0), []))
  {
    var content := Replace(Strip(body), "\\n", "\n");
    match MatchAt(IdentTag, content, 0)
    case None => None
    case Some(m) =>
      var name := Group(m, 0);
      IdentTagOpens(content, 0);
      var inner := Group(m, 1);
      Some(ToolCall(idx, JStr(name), JObj(InvokeArgs(FindAll(IdentTag, inner, 0), []))))
  }

  function InvokeBlockParser(): (f: BlockParser)
    ensures KeepsIndex(f)
  {
    (m: Match, idx: nat) => InvokeCall(Group(m, 0), idx)
  }

  /** `_parse_invoke_tool_calls`. */
  function ParseInvoke(s: string): (r: Outcome)
    ensures !Contains(s, "<invoke>") ==> r == Outcome(s, None)
    ensures r.calls.None? ==> r.text == s
    ensures r.calls.Some? ==> |r.calls.value| > 0 && r.text == Strip(Sub(InvokeBlock, s))
    ensures r.calls.Some? ==> |r.calls.value| <= |FindAll(InvokeBlock, s, 0)|
  {
    if s == "" || !Contains(s, "<invoke>") then Outcome(s, None)
    else
      var ms := FindAll(InvokeBlock, s, 0);
      Finish(s, InvokeBlock, Collect(InvokeBlockParser(), ms, 0))
  }

  /** Once the marker is present, the calls are those the blocks yield. */
  lemma ParseInvokeCalls(s: string)
    requires Contains(s, "<invoke>")
    ensures CallsOf(ParseInvoke(s)) == Collect(InvokeBlockParser(), FindAll(InvokeBlock, s, 0), 0)
  {
    assert OccursAt(s, "<invoke>", Find(s, "<invoke>", 0).value);
  }
}

=== FILE: jina.dfy ===
/** `JinaFetchTool`: the Jina Reader fetch with its failure branches, and the text the tool
    returns under the citation id `jina_<first 8 hex digits of the URL's MD5>`. The HTTP reply
    and the MD5 digest are inputs. */
module Jina {
  import opened Wrappers
  import opened Text
  import opened JsonValues
  import opened Citations
  import opened Http

  const MissingKeyError: string := "JINA_API_KEY environment variable is not set or api_key parameter not provided"
  const Untitled: string := "Untitled"
  const NoContent: string := "No content extracted."

  /** `JinaWebpageResponse`; its metadata is checked by `Fetch` but not kept, since the tool
      never shows it. */
  datatype Page = Page(url: string, title: string, content: string, description: string,
                       publishedTime: string, success: bool, error: Option<string>)

  function Failure(url: string, error: string): (p: Page)
    ensures !p.success && p.error == Some(error) && p.url == url
  {
    Page(url, "", "", "", "", false, Some(error))
  }

  /** A string field of the reply's `data`: the default when absent; a value of another type
      fails the model's validation. */
  function StringField(data: Fields, key: string, default: string): (r: Result<string, string>)
    ensures Get(data, key).None? ==> r == Ok(default)
    ensures r.Ok? && Get(data, key).Some? ==> Get(data, key) == Some(JStr(r.value))
  {
    match Get(data, key)
    case None => Ok(default)
    case Some(JStr(s)) => Ok(s)
    case Some(_) => Err("ValidationError: " + key + " must be a string")
  }

  function PageOf(url: string, data: Fields): Result<Page, string> {
    var u :- StringField(data, "url", url);
    var t :- StringField(data, "title", "");
    var c :- StringField(data, "content", "");
    var d :- StringField(data, "description", "");
    var p :- StringField(data, "publishedTime", "");
    Ok(Page(u, t, c, d, p, true, None))
  }

  /** A `JinaMetadata` field: absent, null or a string. */
  predicate OptionalString(v: Option<Json>) {
    v.None? || v == Some(JNull) || v.value.JStr?
  }

  /** `data.get("metadata", {})` can be read into `JinaMetadata`: it is absent or an object
      (anything else has no `.get`), and its `lang` and `viewport` are absent, null or
      strings. */
  predicate MetadataOk(data: Fields) {
    var m := Get(data, "metadata");
    m.None? || (m.value.JObj? && OptionalString(Get(m.value.fields, "lang"))
      && OptionalString(Get(m.value.fields, "viewport")))
  }

  /** The exception reading the metadata raises, if any. */
  function MetadataError(data: Fields): (r: Option<string>)
    ensures r.None? <==> MetadataOk(data)
  {
    match Get(data, "metadata").GetOr(JObj([]))
    case JObj(m) =>
      if !OptionalString(Get(m, "lang")) then Some("ValidationError: lang must be a string")
      else if !OptionalString(Get(m, "viewport")) then Some("ValidationError: viewport must be a string")
      else None
    case _ => Some("AttributeError: 'metadata' has no attribute 'get'")
  }

  /** The reply's `data` object, when the status is 200, the body decodes to an object and
      its `data` (by default `{}`) is one. */
  function DataOf(reply: Reply): Option<Fields> {
    if reply.Reply? && reply.status == 200 && reply.body.Ok? && reply.body.value.JObj? then
      var data := Get(reply.body.value.fields, "data").GetOr(JObj([]));
      if data.JObj? then Some(data.fields) else None
    else None
  }

  /** `_fetch_webpage_content_jina` with no key argument, as the tool calls it: `envKey` is
      the `JINA_API_KEY` variable. Without a key the reply is never looked at. Every exception
      inside the `try` (a body that is not JSON, a `data` or `metadata` without `.get`, a
      field of the wrong type) becomes a failure. */
  function Fetch(url: string, envKey: Option<string>, reply: Reply): (p: Page)
    ensures envKey.None? || envKey == Some("") ==> p == Failure(url, MissingKeyError)
    ensures reply.Reply? && reply.status != 200 && envKey.Some? && envKey.value != "" ==>
      p == Failure(url, "API request failed with status " + IntToString(reply.status) + ": " + reply.text)
    ensures reply.Raised? && envKey.Some? && envKey.value != "" ==> p == Failure(url, reply.message)
    ensures p.success <==>
      && envKey.Some? && envKey.value != ""
      && DataOf(reply).Some?
      && MetadataOk(DataOf(reply).value)
      && PageOf(url, DataOf(reply).value).Ok?
    ensures p.success ==> p == PageOf(url, DataOf(reply).value).value && p.error.None?
    ensures envKey.Some? && envKey.value != "" && DataOf(reply).Some? && !MetadataOk(DataOf(reply).value) ==>
      p == Failure(url, MetadataError(DataOf(reply).value).value)
    ensures !p.success ==> p.url == url && p.error.Some?
  {
    if envKey.None? || envKey.value == "" then Failure(url, MissingKeyError)
    else
      match reply
      case Raised(m) => Failure(url, m)
      case Reply(status, text, body) =>
        if status != 200 then Failure(url, "API request failed with status " + IntToString(status) + ": " + text)
        else
          match body
          case Err(e) => Failure(url, e)
          case Ok(top) =>
            if !top.JObj? then Failure(url, "AttributeError: reply has no attribute 'get'")
            else
              var data := Get(top.fields, "data").GetOr(JObj([]));
              if !data.JObj? then Failure(url, "AttributeError: 'data' has no attribute 'get'")
              else if MetadataError(data.fields).Some? then Failure(url, MetadataError(data.fields).value)
              else
                match PageOf(url, data.fields)
                case Ok(page) => page
                case Err(e) => Failure(url, e)
  }

  /** A reply whose metadata is not an object fails, whatever else it holds. */
  lemma BadMetadataFails(url: string, key: string, data: Fields, bad: Json)
    requires key != "" && !bad.JObj?
    ensures !Fetch(url, Some(key), Reply(200, "", Ok(JObj([("data", JObj(Put(data, "metadata", bad)))])))).success
  {
    var d := Put(data, "metadata", bad);
    assert Get([("data", JObj(d))], "data") == Some(JObj(d));
    assert Get(d, "metadata") == Some(bad);
  }

  /** With no key, no reply can change the outcome: the request is never made. */
  lemma NoKeyNoRequest(url: string, envKey: Option<string>, a: Reply, b: Reply)
    requires envKey.None? || envKey == Some("")
    ensures Fetch(url, envKey, a) == Fetch(url, envKey, b) && !Fetch(url, envKey, a).success
  {
  }

  /** The failure text names the status: different statuses give different errors. */
  lemma StatusNamed(url: string, key: string, s1: int, s2: int, text: string)
    requires key != "" && s1 != 200 && s2 != 200
    requires Fetch(url, Some(key), Reply(s1, text, Err(""))) == Fetch(url, Some(key), Reply(s2, text, Err("")))
    ensures s1 == s2
  {
    var head := "API request failed with status ";
    var x, y := IntToString(s1), IntToString(s2);
    assert head + x + ": " + text == head + y + ": " + text;
    assert head + x + ": " + text == head + x + (": " + text);
    assert head + y + ": " + text == head + y + (": " + text);
    forall k | 0 <= k < |x| ensures x[k] != ':' { IntToStringChars(s1, k); }
    forall k | 0 <= k < |y| ensures y[k] != ':' { IntToStringChars(s2, k); }
    SameBetween(head, x, y, ": " + text);
    IntToStringInjective(s1, s2);
  }

  // ---------------------------------------------------------------------------
  // Output

  /** `hexdigest()[:8]`. */
  function SnippetId(hexDigest: string): (id: string)
    ensures StartsWith(id, "jina_")
    ensures |hexDigest| >= 8 ==> |id| == 13 && id[5..] == hexDigest[..8]
  {
    "jina_" + (if |hexDigest| >= 8 then hexDigest[..8] else hexDigest)
  }

  /** The lines of a successful fetch's output. */
  function SuccessLines(id: string, p: Page): (lines: seq<string>)
    ensures 4 <= |lines| <= 6
    ensures lines[0] == Tag(id) + (" " + (if p.title != "" then p.title else Untitled))
    ensures lines[1] == "URL: " + p.url
    ensures lines[|lines| - 2] == ""
    ensures lines[|lines| - 1] == (if p.content != "" then p.content else NoContent)
    ensures |lines| == 4 + (if p.description != "" then 1 else 0) + (if p.publishedTime != "" then 1 else 0)
    ensures p.description != "" ==> lines[2] == "Description: " + p.description
    ensures p.publishedTime != "" ==> lines[|lines| - 3] == "Published: " + p.publishedTime
  {
    [Tag(id) + (" " + (if p.title != "" then p.title else Untitled)), "URL: " + p.url]
      + (if p.description != "" then ["Description: " + p.description] else [])
      + (if p.publishedTime != "" then ["Published: " + p.publishedTime] else [])
      + ["", if p.content != "" then p.content else NoContent]
  }

  /** `JinaFetchTool.forward` given the fetched page and the URL's hex digest. */
  function Format(url: string, hexDigest: string, p: Page): (r: string)
    ensures StartsWith(r, Tag(SnippetId(hexDigest)))
    ensures !p.success ==> r == Tag(SnippetId(hexDigest)) + (" Error fetching URL: " + url + "\nError: " + (if p.error.Some? then p.error.value else "None"))
    ensures p.success ==> r == Join(SuccessLines(SnippetId(hexDigest), p), "\n")
  {
    var id := SnippetId(hexDigest);
    if !p.success then
      var body := " Error fetching URL: " + url + "\nError: " + (if p.error.Some? then p.error.value else "None");
      TaggedEntry(Tag(id), body);
      Tag(id) + body
    else
      var lines := SuccessLines(id, p);
      JoinStartsWithHead(lines, "\n");
      TaggedEntry(Tag(id), " " + (if p.title != "" then p.title else Untitled));
      var j := Join(lines, "\n");
      assert j[..|lines[0]|] == lines[0];
      j
  }

  /** The output of a successful fetch ends with the page's content, or the placeholder when
      it is empty. */
  lemma SuccessEndsWithContent(url: string, hexDigest: string, p: Page)
    requires p.success
    ensures EndsWith(Format(url, hexDigest, p), if p.content != "" then p.content else NoContent)
  {
    var lines := SuccessLines(SnippetId(hexDigest), p);
    JoinEndsWithLast(lines, "\n");
  }

  lemma {:induction false} JoinEndsWithLast(parts: seq<string>, sep: string)
    requires |parts| > 0
    ensures EndsWith(Join(parts, sep), parts[|parts| - 1])
  {
    if |parts| > 1 {
      JoinEndsWithLast(parts[1..], sep);
      var j := Join(parts[1..], sep);
      var l := parts[|parts| - 1];
      assert parts[1..][|parts[1..]| - 1] == l;
      assert (parts[0] + sep + j)[|parts[0] + sep + j| - |l|..] == j[|j| - |l|..];
    }
  }
}

=== FILE: json.dfy ===
/** JSON values as `json.loads` returns them, with Python `dict` operations on objects.
    Objects are association lists in insertion order; `Put` and `Pop` keep their keys
    distinct, as a `dict` does. */
module JsonValues {
  import opened Wrappers
  import opened Text

  datatype Json =
    | JNull
    | JBool(b: bool)
    | JInt(i: int)
    | JFloat(r: real)
    | JStr(s: string)
    | JArr(items: seq<Json>)
    | JObj(fields: seq<(string, Json)>)

  type Fields = seq<(string, Json)>

  /** A parser for JSON text, such as `json.loads`: `None` stands for `JSONDecodeError`. */
  type JsonParser = string -> Option<Json>

  /** Python truthiness of a decoded value (`if value:`). */
  predicate Truthy(j: Json) {
    match j
    case JNull => false
    case JBool(b) => b
    case JInt(i) => i != 0
    case JFloat(r) => r != 0.0
    case JStr(s) => s != ""
    case JArr(items) => |items| > 0
    case JObj(fields) => |fields| > 0
  }

  function Keys(fields: Fields): set<string> {
    if |fields| == 0 then {} else {fields[0].0} + Keys(fields[1..])
  }

  predicate HasKey(fields: Fields, key: string) {
    key in Keys(fields)
  }

  /** No key occurs twice, as in every Python `dict`. */
  predicate DistinctKeys(fields: Fields) {
    |fields| == 0 || (fields[0].0 !in Keys(fields[1..]) && DistinctKeys(fields[1..]))
  }

  /** `d.get(key)`: the value stored under `key`, if any. */
  function Get(fields: Fields, key: string): (r: Option<Json>)
    ensures r.Some? <==> HasKey(fields, key)
    ensures r.Some? ==> (key, r.value) in fields
  {
    if |fields| == 0 then None
    else if fields[0].0 == key then Some(fields[0].1)
    else Get(fields[1..], key)
  }

  /** `d[key] = value`: an existing key keeps its position and gets the new value; a new key
      goes at the end. */
  function Put(fields: Fields, key: string, value: Json): (r: Fields)
    ensures Get(r, key) == Some(value)
    ensures forall k :: k != key ==> Get(r, k) == Get(fields, k)
    ensures Keys(r) == Keys(fields) + {key}
    ensures DistinctKeys(fields) ==> DistinctKeys(r)
  {
    if |fields| == 0 then [(key, value)]
    else if fields[0].0 == key then
      assert ([(key, value)] + fields[1..])[1..] == fields[1..];
      [(key, value)] + fields[1..]
    else
      var rest := Put(fields[1..], key, value);
      assert ([fields[0]] + rest)[1..] == rest;
      [fields[0]] + rest
  }

  /** `d.pop(key, None)`: the value removed and the dictionary without `key`. */
  function Pop(fields: Fields, key: string): (r: (Option<Json>, Fields))
    ensures r.0 == Get(fields, key)
    ensures !HasKey(r.1, key)
    ensures forall k :: k != key ==> Get(r.1, k) == Get(fields, k)
  {
    (Get(fields, key), Without(fields, key))
  }

  function Without(fields: Fields, key: string): (r: Fields)
    ensures !HasKey(r, key)
    ensures Keys(r) == Keys(fields) - {key}
    ensures forall k :: k != key ==> Get(r, k) == Get(fields, k)
  {
    if |fields| == 0 then []
    else if fields[0].0 == key then Without(fields[1..], key)
    else
      var rest := Without(fields[1..], key);
      assert ([fields[0]] + rest)[1..] == rest;
      [fields[0]] + rest
  }

  /** Builds a dictionary from key/value pairs in order, later keys overwriting earlier ones,
      as repeated `d[key] = value` assignments do. */
  function FromPairs(pairs: Fields): (r: Fields)
    ensures DistinctKeys(r)
    ensures Keys(r) == Keys(pairs)
  {
    FromPairsInto([], pairs)
  }

  function FromPairsInto(acc: Fields, pairs: Fields): (r: Fields)
    requires DistinctKeys(acc)
    ensures DistinctKeys(r)
    ensures Keys(r) == Keys(acc) + Keys(pairs)
    decreases |pairs|
  {
    if |pairs| == 0 then acc
    else FromPairsInto(Put(acc, pairs[0].0, pairs[0].1), pairs[1..])
  }

  // ---------------------------------------------------------------------------
  // Loops of `d[key] = value` assignments

  /** What one item of a loop assigns: `Some((key, value))` for `d[key] = value`, `None` when
      the item is skipped. */
  type Assignment = Option<(string, Json)>

  predicate Assigns(a: Assignment, key: string) {
    a.Some? && a.value.0 == key
  }

  /** One assignment carried out. */
  function Apply(d: Fields, a: Assignment): Fields {
    match a
    case None => d
    case Some(p) => Put(d, p.0, p.1)
  }

  /** `for x in xs: d[key] = value`, starting from `acc`, where `step(x)` is what item `x`
      assigns. */
  function Assign<T>(xs: seq<T>, step: T -> Assignment, acc: Fields): Fields
    decreases |xs|
  {
    if |xs| == 0 then acc else Assign(xs[1..], step, Apply(acc, step(xs[0])))
  }

  /** The value the last item assigning `key` gives it, read from the end of the loop; `None`
      when no item assigns `key`. */
  function LastValue<T>(xs: seq<T>, step: T -> Assignment, key: string): Option<Json>
    decreases |xs|
  {
    if |xs| == 0 then None
    else if Assigns(step(xs[|xs| - 1]), key) then Some(step(xs[|xs| - 1]).value.1)
    else LastValue(xs[..|xs| - 1], step, key)
  }

  /** The value a key holds once the loop is over: the last value assigned to it, or the one
      it had before the loop when no item assigns it. */
  function FinalValue<T>(xs: seq<T>, step: T -> Assignment, acc: Fields, key: string): Option<Json> {
    if LastValue(xs, step, key).Some? then LastValue(xs, step, key) else Get(acc, key)
  }

  /** One more item at the end of the loop is one more assignment. */
  lemma {:induction false} AssignSnoc<T>(xs: seq<T>, x: T, step: T -> Assignment, acc: Fields)
    ensures Assign(xs + [x], step, acc) == Apply(Assign(xs, step, acc), step(x))
    decreases |xs|
  {
    if |xs| == 0 {
      assert (xs + [x])[1..] == [];
    } else {
      assert (xs + [x])[1..] == xs[1..] + [x];
      AssignSnoc(xs[1..], x, step, Apply(acc, step(xs[0])));
    }
  }

  /** Every key ends up with the last value assigned to it, or keeps its value from before
      the loop. */
  lemma {:induction false} AssignGet<T>(xs: seq<T>, step: T -> Assignment, acc: Fields)
    ensures forall k :: Get(Assign(xs, step, acc), k) == FinalValue(xs, step, acc, k)
    decreases |xs|
  {
    if |xs| > 0 {
      var init := xs[..|xs| - 1];
      var x := xs[|xs| - 1];
      assert xs == init + [x];
      AssignSnoc(init, x, step, acc);
      AssignGet(init, step, acc);
    }
  }

  /** `LastValue` is what its name says: the value of an item assigning `key` after which no
      item assigns `key`, and there is one exactly when some item assigns `key`. */
  lemma {:induction false} LastValueSpec<T>(xs: seq<T>, step: T -> Assignment, key: string)
    ensures LastValue(xs, step, key).Some? <==> exists i :: 0 <= i < |xs| && Assigns(step(xs[i]), key)
    ensures LastValue(xs, step, key).Some? ==>
      exists i :: 0 <= i < |xs| && step(xs[i]) == Some((key, LastValue(xs, step, key).value)) &&
        forall j :: i < j < |xs| ==> !Assigns(step(xs[j]), key)
    decreases |xs|
  {
    if |xs| > 0 {
      var n := |xs| - 1;
      var init := xs[..n];
      LastValueSpec(init, step, key);
      assert forall i :: 0 <= i < n ==> init[i] == xs[i];
      if !Assigns(step(xs[n]), key) && LastValue(init, step, key).Some? {
        var i :| 0 <= i < n && step(init[i]) == Some((key, LastValue(init, step, key).value)) &&
          forall j :: i < j < n ==> !Assigns(step(init[j]), key);
        assert step(xs[i]) == Some((key, LastValue(xs, step, key).value));
      }
    }
  }

  /** A key has a value after the loop exactly when it had one before or some item assigns
      it. */
  lemma AssignKeys<T>(xs: seq<T>, step: T -> Assignment, acc: Fields)
    ensures forall k :: HasKey(Assign(xs, step, acc), k) <==>
      HasKey(acc, k) || exists i :: 0 <= i < |xs| && Assigns(step(xs[i]), k)
  {
    AssignGet(xs, step, acc);
    forall k {
      LastValueSpec(xs, step, k);
    }
  }

  /** Assignments keep the keys of a dictionary distinct. */
  lemma {:induction false} AssignDistinct<T>(xs: seq<T>, step: T -> Assignment, acc: Fields)
    requires DistinctKeys(acc)
    ensures DistinctKeys(Assign(xs, step, acc))
    decreases |xs|
  {
    if |xs| > 0 {
      AssignDistinct(xs[1..], step, Apply(acc, step(xs[0])));
    }
  }

  /** A property of values that every assignment's value and every earlier value has holds of
      every value after the loop. */
  lemma AssignKeepsValues<T>(xs: seq<T>, step: T -> Assignment, acc: Fields, ok: Json -> bool)
    requires forall k :: HasKey(acc, k) ==> ok(Get(acc, k).value)
    requires forall i :: 0 <= i < |xs| && step(xs[i]).Some? ==> ok(step(xs[i]).value.1)
    ensures forall k :: HasKey(Assign(xs, step, acc), k) ==> ok(Get(Assign(xs, step, acc), k).value)
  {
    AssignGet(xs, step, acc);
    forall k | HasKey(Assign(xs, step, acc), k)
      ensures ok(Get(Assign(xs, step, acc), k).value)
    {
      LastValueSpec(xs, step, k);
    }
  }

  /** True when the value holds a JSON array anywhere inside it. */
  predicate HasArray(j: Json) {
    match j
    case JArr(_) => true
    case JObj(fields) => exists i :: 0 <= i < |fields| && HasArray(fields[i].1)
    case _ => false
  }

  /** A sound parser produces an array only from text containing `]`, the character that
      closes every JSON array. */
  ghost predicate ArraysNeedBracket(parse: JsonParser) {
    forall text :: parse(text).Some? && HasArray(parse(text).value) ==> ']' in text
  }

  /** Python's `str()` of a decoded value, for the scalars the formatters print:
      `None`, `True`/`False`, integers and strings. Floats, lists and objects are printed by a
      placeholder. */
  function Show(j: Json): string {
    match j
    case JNull => "None"
    case JBool(b) => if b then "True" else "False"
    case JInt(i) => IntToString(i)
    case JStr(s) => s
    case JFloat(_) => "<float>"
    case JArr(_) => "<list>"
    case JObj(_) => "<dict>"
  }
}

=== FILE: patterns.dfy ===
/** The regular expressions of the tool-call grammars, each written out as the deterministic
    scanner its backtracking search amounts to, together with `re.search`, `re.finditer` and
    `re.sub(pattern, "", text)` over them.

    Every pattern below needs at least one character to match, so `finditer` simply resumes
    at the end of the previous match. `\s` is Python's whitespace (`Text.IsSpace`); `\w` and
    `\d` are restricted to ASCII. */
module Patterns {
  import opened Wrappers
  import opened Text

  /** A match of a pattern: the span `[start, end)` and its capture groups in order
      (`None` for a group that did not participate). */
  datatype Match = Match(start: nat, end: nat, groups: seq<Option<string>>)

  /** The patterns the grammars use, named after what they recognise. */
  datatype Pattern =
    | ToolCallBlock   // <tool_call>(.*?)</tool_call>              DOTALL
    | ToolNameTag     // <tool_name>(.*?)</tool_name>
    | MarkupTag       // <([^/>]+)>(.*?)</\1>
    | InvokeBlock     // <invoke>(.*?)</invoke>                     DOTALL
    | IdentTag        // <([a-zA-Z_][a-zA-Z0-9_]*)>(.*?)</\1>       DOTALL
    | BracketBlock    // \[TOOL_CALL\](.*?)\[/TOOL_CALL\]           DOTALL
    | ArrowToolName   // \{\s*tool\s*=>\s*"([^"]+)"
    | ArrowArgs       // args\s*=>\s*\{([^}]*(?:\{[^}]*\}[^}]*)*)\}  DOTALL
    | CliArg          // --(\w+)\s+(?:"([^"]*)"|([\S]+))
    | LooseName       // ['"]name['"]\s*:\s*['"]([^'"]+)['"]
    | LooseArgs       // ['"]args['"]\s*:\s*\{([^}]*)\}             DOTALL
    | LooseKeyValue   // ['"](\w+)['"]\s*:\s*(?:['"]([^'"]*)['"]|(\d+))
    | ActionBlock     // Action:\s*\{([^}]*(?:\{[^}]*\}[^}]*)*)\}  DOTALL
    | JsonName        // "name"\s*:\s*"([^"]+)"
    | JsonArguments   // "arguments"\s*:\s*\{([^}]*)\}              DOTALL
    | JsonKeyValue    // "(\w+)"\s*:\s*(?:"([^"]*)"|([\d.]+)|(\w+))
    | EmptyCite       // <cite\s+id=['"][^'"]*['"]\s*>\s*</cite>\s*---?
    | EventBlock      // \[Event:\s*(\{[^]]*\})\s*\]                DOTALL

  function GroupCount(pat: Pattern): nat {
    match pat
    case MarkupTag => 2
    case IdentTag => 2
    case CliArg => 3
    case LooseKeyValue => 3
    case JsonKeyValue => 4
    case EmptyCite => 0
    case _ => 1
  }

  /** A match found at `p`: it starts there, consumes at least one character, stays inside
      the text, has one entry per group, and its first group always participates. */
  predicate MatchesAt(s: string, p: nat, pat: Pattern, m: Match) {
    Shaped(s, p, GroupCount(pat), m)
  }

  predicate Shaped(s: string, p: nat, n: nat, m: Match) {
    && m.start == p
    && p < m.end <= |s|
    && |m.groups| == n
    && (n > 0 ==> m.groups[0].Some?)
  }

  // ---------------------------------------------------------------------------
  // Building blocks

  /** The character classes the patterns repeat. */
  datatype CharClass = Space | NonSpace | Word | Digit | DigitOrDot | NoneOf(excluded: string)

  predicate InClass(c: char, cls: CharClass) {
    match cls
    case Space => IsSpace(c)
    case NonSpace => !IsSpace(c)
    case Word => IsWordChar(c)
    case Digit => IsAsciiDigit(c)
    case DigitOrDot => IsAsciiDigit(c) || c == '.'
    case NoneOf(excluded) => c !in excluded
  }

  predicate IsQuote(c: char) {
    c == '\'' || c == '"'
  }

  /** The end of the longest run of `cls` characters starting at `p` (a greedy `cls*`). */
  function RunEnd(s: string, p: nat, cls: CharClass): (e: nat)
    requires p <= |s|
    ensures p <= e <= |s|
    ensures forall k :: p <= k < e ==> InClass(s[k], cls)
    ensures e < |s| ==> !InClass(s[e], cls)
    decreases |s| - p
  {
    if p < |s| && InClass(s[p], cls) then RunEnd(s, p + 1, cls) else p
  }

  /** A greedy `\s*`. */
  function SkipSpace(s: string, p: nat): (e: nat)
    requires p <= |s|
    ensures p <= e <= |s|
  {
    RunEnd(s, p, Space)
  }

  predicate CharAt(s: string, p: nat, c: char) {
    p < |s| && s[p] == c
  }

  predicate QuoteAt(s: string, p: nat) {
    p < |s| && IsQuote(s[p])
  }

  /** Where a lazy `(.*?)` that starts at `b` stops in front of `close`: the first occurrence
      of `close`, provided (without DOTALL) no line break lies before it. A later occurrence
      would need the body to cross the same line break, so there is no other choice. */
  function LazyUntil(s: string, b: nat, close: string, dotall: bool): (r: Option<nat>)
    requires b <= |s|
    ensures r.Some? ==> b <= r.value && OccursAt(s, close, r.value)
    ensures r.Some? ==> forall k :: b <= k < r.value ==> !OccursAt(s, close, k)
    ensures r.Some? && !dotall ==> '\n' !in s[b..r.value]
  {
    match Find(s, close, b)
    case None => None
    case Some(q) => if dotall || '\n' !in s[b..q] then Some(q) else None
  }

  /** The last non-whitespace position in `[lo, hi)`. */
  function LastNonSpace(s: string, lo: nat, hi: nat): (r: Option<nat>)
    requires lo <= hi <= |s|
    ensures r.Some? ==> lo <= r.value < hi && !IsSpace(s[r.value])
    ensures r.Some? ==> forall k :: r.value < k < hi ==> IsSpace(s[k])
    ensures r.None? ==> forall k :: lo <= k < hi ==> IsSpace(s[k])
    decreases hi - lo
  {
    if hi == lo then None
    else if !IsSpace(s[hi - 1]) then Some(hi - 1)
    else LastNonSpace(s, lo, hi - 1)
  }

  // ---------------------------------------------------------------------------
  // The scanners, one per pattern shape

  /** `open(.*?)close`: the body runs to the first `close` after `open`. */
  function BlockAt(s: string, p: nat, open: string, close: string, dotall: bool): (r: Option<Match>)
    requires p <= |s|
    requires |open| > 0
    ensures r.Some? ==> Shaped(s, p, 1, r.value)
    ensures r.Some? ==> OccursAt(s, open, p) && r.value.end - |close| >= p + |open|
    ensures r.Some? ==> r.value.groups[0] == Some(s[p + |open|..r.value.end - |close|])
    ensures r.Some? ==> OccursAt(s, close, r.value.end - |close|)
  {
    if !OccursAt(s, open, p) then None
    else
      var b := p + |open|;
      match LazyUntil(s, b, close, dotall)
      case None => None
      case Some(q) => Some(Match(p, q + |close|, [Some(s[b..q])]))
  }

  /** `<(name)>(.*?)</\1>` once the name has been scanned up to `e`: the name must be closed
      by `>`, and the body runs to the first `</name>`. Because the name's class excludes
      `>`, no shorter or longer name could be followed by `>`, so backtracking has nothing
      else to try. */
  function TagBodyAt(s: string, p: nat, e: nat, dotall: bool): (r: Option<Match>)
    requires p < e <= |s|
    ensures r.Some? ==> Shaped(s, p, 2, r.value)
    ensures r.Some? ==> r.value.groups[0] == Some(s[p + 1..e]) && r.value.groups[1].Some?
  {
    if !CharAt(s, e, '>') then None
    else
      var name := s[p + 1..e];
      var close := "</" + name + ">";
      match LazyUntil(s, e + 1, close, dotall)
      case None => None
      case Some(q) => Some(Match(p, q + |close|, [Some(name), Some(s[e + 1..q])]))
  }

  /** `<([^/>]+)>(.*?)</\1>` without DOTALL. */
  function MarkupTagAt(s: string, p: nat): (r: Option<Match>)
    requires p <= |s|
    ensures r.Some? ==> Shaped(s, p, 2, r.value)
    ensures r.Some? ==> r.value.groups[0].Some? && r.value.groups[1].Some?
  {
    if !CharAt(s, p, '<') then None
    else
      var e := RunEnd(s, p + 1, NoneOf("/>"));
      if e == p + 1 then None else TagBodyAt(s, p, e, false)
  }

  /** `<([a-zA-Z_][a-zA-Z0-9_]*)>(.*?)</\1>` with DOTALL. */
  function IdentTagAt(s: string, p: nat): (r: Option<Match>)
    requires p <= |s|
    ensures r.Some? ==> Shaped(s, p, 2, r.value)
    ensures r.Some? ==> r.value.groups[0].Some? && r.value.groups[1].Some?
    ensures r.Some? ==> var name := r.value.groups[0].value;
      |name| > 0 && !IsAsciiDigit(name[0]) && forall k :: 0 <= k < |name| ==> IsWordChar(name[k])
  {
    if !(CharAt(s, p, '<') && p + 1 < |s| && IsWordChar(s[p + 1]) && !IsAsciiDigit(s[p + 1])) then None
    else TagBodyAt(s, p, RunEnd(s, p + 1, Word), true)
  }

  /** `\{\s*tool\s*=>\s*"([^"]+)"`. */
  function ArrowToolNameAt(s: string, p: nat): (r: Option<Match>)
    requires p <= |s|
    ensures r.Some? ==> Shaped(s, p, 1, r.value)
    ensures r.Some? ==> r.value.groups[0].Some? && |r.value.groups[0].value| > 0
  {
    if !CharAt(s, p, '{') then None
    else
      var a := SkipSpace(s, p + 1);
      if !OccursAt(s, "tool", a) then None
      else
        var b := SkipSpace(s, a + 4);
        if !OccursAt(s, "=>", b) then None
        else
          var c := SkipSpace(s, b + 2);
          if !CharAt(s, c, '"') then None
          else
            var e := RunEnd(s, c + 1, NoneOf("\""));
            if e == c + 1 || e == |s| then None
            else Some(Match(p, e + 1, [Some(s[c + 1..e])]))
  }

  /** `\{([^}]*(?:\{[^}]*\}[^}]*)*)\}` from the `{` at `b`. The greedy first attempt takes
      every character up to the first `}`, the repetition then finds no `{` to start with,
      and the closing `\}` matches that first `}`: the group never contains `}`. */
  function BracedAt(s: string, p: nat, b: nat): (r: Option<Match>)
    requires p <= b <= |s|
    ensures r.Some? ==> Shaped(s, p, 1, r.value) && b + 1 < r.value.end
    ensures r.Some? ==> r.value.groups[0] == Some(s[b + 1..r.value.end - 1])
    ensures r.Some? ==> '}' !in r.value.groups[0].value && s[r.value.end - 1] == '}'
  {
    if !CharAt(s, b, '{') then None
    else
      var e := RunEnd(s, b + 1, NoneOf("}"));
      if e == |s| then None
      else Some(Match(p, e + 1, [Some(s[b + 1..e])]))
  }

  /** `<keyword>\s*<sep>\s*` followed by a braced group. */
  function KeywordBracedAt(s: string, p: nat, keyword: string, sep: string): (r: Option<Match>)
    requires p <= |s|
    requires |keyword| > 0
    ensures r.Some? ==> Shaped(s, p, 1, r.value)
    ensures r.Some? ==> r.value.groups[0].Some? && '}' !in r.value.groups[0].value
  {
    if !OccursAt(s, keyword, p) then None
    else
      var a := SkipSpace(s, p + |keyword|);
      if !OccursAt(s, sep, a) then None
      else BracedAt(s, p, SkipSpace(s, a + |sep|))
  }

  /** `--(\w+)\s+(?:"([^"]*)"|([\S]+))`: a quoted value when the quote is closed, otherwise
      the run of non-whitespace characters (which then starts with the quote). */
  function CliArgAt(s: string, p: nat): (r: Option<Match>)
    requires p <= |s|
    ensures r.Some? ==> Shaped(s, p, 3, r.value)
    ensures r.Some? ==> r.value.groups[0].Some? && (r.value.groups[1].Some? != r.value.groups[2].Some?)
    ensures r.Some? && r.value.groups[2].Some? ==> |r.value.groups[2].value| > 0 && NoSpace(r.value.groups[2].value)
  {
    if !OccursAt(s, "--", p) then None
    else
      var e := RunEnd(s, p + 2, Word);
      var f := SkipSpace(s, e);
      if e == p + 2 || f == e || f == |s| then None
      else
        var name := Some(s[p + 2..e]);
        var g := RunEnd(s, f + 1, NoneOf("\""));
        if s[f] == '"' && g < |s| then Some(Match(p, g + 1, [name, Some(s[f + 1..g]), None]))
        else
          var h := RunEnd(s, f, NonSpace);
          Some(Match(p, h, [name, None, Some(s[f..h])]))
  }

  /** `Q<key>Q\s*:\s*`, with `Q` a quote of either kind (`key` given) or a double quote
      (`key` scanned as `\w+`): the position after the colon's whitespace and the key. */
  function KeyAt(s: string, p: nat, anyQuote: bool): (r: Option<(nat, string)>)
    requires p <= |s|
    ensures r.Some? ==> p < r.value.0 <= |s|
  {
    if !(if anyQuote then QuoteAt(s, p) else CharAt(s, p, '"')) then None
    else
      var e := RunEnd(s, p + 1, Word);
      if e == p + 1 || !(if anyQuote then QuoteAt(s, e) else CharAt(s, e, '"')) then None
      else
        var a := SkipSpace(s, e + 1);
        if !CharAt(s, a, ':') then None
        else Some((SkipSpace(s, a + 1), s[p + 1..e]))
  }

  /** `Q<name>Q\s*:\s*` for a fixed name, quotes of either kind when `anyQuote`. */
  function NamedKeyAt(s: string, p: nat, name: string, anyQuote: bool): (r: Option<nat>)
    requires p <= |s|
    ensures r.Some? ==> p < r.value <= |s|
  {
    match KeyAt(s, p, anyQuote)
    case None => None
    case Some((b, key)) => if key == name then Some(b) else None
  }

  /** A quoted string value `Q([^Q]+)Q` (or `*` when `allowEmpty`) starting at `b`, where `Q`
      is either quote when `anyQuote` and the double quote otherwise. */
  function QuotedAt(s: string, b: nat, anyQuote: bool, allowEmpty: bool): (r: Option<(nat, string)>)
    requires b <= |s|
    ensures r.Some? ==> b < r.value.0 <= |s|
    ensures r.Some? && !allowEmpty ==> |r.value.1| > 0
  {
    if !(if anyQuote then QuoteAt(s, b) else CharAt(s, b, '"')) then None
    else
      var e := RunEnd(s, b + 1, NoneOf(if anyQuote then "'\"" else "\""));
      if e == |s| || (!allowEmpty && e == b + 1) then None
      else Some((e + 1, s[b + 1..e]))
  }

  /** `['"]name['"]\s*:\s*['"]([^'"]+)['"]` and `"name"\s*:\s*"([^"]+)"`. */
  function NameValueAt(s: string, p: nat, anyQuote: bool): (r: Option<Match>)
    requires p <= |s|
    ensures r.Some? ==> Shaped(s, p, 1, r.value)
    ensures r.Some? ==> r.value.groups[0].Some? && |r.value.groups[0].value| > 0
  {
    match NamedKeyAt(s, p, "name", anyQuote)
    case None => None
    case Some(b) =>
      match QuotedAt(s, b, anyQuote, false)
      case None => None
      case Some((end, value)) => Some(Match(p, end, [Some(value)]))
  }

  /** `['"]args['"]\s*:\s*\{([^}]*)\}` and `"arguments"\s*:\s*\{([^}]*)\}`. */
  function ArgsObjectAt(s: string, p: nat, name: string, anyQuote: bool): (r: Option<Match>)
    requires p <= |s|
    ensures r.Some? ==> Shaped(s, p, 1, r.value)
    ensures r.Some? ==> r.value.groups[0].Some? && '}' !in r.value.groups[0].value
  {
    match NamedKeyAt(s, p, name, anyQuote)
    case None => None
    case Some(b) => BracedAt(s, p, b)
  }

  /** `['"](\w+)['"]\s*:\s*(?:['"]([^'"]*)['"]|(\d+))`. */
  function LooseKeyValueAt(s: string, p: nat): (r: Option<Match>)
    requires p <= |s|
    ensures r.Some? ==> Shaped(s, p, 3, r.value)
    ensures r.Some? ==> r.value.groups[0].Some? && (r.value.groups[1].Some? != r.value.groups[2].Some?)
    ensures r.Some? && r.value.groups[2].Some? ==> IsDigits(r.value.groups[2].value)
  {
    match KeyAt(s, p, true)
    case None => None
    case Some((b, key)) =>
      match QuotedAt(s, b, true, true)
      case Some((end, value)) => Some(Match(p, end, [Some(key), Some(value), None]))
      case None =>
        var d := RunEnd(s, b, Digit);
        if d == b then None else Some(Match(p, d, [Some(key), None, Some(s[b..d])]))
  }

  /** `"(\w+)"\s*:\s*(?:"([^"]*)"|([\d.]+)|(\w+))`: the alternatives are tried in order, so a
      value starting with a digit or a dot is always read by the second one. */
  function JsonKeyValueAt(s: string, p: nat): (r: Option<Match>)
    requires p <= |s|
    ensures r.Some? ==> Shaped(s, p, 4, r.value)
    ensures r.Some? ==> r.value.groups[0].Some?
    ensures r.Some? && r.value.groups[2].Some? ==> var v := r.value.groups[2].value;
      |v| > 0 && forall k :: 0 <= k < |v| ==> IsAsciiDigit(v[k]) || v[k] == '.'
  {
    match KeyAt(s, p, false)
    case None => None
    case Some((b, key)) =>
      match QuotedAt(s, b, false, true)
      case Some((end, value)) => Some(Match(p, end, [Some(key), Some(value), None, None]))
      case None =>
        var d := RunEnd(s, b, DigitOrDot);
        if d > b then Some(Match(p, d, [Some(key), None, Some(s[b..d]), None]))
        else
          var w := RunEnd(s, b, Word);
          if w > b then Some(Match(p, w, [Some(key), None, None, Some(s[b..w])])) else None
  }

  /** `<cite\s+id=['"][^'"]*['"]\s*>\s*</cite>\s*---?`. */
  function EmptyCiteAt(s: string, p: nat): (r: Option<Match>)
    requires p <= |s|
    ensures r.Some? ==> Shaped(s, p, 0, r.value)
  {
    if !OccursAt(s, "<cite", p) then None
    else
      var a := SkipSpace(s, p + 5);
      if a == p + 5 || !OccursAt(s, "id=", a) then None
      else
        match QuotedAt(s, a + 3, true, true)
        case None => None
        case Some((e, _)) =>
          var b := SkipSpace(s, e);
          if !CharAt(s, b, '>') then None
          else
            var c := SkipSpace(s, b + 1);
            if !OccursAt(s, "</cite>", c) then None
            else
              var d := SkipSpace(s, c + 7);
              if !OccursAt(s, "--", d) then None
              else Some(Match(p, if CharAt(s, d + 2, '-') then d + 3 else d + 2, []))
  }

  /** `\[Event:\s*(\{[^]]*\})\s*\]`. No part of the pattern consumes `]` except the final
      `\]`, which must therefore be the first `]` after the `{`; the group ends at the last
      non-whitespace character before it, which has to be `}`. */
  function EventBlockAt(s: string, p: nat): (r: Option<Match>)
    requires p <= |s|
    ensures r.Some? ==> Shaped(s, p, 1, r.value)
    ensures r.Some? ==> r.value.groups[0].Some? && ']' !in r.value.groups[0].value
    ensures r.Some? ==> var g := r.value.groups[0].value; |g| >= 2 && g[0] == '{' && g[|g| - 1] == '}'
    ensures r.Some? ==> OccursAt(s, "[Event:", p)
  {
    if !OccursAt(s, "[Event:", p) then None
    else
      var a := SkipSpace(s, p + 7);
      if !CharAt(s, a, '{') then None
      else
        var r := RunEnd(s, a + 1, NoneOf("]"));
        if r == |s| then None
        else
          match LastNonSpace(s, a + 1, r)
          case None => None
          case Some(j) =>
            if s[j] != '}' then None
            else
              assert forall k :: a <= k <= j ==> s[k] != ']';
              Some(Match(p, r + 1, [Some(s[a..j + 1])]))
  }

  // ---------------------------------------------------------------------------
  // re.match / re.search / re.finditer / re.sub

  /** A scanner tries one pattern at one position. */
  type Scanner = (string, nat) -> Option<Match>

  /** The scanner of each pattern. */
  function ScannerOf(pat: Pattern): Scanner {
    match pat
    case ToolCallBlock => (s: string, p: nat) => if p <= |s| then BlockAt(s, p, "<tool_call>", "</tool_call>", true) else None
    case ToolNameTag => (s: string, p: nat) => if p <= |s| then BlockAt(s, p, "<tool_name>", "</tool_name>", false) else None
    case MarkupTag => (s: string, p: nat) => if p <= |s| then MarkupTagAt(s, p) else None
    case InvokeBlock => (s: string, p: nat) => if p <= |s| then BlockAt(s, p, "<invoke>", "</invoke>", true) else None
    case IdentTag => (s: string, p: nat) => if p <= |s| then IdentTagAt(s, p) else None
    case BracketBlock => (s: string, p: nat) => if p <= |s| then BlockAt(s, p, "[TOOL_CALL]", "[/TOOL_CALL]", true) else None
    case ArrowToolName => (s: string, p: nat) => if p <= |s| then ArrowToolNameAt(s, p) else None
    case ArrowArgs => (s: string, p: nat) => if p <= |s| then KeywordBracedAt(s, p, "args", "=>") else None
    case CliArg => (s: string, p: nat) => if p <= |s| then CliArgAt(s, p) else None
    case LooseName => (s: string, p: nat) => if p <= |s| then NameValueAt(s, p, true) else None
    case LooseArgs => (s: string, p: nat) => if p <= |s| then ArgsObjectAt(s, p, "args", true) else None
    case LooseKeyValue => (s: string, p: nat) => if p <= |s| then LooseKeyValueAt(s, p) else None
    case ActionBlock => (s: string, p: nat) => if p <= |s| then KeywordBracedAt(s, p, "Action:", "") else None
    case JsonName => (s: string, p: nat) => if p <= |s| then NameValueAt(s, p, false) else None
    case JsonArguments => (s: string, p: nat) => if p <= |s| then ArgsObjectAt(s, p, "arguments", false) else None
    case JsonKeyValue => (s: string, p: nat) => if p <= |s| then JsonKeyValueAt(s, p) else None
    case EmptyCite => (s: string, p: nat) => if p <= |s| then EmptyCiteAt(s, p) else None
    case EventBlock => (s: string, p: nat) => if p <= |s| then EventBlockAt(s, p) else None
  }

  /** The result of scanner `sc` at `p`, passed on only when it is well shaped for a
      pattern with `n` groups. */
  function Accept(sc: Scanner, n: nat, s: string, p: nat): (r: Option<Match>)
    ensures r.Some? ==> Shaped(s, p, n, r.value)
  {
    var r := sc(s, p);
    if r.Some? && Shaped(s, p, n, r.value) then r else None
  }

  /** The match of `pat` that starts exactly at `p`, if any (`re.match` at `p`). Only
      well-shaped matches are passed on; `MatchAtIsScanner` shows that this drops nothing. */
  function MatchAt(pat: Pattern, s: string, p: nat): (r: Option<Match>)
    requires p <= |s|
    ensures r.Some? ==> MatchesAt(s, p, pat, r.value)
  {
    Accept(ScannerOf(pat), GroupCount(pat), s, p)
  }

  /** Every scanner produces well-shaped matches, so `MatchAt` is exactly the scanner. */
  lemma MatchAtIsScanner(pat: Pattern, s: string, p: nat)
    requires p <= |s|
    ensures MatchAt(pat, s, p) == ScannerOf(pat)(s, p)
  {
    if pat.ToolCallBlock? || pat.ToolNameTag? || pat.InvokeBlock? || pat.BracketBlock? {
      DelimitedShaped(pat, s, p);
    } else if pat.MarkupTag? || pat.IdentTag? || pat.CliArg? || pat.LooseKeyValue? || pat.JsonKeyValue? {
      MultiGroupShaped(pat, s, p);
    } else {
      SingleGroupShaped(pat, s, p);
    }
  }

  lemma DelimitedShaped(pat: Pattern, s: string, p: nat)
    requires p <= |s|
    requires pat.ToolCallBlock? || pat.ToolNameTag? || pat.InvokeBlock? || pat.BracketBlock?
    ensures ScannerOf(pat)(s, p).Some? ==> MatchesAt(s, p, pat, ScannerOf(pat)(s, p).value)
  {
  }

  lemma MultiGroupShaped(pat: Pattern, s: string, p: nat)
    requires p <= |s|
    requires pat.MarkupTag? || pat.IdentTag? || pat.CliArg? || pat.LooseKeyValue? || pat.JsonKeyValue?
    ensures ScannerOf(pat)(s, p).Some? ==> MatchesAt(s, p, pat, ScannerOf(pat)(s, p).value)
  {
    match pat
    case MarkupTag =>
    case IdentTag =>
    case CliArg =>
    case LooseKeyValue =>
    case JsonKeyValue =>
  }

  lemma SingleGroupShaped(pat: Pattern, s: string, p: nat)
    requires p <= |s|
    requires !(pat.ToolCallBlock? || pat.ToolNameTag? || pat.InvokeBlock? || pat.BracketBlock?)
    requires !(pat.MarkupTag? || pat.IdentTag? || pat.CliArg? || pat.LooseKeyValue? || pat.JsonKeyValue?)
    ensures ScannerOf(pat)(s, p).Some? ==> MatchesAt(s, p, pat, ScannerOf(pat)(s, p).value)
  {
    match pat
    case ArrowToolName =>
    case ArrowArgs =>
    case LooseName =>
    case LooseArgs =>
    case ActionBlock =>
    case JsonName =>
    case JsonArguments =>
    case EmptyCite =>
    case EventBlock =>
  }

  /** An identifier tag match opens with `<name>`. */
  lemma IdentTagOpens(s: string, p: nat)
    requires p <= |s|
    requires MatchAt(IdentTag, s, p).Some?
    ensures OccursAt(s, "<" + MatchAt(IdentTag, s, p).value.groups[0].value + ">", p)
  {
    MatchAtIsScanner(IdentTag, s, p);
    assert MatchAt(IdentTag, s, p) == IdentTagAt(s, p);
    var e := RunEnd(s, p + 1, Word);
    assert IdentTagAt(s, p) == TagBodyAt(s, p, e, true);
    var name := s[p + 1..e];
    assert MatchAt(IdentTag, s, p).value.groups[0].value == name;
    assert s[p..e + 1] == "<" + name + ">";
  }

  /** The leftmost accepted result of scanner `sc` at or after `from`. */
  function SearchBy(sc: Scanner, n: nat, s: string, from: nat): (r: Option<Match>)
    requires from <= |s|
    ensures r.Some? ==> from <= r.value.start && Accept(sc, n, s, r.value.start) == Some(r.value)
    ensures r.Some? ==> forall q :: from <= q < r.value.start ==> Accept(sc, n, s, q).None?
    ensures r.None? ==> forall q :: from <= q <= |s| ==> Accept(sc, n, s, q).None?
    decreases |s| - from
  {
    match Accept(sc, n, s, from)
    case Some(m) => Some(m)
    case None => if from == |s| then None else SearchBy(sc, n, s, from + 1)
  }

  /** `re.search(pat, s[from:])`: the leftmost match at or after `from`. */
  function Search(pat: Pattern, s: string, from: nat): (r: Option<Match>)
    requires from <= |s|
    ensures r.Some? ==> from <= r.value.start && MatchesAt(s, r.value.start, pat, r.value)
    ensures r.Some? ==> MatchAt(pat, s, r.value.start) == Some(r.value)
    ensures r.Some? ==> forall q :: from <= q < r.value.start ==> MatchAt(pat, s, q).None?
    ensures r.None? ==> forall q :: from <= q <= |s| ==> MatchAt(pat, s, q).None?
  {
    SearchBy(ScannerOf(pat), GroupCount(pat), s, from)
  }

  /** Matches of `pat` in order, disjoint, all at or after `from`. */
  predicate Scan(pat: Pattern, s: string, ms: seq<Match>, from: nat) {
    |ms| == 0 ||
    (from <= ms[0].start && MatchesAt(s, ms[0].start, pat, ms[0]) && Scan(pat, s, ms[1..], ms[0].end))
  }

  /** `re.finditer(pat, s)` from position `from`: each search resumes where the previous
      match ended. */
  function FindAll(pat: Pattern, s: string, from: nat): (ms: seq<Match>)
    requires from <= |s|
    ensures Scan(pat, s, ms, from)
    ensures |ms| == 0 <==> Search(pat, s, from).None?
    ensures |ms| > 0 ==> Search(pat, s, from) == Some(ms[0])
    decreases |s| - from
  {
    match Search(pat, s, from)
    case None => []
    case Some(m) =>
      var rest := FindAll(pat, s, m.end);
      assert ([m] + rest)[1..] == rest;
      [m] + rest
  }

  /** Every match `finditer` reports is the match of `pat` at its own start. */
  lemma {:induction false} FindAllMatches(pat: Pattern, s: string, from: nat, m: Match)
    requires from <= |s|
    requires m in FindAll(pat, s, from)
    ensures m.start <= |s| && MatchAt(pat, s, m.start) == Some(m)
    decreases |s| - from
  {
    var ms := FindAll(pat, s, from);
    var first := Search(pat, s, from).value;
    assert ms == [first] + FindAll(pat, s, first.end);
    if m != first {
      FindAllMatches(pat, s, first.end, m);
    }
  }

  /** The text from `from` on with the spans of `ms` cut out. */
  function Cut(pat: Pattern, s: string, ms: seq<Match>, from: nat): (r: string)
    requires from <= |s|
    requires Scan(pat, s, ms, from)
    ensures Covered(ms) >= 0
    ensures |r| == |s| - from - Covered(ms)
    ensures |ms| > 0 ==> Covered(ms) > 0
    decreases |ms|
  {
    if |ms| == 0 then s[from..]
    else s[from..ms[0].start] + Cut(pat, s, ms[1..], ms[0].end)
  }

  /** The number of characters the spans cover. */
  function Covered(ms: seq<Match>): int {
    if |ms| == 0 then 0 else ms[0].end - ms[0].start + Covered(ms[1..])
  }

  /** `re.sub(pat, "", s)`: every match `finditer` reports is deleted. */
  function Sub(pat: Pattern, s: string): string {
    Cut(pat, s, FindAll(pat, s, 0), 0)
  }

  /** Deleting the matches shortens the text by exactly the characters they cover, and
      changes it whenever there is a match at all. */
  lemma SubLength(pat: Pattern, s: string)
    ensures |Sub(pat, s)| == |s| - Covered(FindAll(pat, s, 0))
    ensures Search(pat, s, 0).Some? ==> |Sub(pat, s)| < |s|
  {
  }

  /** A text without any match is left exactly as it is. */
  lemma SubNoMatch(pat: Pattern, s: string)
    requires Search(pat, s, 0).None?
    ensures Sub(pat, s) == s
  {
  }
}

=== FILE: percent_encoding.dfy ===
/** Python's `urllib.parse.quote` with no extra safe characters: the unreserved characters
    of section 2.3 of RFC 3986 are kept and every other character is sent as the `%XX`
    triples of its UTF-8 bytes (section 2.1). */
module PercentEncoding {
  import opened Text

  /** The characters `quote` never encodes. */
  predicate Unreserved(c: char) {
    IsAsciiLetter(c) || IsAsciiDigit(c) || c == '-' || c == '.' || c == '_' || c == '~'
  }

  const HexDigits: string := "0123456789ABCDEF"

  predicate IsHexUpper(c: char) {
    c in HexDigits
  }

  function HexValue(c: char): (v: nat)
    requires IsHexUpper(c)
    ensures v < 16 && HexDigits[v] == c
  {
    if '0' <= c <= '9' then (c - '0') as nat else (c - 'A') as nat + 10
  }

  newtype Byte = b: int | 0 <= b < 256

  /** The UTF-8 bytes of a character. */
  function Utf8(c: char): (bs: seq<Byte>)
    ensures 1 <= |bs| <= 4
    ensures (c as int < 128) <==> |bs| == 1 && bs[0] < 128
  {
    var n := c as int;
    if n < 0x80 then [n as Byte]
    else if n < 0x800 then [(0xC0 + n / 64) as Byte, (0x80 + n % 64) as Byte]
    else if n < 0x1_0000 then [(0xE0 + n / 4096) as Byte, (0x80 + (n / 64) % 64) as Byte, (0x80 + n % 64) as Byte]
    else [(0xF0 + n / 262144) as Byte, (0x80 + (n / 4096) % 64) as Byte, (0x80 + (n / 64) % 64) as Byte, (0x80 + n % 64) as Byte]
  }

  /** The UTF-8 encoding of a text. */
  function Utf8Text(s: string): seq<Byte> {
    if s == [] then [] else Utf8(s[0]) + Utf8Text(s[1..])
  }

  function PercentByte(b: Byte): (r: string)
    ensures |r| == 3 && r[0] == '%' && IsHexUpper(r[1]) && IsHexUpper(r[2])
    ensures HexValue(r[1]) * 16 + HexValue(r[2]) == b as int
  {
    var r := ['%', HexDigits[b as int / 16], HexDigits[b as int % 16]];
    assert r[1] in HexDigits && r[2] in HexDigits;
    HexDigitsDistinct(HexValue(r[1]), b as int / 16);
    HexDigitsDistinct(HexValue(r[2]), b as int % 16);
    r
  }

  lemma HexDigitsDistinct(i: nat, j: nat)
    requires i < 16 && j < 16 && HexDigits[i] == HexDigits[j]
    ensures i == j
  {
  }

  function PercentBytes(bs: seq<Byte>): string {
    if bs == [] then [] else PercentByte(bs[0]) + PercentBytes(bs[1..])
  }

  /** One character as `quote` writes it. */
  function QuoteChar(c: char): string {
    if Unreserved(c) then [c] else PercentBytes(Utf8(c))
  }

  /** `quote(s, safe="")`; `-`, `_`, `.` and `~` are always safe, so `safe="-_"` gives the
      same text. */
  function Quote(s: string): string {
    if s == [] then [] else QuoteChar(s[0]) + Quote(s[1..])
  }

  /** A well-formed encoding: unreserved characters and `%XX` triples with upper-case hex
      digits, nothing else. */
  predicate WellEncoded(s: string)
    decreases |s|
  {
    if s == [] then true
    else if s[0] == '%' then |s| >= 3 && IsHexUpper(s[1]) && IsHexUpper(s[2]) && WellEncoded(s[3..])
    else Unreserved(s[0]) && WellEncoded(s[1..])
  }

  /** The bytes an encoding stands for. */
  function Decode(s: string): seq<Byte>
    requires WellEncoded(s)
    decreases |s|
  {
    if s == [] then []
    else if s[0] == '%' then [(HexValue(s[1]) * 16 + HexValue(s[2])) as Byte] + Decode(s[3..])
    else [(s[0] as int % 256) as Byte] + Decode(s[1..])
  }

  lemma PercentByteDecode(b: Byte, rest: string)
    requires WellEncoded(rest)
    ensures WellEncoded(PercentByte(b) + rest)
    ensures Decode(PercentByte(b) + rest) == [b] + Decode(rest)
  {
    var p := PercentByte(b);
    var s := p + rest;
    assert s[3..] == rest;
    assert s[0] == p[0] && s[1] == p[1] && s[2] == p[2];
    var v := HexValue(s[1]) * 16 + HexValue(s[2]);
    assert v == b as int;
    TripleDecode(s);
    assert Decode(s) == [v as Byte] + Decode(rest);
  }

  /** A `%XX` triple followed by a well-formed encoding decodes to the triple's byte first. */
  lemma TripleDecode(s: string)
    requires |s| >= 3 && s[0] == '%' && IsHexUpper(s[1]) && IsHexUpper(s[2])
    requires WellEncoded(s[3..])
    ensures WellEncoded(s)
    ensures Decode(s) == [(HexValue(s[1]) * 16 + HexValue(s[2])) as Byte] + Decode(s[3..])
  {
  }

  lemma {:induction false} PercentBytesDecode(bs: seq<Byte>, rest: string)
    requires WellEncoded(rest)
    ensures WellEncoded(PercentBytes(bs) + rest)
    ensures Decode(PercentBytes(bs) + rest) == bs + Decode(rest)
  {
    if bs == [] {
      assert PercentBytes(bs) + rest == rest;
    } else {
      var p := PercentByte(bs[0]);
      var q := PercentBytes(bs[1..]);
      assert PercentBytes(bs) == p + q;
      PercentBytesDecode(bs[1..], rest);
      PercentByteDecode(bs[0], q + rest);
      ConsDecode(PercentBytes(bs), p, q, rest, bs);
    }
  }

  /** Decoding a piece in front of a decoded text puts its bytes in front. */
  lemma ConsDecode(whole: string, p: string, q: string, rest: string, bs: seq<Byte>)
    requires |bs| > 0 && whole == p + q
    requires WellEncoded(rest) && WellEncoded(q + rest) && WellEncoded(p + (q + rest))
    requires Decode(p + (q + rest)) == [bs[0]] + Decode(q + rest)
    requires Decode(q + rest) == bs[1..] + Decode(rest)
    ensures WellEncoded(whole + rest)
    ensures Decode(whole + rest) == bs + Decode(rest)
  {
    ConcatAssoc(p, q, rest);
    assert bs == [bs[0]] + bs[1..];
    ConcatAssoc([bs[0]], bs[1..], Decode(rest));
  }

  lemma ConcatAssoc<T>(a: seq<T>, b: seq<T>, c: seq<T>)
    ensures a + b + c == a + (b + c)
  {
  }

  lemma QuoteCharDecode(c: char, rest: string)
    requires WellEncoded(rest)
    ensures WellEncoded(QuoteChar(c) + rest)
    ensures Decode(QuoteChar(c) + rest) == Utf8(c) + Decode(rest)
  {
    if Unreserved(c) {
      assert ([c] + rest)[1..] == rest;
    } else {
      PercentBytesDecode(Utf8(c), rest);
    }
  }

  /** The encoding is well formed and stands for exactly the UTF-8 bytes of the text: it is
      reversible. */
  lemma {:induction false} QuoteDecodes(s: string)
    ensures WellEncoded(Quote(s))
    ensures Decode(Quote(s)) == Utf8Text(s)
  {
    if s != [] {
      QuoteDecodes(s[1..]);
      QuoteCharDecode(s[0], Quote(s[1..]));
    }
  }

  /** Text made of unreserved characters passes unchanged. */
  lemma {:induction false} QuoteKeepsUnreserved(s: string)
    requires forall i :: 0 <= i < |s| ==> Unreserved(s[i])
    ensures Quote(s) == s
  {
    if s != [] {
      QuoteKeepsUnreserved(s[1..]);
    }
  }

  /** A well-formed encoding holds no `/`, so an encoded text is always one path segment. */
  lemma {:induction false} WellEncodedNoSlash(s: string)
    requires WellEncoded(s)
    ensures '/' !in s
    decreases |s|
  {
    if s != [] {
      if s[0] == '%' {
        WellEncodedNoSlash(s[3..]);
        assert s == s[..3] + s[3..];
      } else {
        WellEncodedNoSlash(s[1..]);
        assert s == [s[0]] + s[1..];
      }
    }
  }
}

=== FILE: prompts.dfy ===
/** Prompt selection of the search agent and the answer agent: the dataset name picks which
    additional instruction (exact answer, long form, short form) follows the question. The
    prompt texts themselves live in a table outside this model; they are parameters here. */
module Prompts {
  import opened Wrappers
  import opened Text

  /** The key of `additional_instructions`. */
  datatype Field = ExactAnswer | LongForm | ShortForm

  /** One chat message. */
  datatype Message = Message(role: string, content: string)

  /** The prompt version's texts: its system prompt and its additional instructions. */
  datatype PromptTexts = PromptTexts(system: string, instructions: Field -> string)

  const SearchExactSets: seq<string> := [
    "2wiki", "simpleqa", "browsecomp", "bc_synthetic_depth_one_v2_verified",
    "bc_synthetic_varied_depth_o3_verified", "webwalker", "hle"]
  /** The answer agent's list lacks `hle`. */
  const AnswerExactSets: seq<string> := [
    "2wiki", "simpleqa", "browsecomp", "bc_synthetic_depth_one_v2_verified",
    "bc_synthetic_varied_depth_o3_verified", "webwalker"]
  const LongFormSets: seq<string> := ["sqav2", "genetic_diseases_qa"]
  const ShortFormSets: seq<string> := ["healthbench", "deep_research_bench", "researchqa"]

  const FinalRequest: string := "Now please generate an answer based on the search results by far."

  /** `str(dataset_name)`. */
  function Shown(name: Option<string>): string {
    match name
    case None => "None"
    case Some(n) => n
  }

  predicate SearchListed(name: Option<string>) {
    name.Some? && (name.value in SearchExactSets || name.value in LongFormSets || name.value in ShortFormSets)
  }

  /** The instruction field `SearchAgent.prompt` picks; `Err` is the `ValueError` for an
      sft-mix name that says neither `short_form` nor `long_form`. A name outside the lists
      that says `short_form` asks for exact answers. */
  function SearchField(name: Option<string>): (r: Result<Option<Field>, string>)
    ensures r.Err? <==> (!SearchListed(name) && Contains(Shown(name), "sft-mix")
      && !Contains(Shown(name), "short_form") && !Contains(Shown(name), "long_form"))
    ensures r == Ok(Some(ExactAnswer)) <==>
      (name.Some? && name.value in SearchExactSets) || (!SearchListed(name) && Contains(Shown(name), "short_form"))
    ensures r == Ok(Some(LongForm)) <==>
      (name.Some? && name.value in LongFormSets)
      || (!SearchListed(name) && !Contains(Shown(name), "short_form") && Contains(Shown(name), "long_form"))
    ensures r == Ok(Some(ShortForm)) <==> name.Some? && name.value in ShortFormSets
    ensures r == Ok(None) <==> (!SearchListed(name) && !Contains(Shown(name), "sft-mix")
      && !Contains(Shown(name), "short_form") && !Contains(Shown(name), "long_form"))
  {
    if name.Some? && name.value in SearchExactSets then Ok(Some(ExactAnswer))
    else if name.Some? && name.value in LongFormSets then Ok(Some(LongForm))
    else if name.Some? && name.value in ShortFormSets then Ok(Some(ShortForm))
    else if name.Some? && name.value != "" && Contains(name.value, "sft-mix") then
      if Contains(name.value, "short_form") then Ok(Some(ExactAnswer))
      else if Contains(name.value, "long_form") then Ok(Some(LongForm))
      else Err("Unclear which instruction field name to use for the sft mix dataset: " + name.value)
    else if Contains(Shown(name), "short_form") then Ok(Some(ExactAnswer))
    else if Contains(Shown(name), "long_form") then Ok(Some(LongForm))
    else Ok(None)
  }

  /** The user turn: the question, followed by the instruction when there is one. */
  function UserTurn(question: string, texts: PromptTexts, field: Option<Field>): (m: Message)
    ensures m.role == "user"
    ensures field.None? ==> m.content == question
    ensures field.Some? ==> (StartsWith(m.content, question + "\n\n")
      && m.content[|question| + 2..] == texts.instructions(field.value))
  {
    Message("user", if field.Some? then question + "\n\n" + texts.instructions(field.value) else question)
  }

  /** `SearchAgent.prompt`: a system turn and a user turn. */
  function SearchPrompt(question: string, name: Option<string>, texts: PromptTexts): (r: Result<seq<Message>, string>)
    ensures r.Ok? <==> SearchField(name).Ok?
    ensures r.Ok? ==> |r.value| == 2 && r.value[0] == Message("system", texts.system) && r.value[1].role == "user"
    ensures r.Ok? && SearchField(name).value.None? ==> r.value[1].content == question
    ensures r.Ok? && SearchField(name).value.Some? ==>
      r.value[1].content == question + "\n\n" + texts.instructions(SearchField(name).value.value)
  {
    var field :- SearchField(name);
    Ok([Message("system", texts.system), UserTurn(question, texts, field)])
  }

  predicate AnswerListed(name: string) {
    name in AnswerExactSets || name in LongFormSets || name in ShortFormSets
  }

  /** The instruction field `AnswerAgent.prompt` picks; `Err` is the `ValueError` for a name
      it cannot place. A name outside the lists that says `short_form` asks for short-form
      answers. */
  function AnswerField(name: string): (r: Result<Field, string>)
    ensures r.Err? <==> (!AnswerListed(name) && !Contains(name, "short_form")
      && !Contains(name, "long_form") && !Contains(name, "exact_answer"))
    ensures r == Ok(ExactAnswer) <==> (name in AnswerExactSets
      || (!AnswerListed(name) && !Contains(name, "short_form") && !Contains(name, "long_form") && Contains(name, "exact_answer")))
    ensures r == Ok(LongForm) <==> (name in LongFormSets
      || (!AnswerListed(name) && !Contains(name, "short_form") && Contains(name, "long_form")))
    ensures r == Ok(ShortForm) <==> name in ShortFormSets || (!AnswerListed(name) && Contains(name, "short_form"))
  {
    if name in AnswerExactSets then Ok(ExactAnswer)
    else if name in LongFormSets then Ok(LongForm)
    else if name in ShortFormSets then Ok(ShortForm)
    else if Contains(name, "short_form") then Ok(ShortForm)
    else if Contains(name, "long_form") then Ok(LongForm)
    else if Contains(name, "exact_answer") then Ok(ExactAnswer)
    else Err("Unknown dataset name: " + name)
  }

  /** `AnswerAgent.prompt`: system, user, the search history as the assistant's turn, and
      the fixed request for an answer. */
  function AnswerPrompt(question: string, history: string, name: string, texts: PromptTexts): (r: Result<seq<Message>, string>)
    ensures r.Ok? <==> AnswerField(name).Ok?
    ensures r.Ok? ==> (&& |r.value| == 4
      && r.value[0] == Message("system", texts.system)
      && r.value[1] == Message("user", question + "\n\n" + texts.instructions(AnswerField(name).value))
      && r.value[2] == Message("assistant", history)
      && r.value[3] == Message("user", FinalRequest))
  {
    var field :- AnswerField(name);
    Ok([Message("system", texts.system), UserTurn(question, texts, Some(field)),
        Message("assistant", history), Message("user", FinalRequest)])
  }

  /** For a name outside the lists that says `short_form`, the search agent asks for an
      exact answer while the answer agent asks for a short-form one. */
  lemma ShortFormDivergence(name: string)
    requires !SearchListed(Some(name)) && !AnswerListed(name)
    requires Contains(name, "short_form")
    ensures SearchField(Some(name)) == Ok(Some(ExactAnswer))
    ensures AnswerField(name) == Ok(ShortForm)
  {
  }

  /** `hle` is an exact-answer dataset for the search agent, but the answer agent rejects it. */
  lemma HleOnlyForSearch()
    ensures SearchField(Some("hle")) == Ok(Some(ExactAnswer))
    ensures AnswerField("hle").Err?
  {
    assert "hle" in SearchExactSets;
    assert "hle" !in AnswerExactSets + LongFormSets + ShortFormSets;
    assert !Contains("hle", "short_form") && !Contains("hle", "long_form") && !Contains("hle", "exact_answer");
  }

  /** Without a dataset name the search prompt carries the bare question. */
  lemma NoNameNoInstructions(question: string, texts: PromptTexts)
    ensures SearchPrompt(question, None, texts) == Ok([Message("system", texts.system), Message("user", question)])
  {
    assert !Contains("None", "sft-mix") && !Contains("None", "short_form") && !Contains("None", "long_form");
  }
}

=== FILE: pubmed.dfy ===
/** `PubMedSearchTool`: the paging offset of a search, the author rule applied to the fetched
    articles, the Semantic Scholar enrichment of the papers and the text the tool returns,
    with citation ids `pubmed_<n>`. Requests and XML parsing are not modelled: the search
    counts, the author elements and the enrichment reply are inputs. */
module PubMed {
  import opened Wrappers
  import opened Text
  import opened JsonValues
  import opened Citations

  const MaxAuthorsShown: nat := 5
  const AbstractLimit: nat := 500
  const IdPrefix: string := "pubmed_"

  // ---------------------------------------------------------------------------
  // Search statistics

  /** `int(RetStart) + int(RetMax)`, the `next` offset. Only digit strings are read as
      numbers; anything else raises `ValueError`. */
  function NextOffset(retStart: string, retMax: string): (r: Result<int, string>)
    ensures r.Ok? <==> IsDigits(retStart) && IsDigits(retMax)
    ensures r.Ok? ==> r.value == DigitsValue(retStart) + DigitsValue(retMax)
  {
    if IsDigits(retStart) && IsDigits(retMax) then Ok(DigitsValue(retStart) + DigitsValue(retMax))
    else Err("ValueError: invalid literal for int() with base 10")
  }

  /** The next page starts right after the current one: offset plus page size. */
  lemma NextOffsetAdds(offset: nat, limit: nat)
    ensures NextOffset(NatToString(offset), NatToString(limit)) == Ok(offset + limit)
  {
    NatToStringRoundTrip(offset);
    NatToStringRoundTrip(limit);
  }

  // ---------------------------------------------------------------------------
  // Authors of a fetched article

  /** An `Author` element: the texts of its `LastName` and `ForeName` children, when present. */
  datatype AuthorElement = AuthorElement(lastName: Option<string>, foreName: Option<string>)

  predicate Complete(a: AuthorElement) {
    a.lastName.Some? && a.foreName.Some?
  }

  function AuthorName(a: AuthorElement): string
    requires Complete(a)
  {
    a.lastName.value + ", " + a.foreName.value
  }

  /** The authors of an article: `Last, Fore` for each element that has both names, in
      document order; the others are dropped. */
  function Authors(elements: seq<AuthorElement>): (r: seq<string>)
    ensures |r| <= |elements|
    ensures forall i :: 0 <= i < |r| ==> exists j :: 0 <= j < |elements| && Complete(elements[j]) && r[i] == AuthorName(elements[j])
    ensures forall j :: 0 <= j < |elements| && Complete(elements[j]) ==> AuthorName(elements[j]) in r
    decreases |elements|
  {
    if elements == [] then []
    else
      var init := elements[..|elements| - 1];
      var last := elements[|elements| - 1];
      var rest := Authors(init);
      assert forall j :: 0 <= j < |init| ==> init[j] == elements[j];
      if Complete(last) then rest + [AuthorName(last)] else rest
  }

  /** The rule works element by element: the authors of two runs of elements are those of
      each run, in order. */
  lemma {:induction false} AuthorsAppend(a: seq<AuthorElement>, b: seq<AuthorElement>)
    ensures Authors(a + b) == Authors(a) + Authors(b)
    decreases |b|
  {
    if b == [] {
      assert a + b == a;
    } else {
      var b' := b[..|b| - 1];
      assert (a + b)[..|a + b| - 1] == a + b';
      AuthorsAppend(a, b');
    }
  }

  /** When every element has both names, there is one author per element, in order. */
  lemma {:induction false} AuthorsAllComplete(elements: seq<AuthorElement>)
    requires forall j :: 0 <= j < |elements| ==> Complete(elements[j])
    ensures |Authors(elements)| == |elements|
    ensures forall j :: 0 <= j < |elements| ==> Authors(elements)[j] == AuthorName(elements[j])
    decreases |elements|
  {
    if elements != [] {
      var init := elements[..|elements| - 1];
      AuthorsAllComplete(init);
      assert Authors(elements) == Authors(init) + [AuthorName(elements[|elements| - 1])];
      forall j | 0 <= j < |elements|
        ensures Authors(elements)[j] == AuthorName(elements[j])
      {
        if j < |init| {
          assert init[j] == elements[j];
        }
      }
    }
  }

  // ---------------------------------------------------------------------------
  // Semantic Scholar enrichment

  /** A paper record is a dictionary. */
  type Paper = Fields

  /** The keys of `extra` that `paper` lacks are added, in `extra`'s order; a key the paper
      already has keeps its value. */
  function MergeMissing(paper: Paper, extra: Fields): (r: Paper)
    ensures Keys(r) == Keys(paper) + Keys(extra)
    ensures forall k :: HasKey(paper, k) ==> Get(r, k) == Get(paper, k)
    ensures forall k :: !HasKey(paper, k) ==> Get(r, k) == Get(extra, k)
    decreases |extra|
  {
    if extra == [] then paper
    else
      var (k, v) := extra[0];
      var paper' := if HasKey(paper, k) then paper else Put(paper, k, v);
      MergeMissing(paper', extra[1..])
  }

  /** The effect of one reply item on its paper: a non-empty object is merged, an empty or
      null one changes nothing. */
  function MergeItem(paper: Paper, item: Json): Paper {
    if item.JObj? && Truthy(item) then MergeMissing(paper, item.fields) else paper
  }

  /** An item that makes the loop raise: there is none at that index, or it is a truthy
      value without `.keys()`. */
  predicate Raises(reply: seq<Json>, i: nat) {
    i >= |reply| || (Truthy(reply[i]) && !reply[i].JObj?)
  }

  /** The index at which the merge loop raises, or `n` when it runs to the end. */
  function StopIndex(reply: seq<Json>, n: nat, from: nat): (s: nat)
    requires from <= n
    ensures from <= s <= n
    ensures s <= |reply| || s == from
    ensures forall i :: from <= i < s ==> !Raises(reply, i)
    ensures s < n ==> Raises(reply, s)
    decreases n - from
  {
    if from == n then n
    else if Raises(reply, from) then from
    else StopIndex(reply, n, from + 1)
  }

  /** `paper.update({"citationCount": None})` on every paper. */
  function ClearCitations(papers: seq<Paper>): (r: seq<Paper>)
    ensures |r| == |papers|
    ensures forall i :: 0 <= i < |r| ==> Get(r[i], "citationCount") == Some(JNull)
    ensures forall i, k :: 0 <= i < |r| && k != "citationCount" ==> Get(r[i], k) == Get(papers[i], k)
  {
    seq(|papers|, i requires 0 <= i < |papers| => Put(papers[i], "citationCount", JNull))
  }

  /** `fetch_semantic_scholar_details`. `reply` is the decoded batch reply, `None` when the
      request or its decoding fails or the reply is not a list. The papers before the item
      that raises have been merged in place when the exception handler sets every
      `citationCount` to `None`. */
  function Enrich(papers: seq<Paper>, reply: Option<seq<Json>>): (r: seq<Paper>)
    ensures |r| == |papers|
    ensures reply.None? ==> r == ClearCitations(papers)
    ensures reply.Some? && StopIndex(reply.value, |papers|, 0) == |papers| ==>
      forall i :: 0 <= i < |papers| ==> r[i] == MergeItem(papers[i], reply.value[i])
    ensures reply.Some? && StopIndex(reply.value, |papers|, 0) < |papers| ==>
      forall i :: 0 <= i < |papers| ==> Get(r[i], "citationCount") == Some(JNull)
  {
    match reply
    case None => ClearCitations(papers)
    case Some(items) =>
      var stop := StopIndex(items, |papers|, 0);
      var merged := seq(|papers|, i requires 0 <= i < |papers| =>
        if i < stop then MergeItem(papers[i], items[i]) else papers[i]);
      if stop < |papers| then ClearCitations(merged) else merged
  }

  /** Enrichment never overwrites: whatever the reply, each key a paper already had keeps
      its value, except `citationCount` when the handler runs. */
  lemma EnrichKeeps(papers: seq<Paper>, reply: Option<seq<Json>>, i: nat, k: string)
    requires i < |papers| && HasKey(papers[i], k)
    requires k != "citationCount" || (reply.Some? && StopIndex(reply.value, |papers|, 0) == |papers|)
    ensures Get(Enrich(papers, reply)[i], k) == Get(papers[i], k)
  {
    if reply.Some? {
      var stop := StopIndex(reply.value, |papers|, 0);
      var merged := seq(|papers|, j requires 0 <= j < |papers| =>
        if j < stop then MergeItem(papers[j], reply.value[j]) else papers[j]);
      assert Get(merged[i], k) == Get(papers[i], k);
    }
  }

  /** Every key a reply item brings that the paper lacked is added with the reply's value,
      when the whole reply is usable. */
  lemma EnrichAdds(papers: seq<Paper>, reply: seq<Json>, i: nat, k: string)
    requires i < |papers| && StopIndex(reply, |papers|, 0) == |papers|
    requires reply[i].JObj? && Truthy(reply[i])
    requires !HasKey(papers[i], k) && HasKey(reply[i].fields, k)
    ensures Get(Enrich(papers, Some(reply))[i], k) == Get(reply[i].fields, k)
  {
  }

  // ---------------------------------------------------------------------------
  // Output

  /** The author line: the first five names, then ` et al.` when there are more. */
  function AuthorLine(names: seq<string>): (r: string)
    ensures |names| <= MaxAuthorsShown ==> r == Join(names, ", ")
    ensures |names| > MaxAuthorsShown ==> r == Join(names[..MaxAuthorsShown], ", ") + " et al."
  {
    if |names| > MaxAuthorsShown then Join(names[..MaxAuthorsShown], ", ") + " et al."
    else Join(names, ", ")
  }

  /** Only the first five names and whether a sixth exists show in the line. */
  lemma AuthorLineSixEnough(names: seq<string>, more: seq<string>)
    requires |names| == MaxAuthorsShown + 1
    ensures AuthorLine(names + more) == AuthorLine(names)
  {
    assert (names + more)[..MaxAuthorsShown] == names[..MaxAuthorsShown];
  }

  /** Abstracts over 500 characters are cut to 500 and marked with `...`. */
  function Truncate(abs: string): (r: string)
    ensures |r| <= AbstractLimit + 3
    ensures |abs| <= AbstractLimit ==> r == abs
    ensures |abs| > AbstractLimit ==> |r| == AbstractLimit + 3 && StartsWith(r, abs[..AbstractLimit]) && EndsWith(r, "...")
  {
    if |abs| > AbstractLimit then abs[..AbstractLimit] + "..." else abs
  }

  /** A truncated abstract is truncated again to itself. */
  lemma TruncateIdempotent(abs: string)
    ensures Truncate(Truncate(abs)) == Truncate(abs)
  {
    if |abs| > AbstractLimit {
      var r := Truncate(abs);
      assert r[..AbstractLimit] == abs[..AbstractLimit];
      assert r[AbstractLimit..] == "...";
      assert r == r[..AbstractLimit] + r[AbstractLimit..];
    }
  }

  /** `paper.get(key, 'N/A')` as printed. */
  function Field(paper: Paper, key: string): string {
    match Get(paper, key)
    case Some(v) => Show(v)
    case None => "N/A"
  }

  /** `[a.get("name", "") for a in paper.get("authors", [])]`. In Python an author that is
      not an object has no `.get` and raises `AttributeError`; the model prints an empty name
      for it instead, and reads `authors` that are not a list as no authors. */
  function AuthorNames(paper: Paper): (names: seq<string>)
    ensures Get(paper, "authors").None? ==> names == []
    ensures Get(paper, "authors").Some? && Get(paper, "authors").value.JArr? ==>
      var items := Get(paper, "authors").value.items;
      && |names| == |items|
      && forall i :: 0 <= i < |items| && items[i].JObj? ==>
        names[i] == (if HasKey(items[i].fields, "name") then Show(Get(items[i].fields, "name").value) else "")
  {
    match Get(paper, "authors")
    case Some(JArr(items)) =>
      seq(|items|, i requires 0 <= i < |items| =>
        if items[i].JObj? then (match Get(items[i].fields, "name") case Some(v) => Show(v) case None => "") else "")
    case _ => []
  }

  /** The lines of one paper's entry; the abstract line only for a truthy abstract. */
  function PaperLines(n: nat, paper: Paper): (lines: seq<string>)
    ensures |lines| == 7 || |lines| == 8
    ensures lines[0] == Tag(NumberedId(IdPrefix, n)) + (" " + Field(paper, "title"))
    ensures |lines| == 8 <==> Get(paper, "abstract").Some? && Truthy(Get(paper, "abstract").value)
    ensures |lines| == 8 ==> lines[7] == "Abstract: " + Truncate(Show(Get(paper, "abstract").value))
  {
    var abs := Get(paper, "abstract");
    [Tag(NumberedId(IdPrefix, n)) + (" " + Field(paper, "title")),
     "Authors: " + AuthorLine(AuthorNames(paper)),
     "Year: " + Field(paper, "year"),
     "Venue: " + Field(paper, "venue"),
     "Citations: " + Field(paper, "citationCount"),
     "URL: " + Field(paper, "url"),
     "PMID: " + Field(paper, "paperId")]
    + (if abs.Some? && Truthy(abs.value) then ["Abstract: " + Truncate(Show(abs.value))] else [])
  }

  function PaperEntry(n: nat, paper: Paper): string {
    Join(PaperLines(n, paper), "\n") + "\n"
  }

  /** Each entry opens with its citation tag. */
  lemma PaperEntryTagged(n: nat, paper: Paper)
    ensures StartsWith(PaperEntry(n, paper), Tag(NumberedId(IdPrefix, n)))
  {
    var lines := PaperLines(n, paper);
    TaggedEntry(Tag(NumberedId(IdPrefix, n)), " " + Field(paper, "title"));
    JoinStartsWithHead(lines, "\n");
    var j := Join(lines, "\n");
    assert j[..|lines[0]|] == lines[0];
    assert StartsWith(j, Tag(NumberedId(IdPrefix, n)));
    PrefixOfConcat(j, "\n", Tag(NumberedId(IdPrefix, n)));
  }

  function Entries(papers: seq<Paper>): (es: seq<string>)
    ensures |es| == |papers|
    ensures forall i :: 0 <= i < |papers| ==> es[i] == PaperEntry(i + 1, papers[i])
  {
    seq(|papers|, i requires 0 <= i < |papers| => PaperEntry(i + 1, papers[i]))
  }

  const NoPapersHead: string := "No papers found. Total results: "
  const NoMatches: string := "No papers found matching the query."

  function Header(count: string, shown: nat): string {
    "Found " + count + " total results. Showing " + NatToString(shown) + " papers:\n\n"
  }

  /** `PubMedSearchTool.forward` once the requests are done: `count` is the reported total,
      `ids` the ids of the page and `papers` the enriched records fetched for them (the
      fetch only happens when `ids` is non-empty). */
  function Format(count: string, ids: seq<string>, papers: seq<Paper>): (r: string)
    ensures ids == [] ==> r == NoPapersHead + count
    ensures ids != [] && papers == [] ==> r == NoMatches
    ensures ids != [] && papers != [] ==>
      StartsWith(r, Header(count, |papers|)) && r[|Header(count, |papers|)|..] == Join(Entries(papers), "\n")
  {
    if ids == [] then NoPapersHead + count
    else if papers == [] then NoMatches
    else
      var h := Header(count, |papers|);
      var body := Join(Entries(papers), "\n");
      TaggedEntry(h, body);
      assert (h + body)[|h|..] == body;
      h + body
  }

  /** With results, the entry of the `n`-th paper opens with `[pubmed_<n>]`, and no two
      entries share an id. */
  lemma EntriesNumbered(papers: seq<Paper>, i: nat, j: nat)
    requires i < |papers| && j < |papers|
    ensures StartsWith(Entries(papers)[i], Tag(NumberedId(IdPrefix, i + 1)))
    ensures i != j ==> NumberedId(IdPrefix, i + 1) != NumberedId(IdPrefix, j + 1)
  {
    PaperEntryTagged(i + 1, papers[i]);
    if NumberedId(IdPrefix, i + 1) == NumberedId(IdPrefix, j + 1) {
      NumberedIdInjective(IdPrefix, i + 1, j + 1);
    }
  }
}

=== FILE: rejection.dfy ===
/** Rejection sampling of generated answers: the SQuAD-style token F1 between a prediction
    and the gold answer, and the acceptance decision that consults a judge only when the
    F1 falls short of the threshold. Scores are exact rationals (`real`). */
module Rejection {
  import opened Text

  /** Python's `string.punctuation`. */
  const Punctuation: string := "!\"#$%&'()*+,-./:;<=>?@[\\]^_`{|}~"
  const Articles: set<string> := {"a", "an", "the"}
  const DefaultThreshold: real := 0.9

  // ---------------------------------------------------------------------------
  // Normalisation

  /** The characters of `s` that are not in `exclude`, in order. */
  function Without(s: string, exclude: string): (r: string)
    ensures forall i :: 0 <= i < |r| ==> r[i] !in exclude && r[i] in s
    ensures forall i :: 0 <= i < |s| && s[i] !in exclude ==> s[i] in r
    ensures |r| <= |s|
    ensures forall c :: multiset(r)[c] == if c in exclude then 0 else multiset(s)[c]
  {
    if s == [] then []
    else
      var rest := Without(s[1..], exclude);
      assert forall c :: c in s[1..] ==> c in s;
      assert s == [s[0]] + s[1..];
      assert multiset(s) == multiset{s[0]} + multiset(s[1..]);
      if s[0] in exclude then rest
      else
        assert multiset([s[0]] + rest) == multiset{s[0]} + multiset(rest);
        [s[0]] + rest
  }

  /** Removal works character by character: it distributes over concatenation. */
  lemma {:induction false} WithoutAppend(a: string, b: string, exclude: string)
    ensures Without(a + b, exclude) == Without(a, exclude) + Without(b, exclude)
  {
    if a == [] {
      assert a + b == b;
    } else {
      assert (a + b)[0] == a[0];
      assert (a + b)[1..] == a[1..] + b;
      WithoutAppend(a[1..], b, exclude);
    }
  }

  /** `remove_punc`: every punctuation character dropped, the rest kept in order. */
  function RemovePunctuation(s: string): (r: string)
    ensures forall i :: 0 <= i < |r| ==> r[i] !in Punctuation && r[i] in s
    ensures forall i :: 0 <= i < |s| && s[i] !in Punctuation ==> s[i] in r
    ensures |r| <= |s|
    ensures forall c :: multiset(r)[c] == if c in Punctuation then 0 else multiset(s)[c]
  {
    Without(s, Punctuation)
  }

  /** Punctuation is removed character by character: the text can be split anywhere, so
      the kept characters stay in their order. */
  lemma RemovePunctuationAppend(a: string, b: string)
    ensures RemovePunctuation(a + b) == RemovePunctuation(a) + RemovePunctuation(b)
  {
    WithoutAppend(a, b, Punctuation);
  }

  /** One character is kept exactly when it is not punctuation. */
  lemma RemovePunctuationChar(c: char)
    ensures RemovePunctuation([c]) == if c in Punctuation then [] else [c]
  {
    assert [c][1..] == [];
  }

  /** A text without punctuation passes unchanged. */
  lemma {:induction false} RemovePunctuationKeeps(s: string)
    requires forall i :: 0 <= i < |s| ==> s[i] !in Punctuation
    ensures RemovePunctuation(s) == s
  {
    if s != [] {
      RemovePunctuationKeeps(s[1..]);
    }
  }

  /** The articles removed, the other words kept in order. */
  function DropArticles(ws: seq<string>): (r: seq<string>)
    ensures forall i :: 0 <= i < |r| ==> r[i] !in Articles && r[i] in ws
    ensures forall i :: 0 <= i < |ws| && ws[i] !in Articles ==> ws[i] in r
    ensures forall w :: multiset(r)[w] == if w in Articles then 0 else multiset(ws)[w]
  {
    if ws == [] then []
    else
      var rest := DropArticles(ws[1..]);
      assert forall w :: w in ws[1..] ==> w in ws;
      assert ws == [ws[0]] + ws[1..];
      if ws[0] in Articles then rest else [ws[0]] + rest
  }

  /** A list without articles passes unchanged. */
  lemma {:induction false} DropArticlesKeeps(ws: seq<string>)
    requires forall i :: 0 <= i < |ws| ==> ws[i] !in Articles
    ensures DropArticles(ws) == ws
  {
    if ws != [] {
      DropArticlesKeeps(ws[1..]);
    }
  }

  /** Dropping articles works word by word: the list can be split anywhere. */
  lemma {:induction false} DropArticlesAppend(a: seq<string>, b: seq<string>)
    ensures DropArticles(a + b) == DropArticles(a) + DropArticles(b)
  {
    if a == [] {
      assert a + b == b;
    } else {
      assert (a + b)[0] == a[0];
      assert (a + b)[1..] == a[1..] + b;
      DropArticlesAppend(a[1..], b);
    }
  }

  /** The tokens of `normalize_answer(s).split()`: the words of the lower-cased text without
      punctuation, articles left out. */
  function Tokens(s: string): (ts: seq<string>)
    ensures forall i :: 0 <= i < |ts| ==> |ts[i]| > 0 && NoSpace(ts[i]) && ts[i] !in Articles
    ensures forall w :: w in ts <==> w in Words(RemovePunctuation(Lower(s))) && w !in Articles
    ensures forall w :: multiset(ts)[w] == if w in Articles then 0 else multiset(Words(RemovePunctuation(Lower(s))))[w]
  {
    DropArticles(Words(RemovePunctuation(Lower(s))))
  }

  /** `normalize_answer`: the tokens joined with single spaces. */
  function Normalize(s: string): string {
    Join(Tokens(s), " ")
  }

  /** Splitting the normalised text gives back the tokens. */
  lemma NormalizeSplits(s: string)
    ensures Words(Normalize(s)) == Tokens(s)
  {
    WordsJoin(Tokens(s));
  }

  /** A character normalisation leaves as it is: lower case and no punctuation. */
  predicate Settled(c: char) {
    LowerChar(c) == c && c !in Punctuation
  }

  /** Every character of every token is settled. */
  lemma TokensSettled(s: string)
    ensures forall i, k :: 0 <= i < |Tokens(s)| && 0 <= k < |Tokens(s)[i]| ==> Settled(Tokens(s)[i][k])
  {
    var l := Lower(s);
    var p := RemovePunctuation(l);
    forall c | c in p
      ensures Settled(c)
    {
      var j :| 0 <= j < |l| && l[j] == c;
    }
    WordsChars(p);
  }

  /** The words of a text are made of its characters. */
  lemma {:induction false} WordsChars(s: string)
    ensures forall i, k :: 0 <= i < |Words(s)| && 0 <= k < |Words(s)[i]| ==> Words(s)[i][k] in s
    decreases |s|
  {
    var m := LeadingSpaces(s);
    var t := s[m..];
    if |t| > 0 {
      var n := WordLength(t);
      assert Words(s) == [t[..n]] + Words(t[n..]);
      WordsChars(t[n..]);
      CharsCons(s, m, n, Words(t[n..]));
    }
  }

  /** A word taken from a suffix of `s`, followed by words made of a later suffix's
      characters, is made of characters of `s`. */
  lemma CharsCons(s: string, m: nat, n: nat, rest: seq<string>)
    requires m + n <= |s|
    requires forall i, k :: 0 <= i < |rest| && 0 <= k < |rest[i]| ==> rest[i][k] in s[m + n..]
    ensures var ws := [s[m..][..n]] + rest;
      forall i, k :: 0 <= i < |ws| && 0 <= k < |ws[i]| ==> ws[i][k] in s
  {
    var ws := [s[m..][..n]] + rest;
    forall i, k | 0 <= i < |ws| && 0 <= k < |ws[i]|
      ensures ws[i][k] in s
    {
      if i == 0 {
        assert ws[0][k] == s[m + k];
      } else {
        var c := rest[i - 1][k];
        var j :| 0 <= j < |s[m + n..]| && s[m + n..][j] == c;
        assert s[m + n + j] == c;
      }
    }
  }

  /** Every character of a space-joined list is a space or a character of one of the words. */
  lemma {:induction false} JoinChars(ws: seq<string>, c: char)
    requires c in Join(ws, " ")
    ensures c == ' ' || exists i, k :: 0 <= i < |ws| && 0 <= k < |ws[i]| && ws[i][k] == c
  {
    if |ws| == 1 {
      assert Join(ws, " ") == ws[0];
      var k :| 0 <= k < |ws[0]| && ws[0][k] == c;
    } else if |ws| > 1 {
      assert Join(ws, " ") == ws[0] + " " + Join(ws[1..], " ");
      if c in ws[0] {
        var k :| 0 <= k < |ws[0]| && ws[0][k] == c;
      } else if c != ' ' {
        assert c in Join(ws[1..], " ");
        JoinChars(ws[1..], c);
        var i, k :| 0 <= i < |ws[1..]| && 0 <= k < |ws[1..][i]| && ws[1..][i][k] == c;
        assert ws[i + 1][k] == c;
      }
    }
  }

  /** Every character of a normalised text is settled. */
  lemma NormalizeSettled(s: string)
    ensures forall i :: 0 <= i < |Normalize(s)| ==> Settled(Normalize(s)[i])
  {
    TokensSettled(s);
    JoinSettled(Tokens(s));
  }

  /** Settled words joined with spaces give a settled text. */
  lemma JoinSettled(ts: seq<string>)
    requires forall a, b :: 0 <= a < |ts| && 0 <= b < |ts[a]| ==> Settled(ts[a][b])
    ensures forall i :: 0 <= i < |Join(ts, " ")| ==> Settled(Join(ts, " ")[i])
  {
    var n := Join(ts, " ");
    forall i | 0 <= i < |n|
      ensures Settled(n[i])
    {
      JoinChars(ts, n[i]);
    }
  }

  /** Normalising a normalised text changes nothing. */
  lemma NormalizeIdempotent(s: string)
    ensures Normalize(Normalize(s)) == Normalize(s)
  {
    var ts := Tokens(s);
    var n := Normalize(s);
    NormalizeSettled(s);
    assert Lower(n) == n;
    RemovePunctuationKeeps(n);
    WordsJoin(ts);
    DropArticlesKeeps(ts);
  }

  // ---------------------------------------------------------------------------
  // Token F1

  /** `sum((Counter(p) & Counter(g)).values())`: how many tokens the lists share, counted
      with multiplicity. */
  function Overlap(p: seq<string>, g: seq<string>): nat {
    |multiset(p) * multiset(g)|
  }

  /** A sub-multiset is no larger. */
  lemma SubMultisetSize<T>(a: multiset<T>, b: multiset<T>)
    requires a <= b
    ensures |a| <= |b|
  {
    assert b == a + (b - a);
  }

  /** The lists share no more tokens than either holds. */
  lemma OverlapBound(p: seq<string>, g: seq<string>)
    ensures Overlap(p, g) <= |p| && Overlap(p, g) <= |g|
  {
    SubMultisetSize(multiset(p) * multiset(g), multiset(p));
    SubMultisetSize(multiset(p) * multiset(g), multiset(g));
  }

  /** `get_f1_overlap_score` on token lists: no shared token scores 0; otherwise the
      harmonic mean of precision and recall. */
  function F1(p: seq<string>, g: seq<string>): (f: real)
    ensures Overlap(p, g) == 0 ==> f == 0.0
    ensures Overlap(p, g) > 0 ==> f == 2.0 * Overlap(p, g) as real / (|p| + |g|) as real
  {
    var n := Overlap(p, g);
    if n == 0 then 0.0
    else
      OverlapBound(p, g);
      var precision := if |p| > 0 then n as real / |p| as real else 0.0;
      var recall := if |g| > 0 then n as real / |g| as real else 0.0;
      HarmonicMean(n as real, |p| as real, |g| as real);
      if precision + recall != 0.0 then (2.0 * precision * recall) / (precision + recall) else 0.0
  }

  /** The harmonic mean of `n/a` and `n/b` is `2n/(a+b)`. */
  lemma HarmonicMean(n: real, a: real, b: real)
    requires n > 0.0 && a > 0.0 && b > 0.0
    ensures n / a + n / b != 0.0
    ensures (2.0 * (n / a) * (n / b)) / (n / a + n / b) == 2.0 * n / (a + b)
  {
    var p, r := n / a, n / b;
    assert p * a == n && r * b == n;
    assert p > 0.0 && r > 0.0;
    assert (p + r) * (a * b) == n * (a + b) by {
      assert (p + r) * (a * b) == (p * a) * b + (r * b) * a;
    }
    assert 2.0 * p * r * (a * b) == 2.0 * n * n by {
      assert 2.0 * p * r * (a * b) == 2.0 * (p * a) * (r * b);
    }
    var lhs := (2.0 * p * r) / (p + r);
    assert lhs * (p + r) == 2.0 * p * r;
    assert lhs * n * (a + b) == 2.0 * n * n by {
      assert lhs * n * (a + b) == lhs * ((p + r) * (a * b));
      assert lhs * ((p + r) * (a * b)) == (lhs * (p + r)) * (a * b);
    }
    assert lhs * (a + b) == 2.0 * n;
  }

  /** The score lies between 0 and 1. */
  lemma F1Bounds(p: seq<string>, g: seq<string>)
    ensures 0.0 <= F1(p, g) <= 1.0
  {
    OverlapBound(p, g);
    var n := Overlap(p, g);
    if n > 0 {
      RatioAtMostOne(2.0 * n as real, (|p| + |g|) as real);
    }
  }

  lemma RatioAtMostOne(x: real, d: real)
    requires 0.0 <= x <= d && d > 0.0
    ensures 0.0 <= x / d <= 1.0
  {
    assert (x / d) * d == x;
  }

  /** Swapping prediction and gold does not change the score. */
  lemma F1Symmetric(p: seq<string>, g: seq<string>)
    ensures F1(p, g) == F1(g, p)
  {
    assert multiset(p) * multiset(g) == multiset(g) * multiset(p);
  }

  /** A non-empty list scored against itself gets full marks. */
  lemma F1Identical(p: seq<string>)
    requires |p| > 0
    ensures F1(p, p) == 1.0
  {
    assert multiset(p) * multiset(p) == multiset(p);
  }

  /** The F1 of two answers, over their normalised tokens. */
  function Score(prediction: string, gold: string): real {
    F1(Words(Normalize(prediction)), Words(Normalize(gold)))
  }

  /** Answers with the same non-empty normalisation score 1. */
  lemma SameNormalisationScoresOne(prediction: string, gold: string)
    requires Normalize(prediction) == Normalize(gold)
    requires Tokens(prediction) != []
    ensures Score(prediction, gold) == 1.0
  {
    NormalizeSplits(prediction);
    F1Identical(Tokens(prediction));
  }

  // ---------------------------------------------------------------------------
  // Acceptance

  /** `check_answer_correctness`: a score at the threshold or above accepts at once; below
      it the judge's reply decides, and only a reply that lower-cases to `a` accepts. */
  function CheckAnswer(score: real, threshold: real, reply: string): (r: bool)
    ensures score >= threshold ==> r
    ensures score < threshold ==> (r <==> reply == "a" || reply == "A")
  {
    JudgeSaysA(reply);
    if score < threshold then Lower(reply) == "a" else true
  }

  /** The replies that lower-case to `a` are `a` and `A`. */
  lemma JudgeSaysA(reply: string)
    ensures Lower(reply) == "a" <==> reply == "a" || reply == "A"
  {
    if Lower(reply) == "a" {
      assert LowerChar(reply[0]) == 'a';
    }
  }

  /** The whole check on a prediction and a target. */
  function Check(prediction: string, target: string, threshold: real, reply: string): (r: bool)
    ensures Score(prediction, target) >= threshold ==> r
  {
    CheckAnswer(Score(prediction, target), threshold, reply)
  }

  /** A prediction that normalises to the target is accepted whatever the judge says, for
      any threshold up to 1. */
  lemma ExactMatchAccepted(prediction: string, target: string, threshold: real, reply: string)
    requires Normalize(prediction) == Normalize(target) && Tokens(prediction) != []
    requires threshold <= 1.0
    ensures Check(prediction, target, threshold, reply)
  {
    SameNormalisationScoresOne(prediction, target);
  }
}

=== FILE: semantic_scholar.dfy ===
/** The Semantic Scholar paper and snippet search tools: the query parameters they send and
    the PDF links the paper search fills in from ArXiv and ACL ids. The request is not
    modelled; the reply is an input. */
module SemanticScholar {
  import opened Wrappers
  import opened Text
  import opened JsonValues
  import opened Http

  const MaxLimit: int := 100
  const PaperSearchFields: string := "paperId,corpusId,url,title,abstract,authors,authors.name,year,venue,citationCount,openAccessPdf,externalIds,isOpenAccess"
  const ArxivPdfPrefix: string := "https://arxiv.org/pdf/"
  const AclPdfPrefix: string := "https://www.aclweb.org/anthology/"

  /** `if v is not None: params[key] = v`. */
  function PutIfGiven(params: Fields, key: string, v: Option<Json>): (r: Fields)
    ensures Get(r, key) == (if v.Some? then v else Get(params, key))
    ensures forall k :: k != key ==> Get(r, k) == Get(params, k)
    ensures DistinctKeys(params) ==> DistinctKeys(r)
  {
    if v.Some? then Put(params, key, v.value) else params
  }

  function StrArg(v: Option<string>): (r: Option<Json>)
    ensures r.Some? <==> v.Some?
    ensures v.Some? ==> r == Some(JStr(v.value))
  {
    if v.Some? then Some(JStr(v.value)) else None
  }

  function IntArg(v: Option<int>): (r: Option<Json>)
    ensures r.Some? <==> v.Some?
    ensures v.Some? ==> r == Some(JInt(v.value))
  {
    if v.Some? then Some(JInt(v.value)) else None
  }

  /** The four parameters every paper search sends. */
  function PaperSearchBase(query: string, limit: int): (r: Fields)
    ensures Get(r, "query") == Some(JStr(query)) && Get(r, "offset") == Some(JInt(0))
    ensures Get(r, "limit") == Some(JInt(if limit < MaxLimit then limit else MaxLimit))
    ensures Get(r, "fields") == Some(JStr(PaperSearchFields))
    ensures Get(r, "year").None? && Get(r, "minCitationCount").None? && Get(r, "sort").None? && Get(r, "venue").None?
    ensures DistinctKeys(r)
  {
    var p0 := Put([], "query", JStr(query));
    var p1 := Put(p0, "offset", JInt(0));
    var p2 := Put(p1, "limit", JInt(if limit < MaxLimit then limit else MaxLimit));
    Put(p2, "fields", JStr(PaperSearchFields))
  }

  /** The optional filters of the paper search, each added only when given. */
  function PaperSearchFilters(params: Fields, year: Option<string>, minCitationCount: Option<int>,
                              sort: Option<string>, venue: Option<string>): (r: Fields)
    ensures Get(r, "year") == (if year.Some? then StrArg(year) else Get(params, "year"))
    ensures Get(r, "minCitationCount") == (if minCitationCount.Some? then IntArg(minCitationCount) else Get(params, "minCitationCount"))
    ensures Get(r, "sort") == (if sort.Some? then StrArg(sort) else Get(params, "sort"))
    ensures Get(r, "venue") == (if venue.Some? then StrArg(venue) else Get(params, "venue"))
    ensures forall k :: k != "year" && k != "minCitationCount" && k != "sort" && k != "venue" ==> Get(r, k) == Get(params, k)
    ensures DistinctKeys(params) ==> DistinctKeys(r)
  {
    var p4 := PutIfGiven(params, "year", StrArg(year));
    var p5 := PutIfGiven(p4, "minCitationCount", IntArg(minCitationCount));
    var p6 := PutIfGiven(p5, "sort", StrArg(sort));
    var r := PutIfGiven(p6, "venue", StrArg(venue));
    assert Get(r, "year") == Get(p4, "year");
    assert Get(r, "minCitationCount") == Get(p5, "minCitationCount");
    assert Get(r, "sort") == Get(p6, "sort");
    r
  }

  /** The query parameters of the paper search: the fixed four, the limit capped at 100,
      then each filter only when it is given. */
  function PaperSearchParams(query: string, year: Option<string>, minCitationCount: Option<int>,
                             sort: Option<string>, venue: Option<string>, limit: int): (r: Fields)
    ensures Get(r, "query") == Some(JStr(query)) && Get(r, "offset") == Some(JInt(0))
    ensures Get(r, "limit") == Some(JInt(if limit < MaxLimit then limit else MaxLimit))
    ensures Get(r, "fields") == Some(JStr(PaperSearchFields))
    ensures Get(r, "year") == StrArg(year) && Get(r, "minCitationCount") == IntArg(minCitationCount)
    ensures Get(r, "sort") == StrArg(sort) && Get(r, "venue") == StrArg(venue)
    ensures DistinctKeys(r)
  {
    PaperSearchFilters(PaperSearchBase(query, limit), year, minCitationCount, sort, venue)
  }

  // ---------------------------------------------------------------------------
  // Snippet search

  /** Each id with its surrounding whitespace removed. */
  function StripAll(parts: seq<string>): (r: seq<string>)
    ensures |r| == |parts|
    ensures forall i :: 0 <= i < |parts| ==> r[i] == Strip(parts[i])
  {
    seq(|parts|, i requires 0 <= i < |parts| => Strip(parts[i]))
  }

  /** `",".join(pid.strip() for pid in paper_ids.split(","))`: splitting the result at commas
      gives back the original pieces, each stripped. */
  function NormalizeIds(ids: string): (r: string)
    ensures Split(r, ",") == StripAll(Split(ids, ","))
  {
    var stripped := StripAll(Split(ids, ","));
    forall i | 0 <= i < |stripped| ensures !Contains(stripped[i], ",") {
      NotContainsStrip(Split(ids, ",")[i], ",");
    }
    SplitJoinChar(stripped, ',');
    Join(stripped, ",")
  }

  /** Normalising twice gives the same ids as normalising once. */
  lemma NormalizeIdsIdempotent(ids: string)
    ensures NormalizeIds(NormalizeIds(ids)) == NormalizeIds(ids)
  {
    var parts := StripAll(Split(ids, ","));
    forall i | 0 <= i < |parts| ensures StripAll(parts)[i] == parts[i] {
      StripIdempotent(Split(ids, ",")[i]);
    }
    assert StripAll(parts) == parts;
  }

  /** The query parameters of the snippet search; the paper ids are sent normalised. */
  function SnippetSearchParams(query: string, year: Option<string>, paperIds: Option<string>,
                               venue: Option<string>, limit: int): (r: Fields)
    ensures Get(r, "query") == Some(JStr(query)) && Get(r, "limit") == Some(JInt(limit))
    ensures Get(r, "year") == StrArg(year) && Get(r, "venue") == StrArg(venue)
    ensures paperIds.None? ==> Get(r, "paperIds").None?
    ensures paperIds.Some? ==> Get(r, "paperIds") == Some(JStr(NormalizeIds(paperIds.value)))
    ensures DistinctKeys(r)
  {
    var p0 := Put([], "query", JStr(query));
    var base := Put(p0, "limit", JInt(limit));
    assert Get(base, "year").None? && Get(base, "venue").None? && Get(base, "paperIds").None?;
    SnippetSearchFilters(base, year, paperIds, venue)
  }

  /** The optional filters of the snippet search, each added only when given. */
  function SnippetSearchFilters(params: Fields, year: Option<string>, paperIds: Option<string>,
                                venue: Option<string>): (r: Fields)
    ensures Get(r, "year") == (if year.Some? then StrArg(year) else Get(params, "year"))
    ensures Get(r, "venue") == (if venue.Some? then StrArg(venue) else Get(params, "venue"))
    ensures Get(r, "paperIds") == (if paperIds.Some? then Some(JStr(NormalizeIds(paperIds.value))) else Get(params, "paperIds"))
    ensures forall k :: k != "year" && k != "venue" && k != "paperIds" ==> Get(r, k) == Get(params, k)
    ensures DistinctKeys(params) ==> DistinctKeys(r)
  {
    var ids := if paperIds.Some? then Some(JStr(NormalizeIds(paperIds.value))) else None;
    var p2 := PutIfGiven(params, "year", StrArg(year));
    var p3 := PutIfGiven(p2, "venue", StrArg(venue));
    var r := PutIfGiven(p3, "paperIds", ids);
    assert Get(r, "year") == Get(p3, "year") == Get(p2, "year");
    assert Get(r, "venue") == Get(p3, "venue");
    r
  }

  // ---------------------------------------------------------------------------
  // PDF links

  /** `{"url": url}`. */
  function PdfLink(url: string): Json {
    JObj([("url", JStr(url))])
  }

  /** The link a paper without an open-access PDF receives: from its ArXiv id, else from its
      ACL id, else none. */
  function DerivedPdf(paper: Fields): (r: Option<Json>)
    ensures r.Some? ==> Get(paper, "externalIds").Some? && Get(paper, "externalIds").value.JObj?
    ensures var e := Get(paper, "externalIds");
      e.Some? && e.value.JObj? && HasKey(e.value.fields, "ArXiv") ==>
        r == Some(PdfLink(ArxivPdfPrefix + Show(Get(e.value.fields, "ArXiv").value)))
    ensures var e := Get(paper, "externalIds");
      e.Some? && e.value.JObj? && !HasKey(e.value.fields, "ArXiv") && HasKey(e.value.fields, "ACL") ==>
        r == Some(PdfLink(AclPdfPrefix + Show(Get(e.value.fields, "ACL").value) + ".pdf"))
    ensures var e := Get(paper, "externalIds");
      e.Some? && e.value.JObj? && !HasKey(e.value.fields, "ArXiv") && !HasKey(e.value.fields, "ACL") ==>
        r.None?
  {
    match Get(paper, "externalIds")
    case Some(JObj(ids)) =>
      if !Truthy(JObj(ids)) then None
      else if HasKey(ids, "ArXiv") then Some(PdfLink(ArxivPdfPrefix + Show(Get(ids, "ArXiv").value)))
      else if HasKey(ids, "ACL") then Some(PdfLink(AclPdfPrefix + Show(Get(ids, "ACL").value) + ".pdf"))
      else None
    case _ => None
  }

  /** `paper.get("openAccessPdf") is None`: missing or null. */
  predicate LacksPdf(paper: Fields) {
    Get(paper, "openAccessPdf").None? || Get(paper, "openAccessPdf") == Some(JNull)
  }

  /** One paper of the reply: a missing PDF is filled in when an id allows it; a paper that
      has one is left as it is. Only `openAccessPdf` can change. */
  function FillPdf(paper: Fields): (r: Fields)
    ensures !LacksPdf(paper) ==> r == paper
    ensures LacksPdf(paper) && DerivedPdf(paper).Some? ==> Get(r, "openAccessPdf") == DerivedPdf(paper)
    ensures LacksPdf(paper) && DerivedPdf(paper).None? ==> r == paper
    ensures forall k :: k != "openAccessPdf" ==> Get(r, k) == Get(paper, k)
  {
    if LacksPdf(paper) && DerivedPdf(paper).Some? then Put(paper, "openAccessPdf", DerivedPdf(paper).value)
    else paper
  }

  /** ArXiv wins over ACL when a paper has both ids. */
  lemma ArxivFirst(paper: Fields, ids: Fields)
    requires Get(paper, "externalIds") == Some(JObj(ids))
    requires HasKey(ids, "ArXiv") && HasKey(ids, "ACL")
    requires LacksPdf(paper)
    ensures Get(FillPdf(paper), "openAccessPdf") == Some(PdfLink(ArxivPdfPrefix + Show(Get(ids, "ArXiv").value)))
  {
    assert |ids| > 0;
  }

  /** A paper with a PDF keeps it: filling is idempotent. */
  lemma FillPdfIdempotent(paper: Fields)
    ensures FillPdf(FillPdf(paper)) == FillPdf(paper)
  {
    if LacksPdf(paper) && DerivedPdf(paper).Some? {
      assert Get(FillPdf(paper), "openAccessPdf") == DerivedPdf(paper);
      assert !LacksPdf(FillPdf(paper));
    }
  }

  predicate AllObjects(items: seq<Json>) {
    forall i :: 0 <= i < |items| ==> items[i].JObj?
  }

  /** Every paper of the list filled in, in order. */
  function FillPapers(items: seq<Json>): (r: seq<Json>)
    requires AllObjects(items)
    ensures |r| == |items|
    ensures forall i :: 0 <= i < |items| ==> r[i].JObj? && r[i].fields == FillPdf(items[i].fields)
  {
    seq(|items|, i requires 0 <= i < |items| => JObj(FillPdf(items[i].fields)))
  }

  /** Filling the list twice changes nothing more. */
  lemma FillPapersIdempotent(items: seq<Json>)
    requires AllObjects(items)
    ensures AllObjects(FillPapers(items)) && FillPapers(FillPapers(items)) == FillPapers(items)
  {
    var once := FillPapers(items);
    forall i | 0 <= i < |items| ensures FillPapers(once)[i] == once[i] {
      FillPdfIdempotent(items[i].fields);
    }
  }

  /** `SemanticScholarPaperSearchTool.forward` after the request. A reply without `data`
      gets an empty list; otherwise every paper is filled in. Papers that are not objects and
      a `data` that is not a list are rejected, as the loop would raise on them. */
  function PaperSearchResult(reply: Reply): (r: Result<Fields, string>)
    ensures Checked(reply).Err? ==> r.Err?
    ensures r.Ok? ==> Checked(reply).Ok? && Checked(reply).value.JObj?
    ensures r.Ok? && !HasKey(Checked(reply).value.fields, "data") ==>
      r.value == Put(Checked(reply).value.fields, "data", JArr([]))
    ensures r.Ok? && HasKey(Checked(reply).value.fields, "data") ==>
      var papers := Get(Checked(reply).value.fields, "data").value;
      papers.JArr? && AllObjects(papers.items) &&
      r.value == Put(Checked(reply).value.fields, "data", JArr(FillPapers(papers.items)))
    ensures Checked(reply).Ok? && Checked(reply).value.JObj? && HasKey(Checked(reply).value.fields, "data") ==>
      var papers := Get(Checked(reply).value.fields, "data").value;
      (r.Ok? <==> papers.JArr? && AllObjects(papers.items))
  {
    var results :- Checked(reply);
    if !results.JObj? then Err("TypeError: reply is not an object")
    else
      match Get(results.fields, "data")
      case None => Ok(Put(results.fields, "data", JArr([])))
      case Some(data) =>
        if !data.JArr? then Err("TypeError: data is not a list of papers")
        else if !AllObjects(data.items) then Err("AttributeError: paper has no attribute 'get'")
        else Ok(Put(results.fields, "data", JArr(FillPapers(data.items))))
  }
}

=== FILE: serper.dfy ===
/** The text `SerperSearchTool.forward` builds from a Serper response: an answer-box entry,
    a knowledge-graph entry and one entry per organic result, each headed by the citation id
    `[serper_answer]`, `[serper_kg]` or `[serper_<n>]`. The HTTP request is not modelled; the
    parsed response is the input. An absent key is `None`. */
module Serper {
  import opened Wrappers
  import opened Text
  import opened Citations

  const NoResults: string := "No results found."
  const AnswerId: string := "serper_answer"
  const GraphId: string := "serper_kg"

  datatype AnswerBox = AnswerBox(title: Option<string>, answer: Option<string>, snippet: Option<string>, link: Option<string>)

  /** The knowledge graph; `attributes` keeps the key order of the response. */
  datatype KnowledgeGraph = KnowledgeGraph(
    title: Option<string>, kind: Option<string>, description: Option<string>,
    website: Option<string>, attributes: seq<(string, string)>)

  datatype Organic = Organic(title: Option<string>, link: Option<string>, snippet: Option<string>)

  datatype Response = Response(answerBox: Option<AnswerBox>, knowledgeGraph: Option<KnowledgeGraph>, organic: Option<seq<Organic>>)

  /** A Python string is truthy when present and non-empty. */
  predicate Truthy(v: Option<string>) {
    v.Some? && v.value != ""
  }

  /** `ab.get("answer", "") or ab.get("snippet", "")`. */
  function AnswerText(ab: AnswerBox): (r: string)
    ensures Truthy(ab.answer) ==> r == ab.answer.value
    ensures !Truthy(ab.answer) ==> r == ab.snippet.GetOr("")
  {
    if Truthy(ab.answer) then ab.answer.value else ab.snippet.GetOr("")
  }

  function OrganicId(n: nat): string {
    NumberedId("serper_", n)
  }

  function AnswerEntry(ab: AnswerBox): string {
    Tag(AnswerId) + AnswerBody(ab)
  }

  function AnswerBody(ab: AnswerBox): string {
    " Answer Box: " + ab.title.GetOr("Direct Answer") + "\n"
      + "Answer: " + AnswerText(ab) + "\n"
      + "URL: " + ab.link.GetOr("N/A") + "\n"
  }

  /** One optional knowledge-graph line, present only for a truthy value. */
  function OptionalLine(key: string, v: Option<string>): (r: seq<string>)
    ensures |r| <= 1
    ensures r != [] <==> Truthy(v)
    ensures r != [] ==> r[0] == key + ": " + v.value
  {
    if Truthy(v) then [key + ": " + v.value] else []
  }

  function AttributeLines(attrs: seq<(string, string)>): (r: seq<string>)
    ensures |r| == |attrs|
    ensures forall i :: 0 <= i < |attrs| ==> r[i] == attrs[i].0 + ": " + attrs[i].1
  {
    seq(|attrs|, i requires 0 <= i < |attrs| => attrs[i].0 + ": " + attrs[i].1)
  }

  /** The lines of the knowledge-graph entry: the head, then Type, Description and URL when
      truthy, then every attribute in order. */
  function GraphLines(kg: KnowledgeGraph): (r: seq<string>)
    ensures |r| >= 1 && r[0] == Tag(GraphId) + (" Knowledge Graph: " + kg.title.GetOr("N/A"))
    ensures |r| == 1 + |OptionalLine("Type", kg.kind)| + |OptionalLine("Description", kg.description)|
      + |OptionalLine("URL", kg.website)| + |kg.attributes|
    ensures forall i :: 0 <= i < |kg.attributes| ==>
      r[|r| - |kg.attributes| + i] == kg.attributes[i].0 + ": " + kg.attributes[i].1
    ensures r[1..|r| - |kg.attributes|] ==
      OptionalLine("Type", kg.kind) + OptionalLine("Description", kg.description) + OptionalLine("URL", kg.website)
  {
    var head := [Tag(GraphId) + (" Knowledge Graph: " + kg.title.GetOr("N/A"))];
    var t := OptionalLine("Type", kg.kind);
    var d := OptionalLine("Description", kg.description);
    var u := OptionalLine("URL", kg.website);
    var a := AttributeLines(kg.attributes);
    var r := head + t + d + u + a;
    assert r[1..|r| - |a|] == t + d + u;
    r
  }

  /** The optional lines of the knowledge graph differ in their first character, so each
      is among them exactly when its value is truthy. */
  lemma FirstChars(t: seq<string>, d: seq<string>, u: seq<string>, kg: KnowledgeGraph)
    requires t == OptionalLine("Type", kg.kind)
    requires d == OptionalLine("Description", kg.description)
    requires u == OptionalLine("URL", kg.website)
    ensures Truthy(kg.kind) <==> "Type: " + kg.kind.GetOr("") in t + d + u
    ensures Truthy(kg.description) <==> "Description: " + kg.description.GetOr("") in t + d + u
    ensures Truthy(kg.website) <==> "URL: " + kg.website.GetOr("") in t + d + u
  {
    var x, y, z := "Type: " + kg.kind.GetOr(""), "Description: " + kg.description.GetOr(""), "URL: " + kg.website.GetOr("");
    assert x[0] == 'T' && y[0] == 'D' && z[0] == 'U';
    assert "Type" + ": " == "Type: " && "Description" + ": " == "Description: " && "URL" + ": " == "URL: ";
    OtherHead(x, d + u);
    OtherHead(y, t + u);
    OtherHead(z, t + d);
  }

  /** A line whose first character no line of `ls` starts with is not among them. */
  lemma OtherHead(x: string, ls: seq<string>)
    requires |x| > 0
    requires forall w :: w in ls ==> |w| > 0 && w[0] != x[0]
    ensures x !in ls
  {
  }

  function GraphEntry(kg: KnowledgeGraph): string {
    Join(GraphLines(kg), "\n") + "\n"
  }

  /** The entry of the organic result numbered `n` (from 1). */
  function OrganicEntry(n: nat, o: Organic): string {
    Tag(OrganicId(n)) + OrganicBody(o)
  }

  function OrganicBody(o: Organic): string {
    " " + o.title.GetOr("N/A") + "\n"
      + "URL: " + o.link.GetOr("N/A") + "\n"
      + "Snippet: " + o.snippet.GetOr("N/A") + "\n"
  }

  function OrganicEntries(os: seq<Organic>): (r: seq<string>)
    ensures |r| == |os|
    ensures forall i :: 0 <= i < |os| ==> r[i] == OrganicEntry(i + 1, os[i])
  {
    seq(|os|, i requires 0 <= i < |os| => OrganicEntry(i + 1, os[i]))
  }

  /** The entries in output order: answer box, knowledge graph, organic results. */
  function Entries(d: Response): seq<string> {
    FrontEntries(d) + OrganicEntries(d.organic.GetOr([]))
  }

  /** The answer-box and knowledge-graph entries, each when present. */
  function FrontEntries(d: Response): seq<string> {
    (if d.answerBox.Some? then [AnswerEntry(d.answerBox.value)] else [])
      + (if d.knowledgeGraph.Some? then [GraphEntry(d.knowledgeGraph.value)] else [])
  }

  function FrontIds(d: Response): seq<string> {
    (if d.answerBox.Some? then [AnswerId] else []) + (if d.knowledgeGraph.Some? then [GraphId] else [])
  }

  function OrganicIds(n: nat): seq<string> {
    seq(n, i requires 0 <= i < n => OrganicId(i + 1))
  }

  /** The citation ids the response calls for, in the order the entries must carry them. */
  function ExpectedIds(d: Response): seq<string> {
    FrontIds(d) + OrganicIds(|d.organic.GetOr([])|)
  }

  /** No two entries of one response carry the same citation id. */
  lemma ExpectedIdsDistinct(d: Response)
    ensures forall i, j :: 0 <= i < j < |ExpectedIds(d)| ==> ExpectedIds(d)[i] != ExpectedIds(d)[j]
  {
    var ids := ExpectedIds(d);
    forall i, j | 0 <= i < j < |ids|
      ensures ids[i] != ids[j]
    {
      IdsDiffer(FrontIds(d), OrganicIds(|d.organic.GetOr([])|), i, j);
    }
  }

  lemma IdsDiffer(front: seq<string>, organic: seq<string>, i: nat, j: nat)
    requires front == [] || front == [AnswerId] || front == [GraphId] || front == [AnswerId, GraphId]
    requires organic == OrganicIds(|organic|)
    requires i < j < |front + organic|
    ensures (front + organic)[i] != (front + organic)[j]
  {
    var ids, n := front + organic, |front|;
    if j >= n && i >= n {
      assert ids[i] == OrganicId(i - n + 1) && ids[j] == OrganicId(j - n + 1);
      if ids[i] == ids[j] {
        NumberedIdInjective("serper_", i - n + 1, j - n + 1);
      }
    } else if j >= n {
      assert ids[j] == OrganicId(j - n + 1);
      assert ids[j][7] == NatToString(j - n + 1)[0];
      assert IsAsciiDigit(ids[j][7]);
      assert ids[i] == AnswerId || ids[i] == GraphId;
    } else {
      assert ids[i] == AnswerId && ids[j] == GraphId;
    }
  }

  /** Each entry is headed by its citation id, in the expected order. */
  lemma EntriesTagged(d: Response)
    ensures |Entries(d)| == |ExpectedIds(d)|
    ensures forall i :: 0 <= i < |Entries(d)| ==> StartsWith(Entries(d)[i], Tag(ExpectedIds(d)[i]))
  {
    forall i | 0 <= i < |Entries(d)|
      ensures StartsWith(Entries(d)[i], Tag(ExpectedIds(d)[i]))
    {
      EntryTagged(d, i);
    }
  }

  lemma EntryTagged(d: Response, i: nat)
    requires i < |Entries(d)|
    ensures |Entries(d)| == |ExpectedIds(d)|
    ensures StartsWith(Entries(d)[i], Tag(ExpectedIds(d)[i]))
  {
    var os := d.organic.GetOr([]);
    var fe, fi := FrontEntries(d), FrontIds(d);
    assert |fe| == |fi|;
    if i < |fe| {
      assert Entries(d)[i] == fe[i] && ExpectedIds(d)[i] == fi[i];
      FrontTagged(d, i);
    } else {
      var k := i - |fe|;
      assert Entries(d)[i] == OrganicEntries(os)[k];
      assert ExpectedIds(d)[i] == OrganicIds(|os|)[k];
      OrganicTagged(os, k);
    }
  }

  /** The organic entry numbered `k + 1` opens with its tag. */
  lemma OrganicTagged(os: seq<Organic>, k: nat)
    requires k < |os|
    ensures StartsWith(OrganicEntries(os)[k], Tag(OrganicIds(|os|)[k]))
  {
    TaggedEntry(Tag(OrganicId(k + 1)), OrganicBody(os[k]));
  }

  /** The answer-box and knowledge-graph entries open with their tags. */
  lemma FrontTagged(d: Response, i: nat)
    requires i < |FrontEntries(d)|
    ensures |FrontEntries(d)| == |FrontIds(d)|
    ensures StartsWith(FrontEntries(d)[i], Tag(FrontIds(d)[i]))
  {
    if d.answerBox.Some? && i == 0 {
      TaggedEntry(Tag(AnswerId), AnswerBody(d.answerBox.value));
    } else {
      GraphEntryTagged(d.knowledgeGraph.value);
    }
  }

  /** The knowledge-graph entry opens with its tag. */
  lemma GraphEntryTagged(kg: KnowledgeGraph)
    ensures StartsWith(GraphEntry(kg), Tag(GraphId))
  {
    var lines := GraphLines(kg);
    JoinStartsWithHead(lines, "\n");
    TaggedEntry(Tag(GraphId), " Knowledge Graph: " + kg.title.GetOr("N/A"));
    PrefixOfConcat(lines[0], "", Tag(GraphId));
    assert StartsWith(Join(lines, "\n")[..|lines[0]|], Tag(GraphId));
    PrefixOfConcat(Join(lines, "\n"), "\n", Tag(GraphId));
  }

  /** The tool's output: the entries joined with newlines, or the fixed message when there
      are none. */
  function Format(d: Response): (r: string)
    ensures Entries(d) == [] ==> r == NoResults
    ensures Entries(d) != [] ==> StartsWith(r, Tag(ExpectedIds(d)[0]))
    ensures Entries(d) != [] ==> r == Join(Entries(d), "\n")
  {
    var es := Entries(d);
    if es == [] then NoResults
    else
      EntriesTagged(d);
      assert Join(es, "\n") == es[0] || Join(es, "\n") == es[0] + "\n" + Join(es[1..], "\n");
      Join(es, "\n")
  }

  /** The fixed message appears exactly when the response has no answer box, no knowledge
      graph and no organic result; otherwise the output opens with a citation tag. */
  lemma NoResultsIff(d: Response)
    ensures Format(d) == NoResults <==>
      d.answerBox.None? && d.knowledgeGraph.None? && d.organic.GetOr([]) == []
  {
    if Entries(d) != [] {
      EntriesTagged(d);
      var t := Tag(ExpectedIds(d)[0]);
      assert Format(d)[0] == t[0] == '[';
      assert NoResults[0] == 'N';
    } else {
      assert |Entries(d)| == |ExpectedIds(d)| by { EntriesTagged(d); }
    }
  }
}

=== FILE: sports_db.dfy ===
/** The TheSportsDB search and lookup tools: the slug built from the query, its
    percent-encoding, the request URL and the normalisation of the reply. The request is not
    modelled; its status and decoded body are inputs. */
module SportsDb {
  import opened Wrappers
  import opened Text
  import opened JsonValues
  import opened Http
  import opened PercentEncoding

  // ---------------------------------------------------------------------------
  // Slug

  /** `"_".join(query.strip().split()).lower()`: the words of the query, joined with `_`,
      lower-cased. */
  function Slug(query: string): (r: string)
    ensures NoSpace(r)
    ensures |r| == |Join(Words(query), "_")|
    ensures forall i :: 0 <= i < |r| ==> r[i] == LowerChar(Join(Words(query), "_")[i])
  {
    var joined := Join(Words(query), "_");
    JoinNoSpace(Words(query), "_");
    forall i | 0 <= i < |joined| ensures !IsSpace(Lower(joined)[i]) {
      LowerKeepsSpace(joined[i]);
    }
    Lower(joined)
  }

  lemma {:induction false} JoinNoSpace(ws: seq<string>, sep: string)
    requires forall i :: 0 <= i < |ws| ==> NoSpace(ws[i])
    requires NoSpace(sep)
    ensures NoSpace(Join(ws, sep))
  {
    if |ws| > 1 {
      JoinNoSpace(ws[1..], sep);
      var rest := Join(ws[1..], sep);
      var all := ws[0] + sep + rest;
      forall k | 0 <= k < |all| ensures !IsSpace(all[k]) {
        if k < |ws[0]| {
        } else if k < |ws[0]| + |sep| {
          assert all[k] == sep[k - |ws[0]|];
        } else {
          assert all[k] == rest[k - |ws[0]| - |sep|];
        }
      }
    }
  }

  /** A slug is its own slug: slugging twice changes nothing. */
  lemma SlugIdempotent(query: string)
    ensures Slug(Slug(query)) == Slug(query)
  {
    var s := Slug(query);
    WordsOfWord(s);
    if s != [] {
      assert Join(Words(s), "_") == s;
    }
    forall i | 0 <= i < |s| ensures LowerChar(s[i]) == s[i] {
      LowerCharIdempotent(Join(Words(query), "_")[i]);
    }
  }

  lemma LowerCharIdempotent(c: char)
    ensures LowerChar(LowerChar(c)) == LowerChar(c)
  {
  }

  // ---------------------------------------------------------------------------
  // Requests

  /** The request URL: the base without trailing `/`, the endpoint (`search` or `lookup`),
      the type and the encoded slug. */
  function RequestUrl(base: string, endpoint: string, kind: string, query: string): (url: string)
    ensures url == RStripChar(base, '/') + "/" + endpoint + "/" + kind + "/" + Quote(Slug(query))
    ensures '/' !in Quote(Slug(query))
  {
    QuoteDecodes(Slug(query));
    WellEncodedNoSlash(Quote(Slug(query)));
    RStripChar(base, '/') + "/" + endpoint + "/" + kind + "/" + Quote(Slug(query))
  }

  const BaseUrl: string := "https://www.thesportsdb.com/api/v2/json"

  function SearchUrl(kind: string, query: string): string {
    RequestUrl(BaseUrl, "search", kind, query)
  }

  function LookupUrl(kind: string, id: string): string {
    RequestUrl(BaseUrl, "lookup", kind, id)
  }

  /** Both tools' `forward` after the request: a failed request or a 4xx or 5xx status
      raises; the list under `key` (`search` or `lookup`) is returned, and anything that is
      not a list becomes `[]`. */
  function Results(reply: Reply, key: string): (r: Result<seq<Json>, string>)
    ensures Checked(reply).Err? ==> r.Err?
    ensures r.Ok? ==> Checked(reply).Ok? && Checked(reply).value.JObj?
    ensures r.Ok? && Get(Checked(reply).value.fields, key).Some? && Get(Checked(reply).value.fields, key).value.JArr? ==>
      r.value == Get(Checked(reply).value.fields, key).value.items
    ensures r.Ok? && !(Get(Checked(reply).value.fields, key).Some? && Get(Checked(reply).value.fields, key).value.JArr?) ==>
      r.value == []
    ensures Checked(reply).Ok? && Checked(reply).value.JObj? ==> r.Ok?
  {
    match Checked(reply)
    case Err(e) => Err(e)
    case Ok(data) =>
      if !data.JObj? then Err("AttributeError: reply has no attribute 'get'")
      else
        match Get(data.fields, key)
        case Some(JArr(items)) => Ok(items)
        case _ => Ok([])
  }
}

=== FILE: tag_grammar.dfy ===
/** The `<tool_call>...</tool_call>` grammar (`_parse_xml_tool_calls`). Each block body is
    parsed as markup inside a `<root>` element; when that fails, a regex fallback looks for
    `<tool_name>` and for `<arg>value</arg>` pairs. A call keeps the index of its block among
    all blocks as its id, so skipped blocks leave gaps. */
module TagGrammar {
  import opened Wrappers
  import opened Text
  import opened JsonValues
  import opened Patterns
  import opened ToolCalls

  /** `root.find(tag)`: the first direct child with that tag. */
  function FindChild(children: seq<XmlChild>, tag: string): (r: Option<XmlChild>)
    ensures r.Some? ==>
      exists i :: 0 <= i < |children| && children[i] == r.value &&
        forall j :: 0 <= j < i ==> children[j].tag != tag
    ensures r.Some? ==> r.value.tag == tag
    ensures r.None? ==> forall c :: c in children ==> c.tag != tag
  {
    if |children| == 0 then None
    else if children[0].tag == tag then Some(children[0])
    else
      var r := FindChild(children[1..], tag);
      FirstAfterHead(children, tag, r);
      r
  }

  /** A first child with the tag among all but the head is the first one of all when the
      head has another tag. */
  lemma FirstAfterHead(children: seq<XmlChild>, tag: string, r: Option<XmlChild>)
    requires |children| > 0 && children[0].tag != tag
    requires r.Some? ==>
      exists i :: 0 <= i < |children| - 1 && children[1..][i] == r.value &&
        forall j :: 0 <= j < i ==> children[1..][j].tag != tag
    ensures r.Some? ==>
      exists i :: 0 <= i < |children| && children[i] == r.value &&
        forall j :: 0 <= j < i ==> children[j].tag != tag
  {
    if r.Some? {
      var i :| 0 <= i < |children| - 1 && children[1..][i] == r.value &&
        forall j :: 0 <= j < i ==> children[1..][j].tag != tag;
      assert children[i + 1] == r.value;
      forall j | 0 <= j < i + 1
        ensures children[j].tag != tag
      {
        if j > 0 {
          assert children[j] == children[1..][j - 1];
        }
      }
    }
  }

  /** A child whose text is present and non-empty (`child.text` is truthy). */
  predicate HasText(c: XmlChild) {
    c.text.Some? && c.text.value != ""
  }

  /** What one child assigns: its stripped text under its tag, unless it is the `tool_name`
      child or its text is missing or empty. */
  function MarkupAssignment(c: XmlChild): Assignment {
    if c.tag != "tool_name" && HasText(c) then Some((c.tag, JStr(Strip(c.text.value)))) else None
  }

  /** `arguments[child.tag] = child.text.strip()` for every child other than `tool_name` whose
      text is truthy, in document order: a tag repeated among the children keeps the text
      of its last child. */
  function MarkupArgs(children: seq<XmlChild>, acc: Fields): (r: Fields)
    requires DistinctKeys(acc)
    ensures DistinctKeys(r)
    ensures forall k :: HasKey(r, k) <==>
      HasKey(acc, k) || exists c :: c in children && c.tag == k && k != "tool_name" && HasText(c)
    ensures forall k :: Get(r, k) == FinalValue(children, MarkupAssignment, acc, k)
  {
    AssignDistinct(children, MarkupAssignment, acc);
    AssignKeys(children, MarkupAssignment, acc);
    AssignGet(children, MarkupAssignment, acc);
    Assign(children, MarkupAssignment, acc)
  }

  /** What one `<name>value</name>` match assigns: the stripped value under the name, unless
      the name is `tool_name`. */
  function FallbackAssignment(m: Match): Assignment {
    if Group(m, 0) != "tool_name" then Some((Group(m, 0), JStr(Strip(Group(m, 1))))) else None
  }

  /** `arguments[name] = value.strip()` for every `<name>value</name>` match other than
      `tool_name`, in match order: a repeated name keeps its last value. */
  function FallbackArgs(ms: seq<Match>, acc: Fields): (r: Fields)
    requires DistinctKeys(acc)
    ensures DistinctKeys(r)
    ensures forall k :: HasKey(r, k) <==>
      HasKey(acc, k) || exists m :: m in ms && Group(m, 0) == k && k != "tool_name"
    ensures forall k :: Get(r, k) == FinalValue(ms, FallbackAssignment, acc, k)
  {
    AssignDistinct(ms, FallbackAssignment, acc);
    AssignKeys(ms, FallbackAssignment, acc);
    AssignGet(ms, FallbackAssignment, acc);
    Assign(ms, FallbackAssignment, acc)
  }

  /** The call a markup parse yields: none when there is no `tool_name` child or its text is
      missing or empty. */
  function MarkupCall(children: seq<XmlChild>, idx: nat): (r: Option<ToolCall>)
    ensures r.Some? <==> FindChild(children, "tool_name").Some? && HasText(FindChild(children, "tool_name").value)
    ensures r.Some? ==> r.value.id == idx && r.value.name.JStr? && r.value.arguments.JObj?
    ensures r.Some? ==> !HasKey(r.value.arguments.fields, "tool_name")
    ensures r.Some? ==> forall k :: HasKey(r.value.arguments.fields, k) <==>
      exists c :: c in children && c.tag == k && k != "tool_name" && HasText(c)
    ensures r.Some? ==> r.value.name == JStr(Strip(FindChild(children, "tool_name").value.text.value))
    ensures r.Some? ==> r.value.arguments == JObj(MarkupArgs(children, []))
  {
    match FindChild(children, "tool_name")
    case None => None
    case Some(nameChild) =>
      if !HasText(nameChild) then None
      else Some(ToolCall(idx, JStr(Strip(nameChild.text.value)), JObj(MarkupArgs(children, []))))
  }

  /** The regex fallback after a parse error: the first `<tool_name>...</tool_name>` on one
      line gives the name; every `<name>value</name>` pair other than `tool_name` gives an
      argument. */
  function FallbackCall(inner: string, idx: nat): (r: Option<ToolCall>)
    ensures r.Some? <==> Search(ToolNameTag, inner, 0).Some?
    ensures r.Some? ==> r.value.id == idx && r.value.name.JStr? && r.value.arguments.JObj?
    ensures r.Some? ==> !HasKey(r.value.arguments.fields, "tool_name")
    ensures r.Some? ==> forall k :: HasKey(r.value.arguments.fields, k) <==>
      exists m :: m in FindAll(MarkupTag, inner, 0) && Group(m, 0) == k && k != "tool_name"
    ensures r.Some? ==> r.value.name == JStr(Strip(Group(Search(ToolNameTag, inner, 0).value, 0)))
    ensures r.Some? ==> r.value.arguments == JObj(FallbackArgs(FindAll(MarkupTag, inner, 0), []))
  {
    match Search(ToolNameTag, inner, 0)
    case None => None
    case Some(m) =>
      Some(ToolCall(idx, JStr(Strip(Group(m, 0))), JObj(FallbackArgs(FindAll(MarkupTag, inner, 0), []))))
  }

  /** One `<tool_call>` block, its body stripped first. */
  function BlockCall(xml: XmlParser, body: string, idx: nat): (r: Option<ToolCall>)
    ensures r.Some? ==> r.value.id == idx && r.value.name.JStr? && r.value.arguments.JObj?
    ensures r.Some? ==> !HasKey(r.value.arguments.fields, "tool_name")
    ensures var inner := Strip(body); var root := xml("<root>" + inner + "</root>");
      && (root.Some? ==> r == MarkupCall(root.value, idx))
      && (root.None? ==> r == FallbackCall(inner, idx))
  {
    var inner := Strip(body);
    match xml("<root>" + inner + "</root>")
    case Some(children) => MarkupCall(children, idx)
    case None => FallbackCall(inner, idx)
  }

  /** A call as this grammar builds it: a string name and an object of arguments among
      which `tool_name` never appears. */
  predicate TagShaped(c: ToolCall) {
    c.name.JStr? && c.arguments.JObj? && !HasKey(c.arguments.fields, "tool_name")
  }

  /** The block parser of this grammar. */
  function TagBlock(xml: XmlParser): (f: BlockParser)
    ensures KeepsIndex(f)
  {
    (m: Match, idx: nat) => BlockCall(xml, Group(m, 0), idx)
  }

  /** `_parse_xml_tool_calls`. */
  function ParseTag(xml: XmlParser, s: string): (r: Outcome)
    ensures !Contains(s, "<tool_call>") ==> r == Outcome(s, None)
    ensures r.calls.None? ==> r.text == s
    ensures r.calls.Some? ==> |r.calls.value| > 0 && r.text == Strip(Sub(ToolCallBlock, s))
    ensures forall k :: 0 <= k < |CallsOf(r)| ==> k <= CallsOf(r)[k].id
    ensures IdsIncreasing(CallsOf(r))
    ensures forall c :: c in CallsOf(r) ==> TagShaped(c)
  {
    if s == "" || !Contains(s, "<tool_call>") then Outcome(s, None)
    else
      var ms := FindAll(ToolCallBlock, s, 0);
      var calls := Collect(TagBlock(xml), ms, 0);
      assert forall c :: c in calls ==> TagShaped(c) by {
        forall c | c in calls
          ensures TagShaped(c)
        {
          var k :| 0 <= k < |calls| && calls[k] == c;
          assert BlockCall(xml, Group(ms[c.id], 0), c.id) == Some(c);
        }
      }
      IdsAtLeastPosition(calls);
      Finish(s, ToolCallBlock, calls)
  }

  /** Once the marker is present, the calls are those the blocks yield. */
  lemma ParseTagCalls(xml: XmlParser, s: string)
    requires Contains(s, "<tool_call>")
    ensures CallsOf(ParseTag(xml, s)) == Collect(TagBlock(xml), FindAll(ToolCallBlock, s, 0), 0)
  {
    assert OccursAt(s, "<tool_call>", Find(s, "<tool_call>", 0).value);
  }

  /** Strictly increasing natural ids are never below their positions. */
  lemma {:induction false} IdsAtLeastPosition(calls: seq<ToolCall>)
    requires IdsIncreasing(calls)
    ensures forall k :: 0 <= k < |calls| ==> k <= calls[k].id
    decreases |calls|
  {
    if |calls| > 0 {
      var init := calls[..|calls| - 1];
      IdsAtLeastPosition(init);
      assert forall k :: 0 <= k < |init| ==> init[k] == calls[k];
      if |calls| > 1 {
        assert |calls| - 2 <= calls[|calls| - 2].id < calls[|calls| - 1].id;
      }
    }
  }

  /** A block whose markup parses but whose `tool_name` element is missing, has no text or
      has empty text yields no call. */
  lemma NamelessBlockSkipped(xml: XmlParser, body: string, idx: nat)
    requires xml("<root>" + Strip(body) + "</root>").Some?
    requires var children := xml("<root>" + Strip(body) + "</root>").value;
      FindChild(children, "tool_name").None? || !HasText(FindChild(children, "tool_name").value)
    ensures BlockCall(xml, body, idx).None?
  {
  }
}

=== FILE: text.dfy ===
/** The Python `str` operations the model relies on, over `string == seq<char>`:
    whitespace, `find`, `split`/`join`, `replace`, `strip`, `split()` into words,
    ASCII `lower()`, and decimal numerals. */
module Text {
  import opened Wrappers

  /** `str.isspace()`: the characters `strip()`, `split()` and the regex class `\s` treat as
      whitespace (Python's full list, not only ASCII). */
  predicate IsSpace(c: char) {
    || ('\t' <= c <= '\r')
    || ('\U{1C}' <= c <= '\U{1F}')
    || c == ' '
    || c == '\U{85}'
    || c == '\U{A0}'
    || c == '\U{1680}'
    || ('\U{2000}' <= c <= '\U{200A}')
    || c == '\U{2028}'
    || c == '\U{2029}'
    || c == '\U{202F}'
    || c == '\U{205F}'
    || c == '\U{3000}'
  }

  predicate IsAsciiDigit(c: char) {
    '0' <= c <= '9'
  }

  predicate IsAsciiLetter(c: char) {
    ('a' <= c <= 'z') || ('A' <= c <= 'Z')
  }

  /** The regex class `\w`, restricted to ASCII. */
  predicate IsWordChar(c: char) {
    IsAsciiLetter(c) || IsAsciiDigit(c) || c == '_'
  }

  predicate AllDigits(s: string) {
    forall i :: 0 <= i < |s| ==> IsAsciiDigit(s[i])
  }

  /** `str.isdigit()` (ASCII digits): non-empty and made of digits only. */
  predicate IsDigits(s: string) {
    |s| > 0 && AllDigits(s)
  }

  predicate NoSpace(s: string) {
    forall i :: 0 <= i < |s| ==> !IsSpace(s[i])
  }

  predicate StartsWith(s: string, prefix: string) {
    |prefix| <= |s| && s[..|prefix|] == prefix
  }

  /** A text starts with each of its prefixes. */
  lemma PrefixOfConcat(a: string, b: string, p: string)
    requires StartsWith(a, p)
    ensures StartsWith(a + b, p)
  {
    assert (a + b)[..|p|] == a[..|p|];
  }

  /** A joined list starts with its first part. */
  lemma JoinStartsWithHead(parts: seq<string>, sep: string)
    requires |parts| > 0
    ensures StartsWith(Join(parts, sep), parts[0])
  {
    if |parts| > 1 {
      PrefixOfConcat(parts[0], sep, parts[0]);
      PrefixOfConcat(parts[0] + sep, Join(parts[1..], sep), parts[0]);
    }
  }

  predicate EndsWith(s: string, suffix: string) {
    |suffix| <= |s| && s[|s| - |suffix|..] == suffix
  }

  // ---------------------------------------------------------------------------
  // Occurrences: `pat in s`, `s.find(pat, from)`

  predicate OccursAt(s: string, pat: string, i: int) {
    0 <= i && i + |pat| <= |s| && s[i..i + |pat|] == pat
  }

  /** The first occurrence of `pat` in `s` at or after `from` (`s.find(pat, from)`). */
  function Find(s: string, pat: string, from: nat): (r: Option<nat>)
    ensures r.Some? ==> from <= r.value && OccursAt(s, pat, r.value)
    ensures r.Some? ==> forall k :: from <= k < r.value ==> !OccursAt(s, pat, k)
    ensures r.None? ==> forall k :: from <= k ==> !OccursAt(s, pat, k)
    decreases |s| - from
  {
    if from + |pat| > |s| then None
    else if s[from..from + |pat|] == pat then Some(from)
    else Find(s, pat, from + 1)
  }

  /** Python's `pat in s`. */
  predicate Contains(s: string, pat: string) {
    Find(s, pat, 0).Some?
  }

  lemma ContainsAt(s: string, pat: string, k: nat)
    requires OccursAt(s, pat, k)
    ensures Contains(s, pat)
  {
  }

  /** An occurrence inside a slice is an occurrence in the whole text. */
  lemma OccursInSlice(s: string, pat: string, a: nat, b: nat, k: nat)
    requires a <= b <= |s|
    ensures OccursAt(s[a..b], pat, k) ==> OccursAt(s, pat, a + k)
  {
    if OccursAt(s[a..b], pat, k) {
      var t := s[a..b];
      var u := t[k..k + |pat|];
      var v := s[a + k..a + k + |pat|];
      assert forall j :: 0 <= j < |pat| ==> u[j] == v[j];
      assert u == v;
    }
  }

  /** A slice of a text that does not contain `pat` does not contain it either. */
  lemma NotContainsSlice(s: string, pat: string, a: nat, b: nat)
    requires a <= b <= |s|
    requires !Contains(s, pat)
    ensures !Contains(s[a..b], pat)
  {
    forall k: nat
      ensures !OccursAt(s[a..b], pat, k)
    {
      OccursInSlice(s, pat, a, b, k);
    }
  }

  /** The part of `s` before the first occurrence of `pat` does not contain `pat`. */
  lemma NotContainsBeforeFirst(s: string, pat: string, i: nat)
    requires |pat| > 0
    requires i <= |s|
    requires forall k :: 0 <= k < i ==> !OccursAt(s, pat, k)
    ensures !Contains(s[..i], pat)
  {
    forall k: nat
      ensures !OccursAt(s[..i], pat, k)
    {
      OccursInSlice(s, pat, 0, i, k);
      assert s[0..i] == s[..i];
    }
  }

  /** An occurrence that ends inside a prefix is an occurrence in the prefix. */
  lemma OccursInPrefix(s: string, pat: string, n: nat, k: nat)
    requires n <= |s|
    ensures OccursAt(s, pat, k) && k + |pat| <= n ==> OccursAt(s[..n], pat, k)
  {
    if OccursAt(s, pat, k) && k + |pat| <= n {
      assert s[..n][k..k + |pat|] == s[k..k + |pat|];
    }
  }

  /** When `sep` cannot be completed before the copy placed after `a`, that copy is the
      first occurrence: the text splits there into `a` and `b`. */
  lemma FirstOccurrence(a: string, sep: string, b: string)
    requires |sep| > 0
    requires !Contains(a + sep[..|sep| - 1], sep)
    ensures Find(a + sep + b, sep, 0) == Some(|a|)
    ensures Contains(a + sep + b, sep)
    ensures Before(a + sep + b, sep) == a
    ensures After(a + sep + b, sep) == b
  {
    var s := a + sep + b;
    var t := a + sep[..|sep| - 1];
    assert s[..|t|] == t;
    forall k: nat | k < |a|
      ensures !OccursAt(s, sep, k)
    {
      OccursInPrefix(s, sep, |t|, k);
    }
    assert s[|a|..|a| + |sep|] == sep;
    assert OccursAt(s, sep, |a|);
    assert s[..|a|] == a;
    assert s[|a| + |sep|..] == b;
  }

  // ---------------------------------------------------------------------------
  // strip()

  /** Number of leading whitespace characters. */
  function LeadingSpaces(s: string): (n: nat)
    ensures n <= |s|
    ensures forall k :: 0 <= k < n ==> IsSpace(s[k])
    ensures n < |s| ==> !IsSpace(s[n])
  {
    if |s| > 0 && IsSpace(s[0]) then 1 + LeadingSpaces(s[1..]) else 0
  }

  /** Number of trailing whitespace characters. */
  function TrailingSpaces(s: string): (n: nat)
    ensures n <= |s|
    ensures forall k :: |s| - n <= k < |s| ==> IsSpace(s[k])
    ensures n < |s| ==> !IsSpace(s[|s| - n - 1])
  {
    if |s| > 0 && IsSpace(s[|s| - 1]) then 1 + TrailingSpaces(s[..|s| - 1]) else 0
  }

  /** `s.strip()`: the slice of `s` between its leading and trailing whitespace. */
  function Strip(s: string): (r: string)
    ensures |r| <= |s| - LeadingSpaces(s)
    ensures r == s[LeadingSpaces(s)..LeadingSpaces(s) + |r|]
    ensures forall k :: LeadingSpaces(s) + |r| <= k < |s| ==> IsSpace(s[k])
    ensures r == [] || (!IsSpace(r[0]) && !IsSpace(r[|r| - 1]))
  {
    var t := s[LeadingSpaces(s)..];
    t[..|t| - TrailingSpaces(t)]
  }

  /** Stripping a text without edge whitespace changes nothing. */
  lemma StripUnchanged(s: string)
    requires s == [] || (!IsSpace(s[0]) && !IsSpace(s[|s| - 1]))
    ensures Strip(s) == s
  {
    var t := s[LeadingSpaces(s)..];
    assert LeadingSpaces(s) == 0;
    assert t == s;
    if |t| > 0 {
      assert TrailingSpaces(t) == 0;
    }
  }

  /** `strip()` is idempotent. */
  lemma StripIdempotent(s: string)
    ensures Strip(Strip(s)) == Strip(s)
  {
    StripUnchanged(Strip(s));
  }

  /** Stripping cannot introduce an occurrence of `pat`. */
  lemma NotContainsStrip(s: string, pat: string)
    requires !Contains(s, pat)
    ensures !Contains(Strip(s), pat)
  {
    var r := Strip(s);
    NotContainsSlice(s, pat, LeadingSpaces(s), LeadingSpaces(s) + |r|);
  }

  /** `s.rstrip(c)` for a single character `c`. */
  function RStripChar(s: string, c: char): (r: string)
    ensures StartsWith(s, r)
    ensures r == [] || r[|r| - 1] != c
    ensures forall k :: |r| <= k < |s| ==> s[k] == c
  {
    if |s| > 0 && s[|s| - 1] == c then RStripChar(s[..|s| - 1], c) else s
  }

  // ---------------------------------------------------------------------------
  // split(sep) / join / replace

  /** `s.split(sep)` for a non-empty separator: the pieces between occurrences, scanned left
      to right without overlap. No piece contains the separator. */
  function Split(s: string, sep: string): (parts: seq<string>)
    requires |sep| > 0
    ensures |parts| >= 1
    ensures forall i :: 0 <= i < |parts| ==> !Contains(parts[i], sep)
    ensures Contains(s, sep) <==> |parts| >= 2
    decreases |s|
  {
    match Find(s, sep, 0)
    case None => [s]
    case Some(i) =>
      NotContainsBeforeFirst(s, sep, i);
      [s[..i]] + Split(s[i + |sep|..], sep)
  }

  /** `s[:n]` for a non-negative `n`. */
  function Take<T>(s: seq<T>, n: nat): (r: seq<T>)
    ensures |r| == if |s| <= n then |s| else n
    ensures r == s[..|r|]
  {
    if |s| <= n then s else s[..n]
  }

  /** `sep.join(parts)`. */
  function Join(parts: seq<string>, sep: string): string {
    if |parts| == 0 then ""
    else if |parts| == 1 then parts[0]
    else parts[0] + sep + Join(parts[1..], sep)
  }

  /** `"".join(parts)`. */
  function Concat(parts: seq<string>): string {
    Join(parts, "")
  }

  /** Splitting on a separator and joining with it again gives back the text. */
  lemma {:induction false} JoinSplit(s: string, sep: string)
    requires |sep| > 0
    ensures Join(Split(s, sep), sep) == s
    decreases |s|
  {
    match Find(s, sep, 0)
    case None =>
    case Some(i) =>
      var rest := s[i + |sep|..];
      JoinSplit(rest, sep);
      assert Split(s, sep) == [s[..i]] + Split(rest, sep);
      assert s == s[..i] + sep + rest;
  }

  /** `s.replace(target, with)` for a non-empty `target`. */
  function Replace(s: string, target: string, with: string): string
    requires |target| > 0
  {
    Join(Split(s, target), with)
  }

  /** Replacing a text that does not occur changes nothing. */
  lemma ReplaceAbsent(s: string, target: string, with: string)
    requires |target| > 0
    requires !Contains(s, target)
    ensures Replace(s, target, with) == s
  {
  }

  /** The text before the first occurrence of `sep` (all of `s` if there is none):
      `s.split(sep)[0]`. */
  function Before(s: string, sep: string): (r: string)
    requires |sep| > 0
    ensures StartsWith(s, r)
    ensures !Contains(r, sep)
    ensures !Contains(s, sep) ==> r == s
  {
    Split(s, sep)[0]
  }

  /** The text after the first occurrence of `sep`. */
  function After(s: string, sep: string): (r: string)
    requires |sep| > 0
    requires Contains(s, sep)
    ensures |r| <= |s| - |sep|
    ensures r == s[Find(s, sep, 0).value + |sep|..]
  {
    s[Find(s, sep, 0).value + |sep|..]
  }

  /** The second piece of a split is the text between the first occurrence of `sep` and the
      next one; the pieces after the first, concatenated, are the rest of the text with every
      later occurrence removed. */
  lemma SplitTail(s: string, sep: string)
    requires |sep| > 0
    requires Contains(s, sep)
    ensures Split(s, sep)[1] == Before(After(s, sep), sep)
    ensures Concat(Split(s, sep)[1..]) == Replace(After(s, sep), sep, "")
  {
    var i := Find(s, sep, 0).value;
    var rest := s[i + |sep|..];
    var tail := Split(rest, sep);
    assert After(s, sep) == rest;
    assert Split(s, sep) == [s[..i]] + tail;
    assert Split(s, sep)[1..] == tail;
    assert Concat(tail) == Replace(rest, sep, "");
  }

  // ---------------------------------------------------------------------------
  // split() into words

  /** Length of the leading run of non-whitespace characters. */
  function WordLength(s: string): (n: nat)
    ensures n <= |s|
    ensures forall k :: 0 <= k < n ==> !IsSpace(s[k])
    ensures n < |s| ==> IsSpace(s[n])
  {
    if |s| > 0 && !IsSpace(s[0]) then 1 + WordLength(s[1..]) else 0
  }

  /** `s.split()` with no argument: the maximal runs of non-whitespace characters, in order. */
  function Words(s: string): (ws: seq<string>)
    ensures forall i :: 0 <= i < |ws| ==> |ws[i]| > 0 && NoSpace(ws[i])
    decreases |s|
  {
    var t := s[LeadingSpaces(s)..];
    if |t| == 0 then []
    else
      var n := WordLength(t);
      [t[..n]] + Words(t[n..])
  }

  /** A text with no whitespace at all splits into nothing (if empty) or itself. */
  lemma WordsOfWord(w: string)
    requires NoSpace(w)
    ensures Words(w) == if w == [] then [] else [w]
  {
    if w != [] {
      assert LeadingSpaces(w) == 0;
      assert w[0..] == w;
      assert WordLength(w) == |w|;
      assert w[..|w|] == w;
      assert w[|w|..] == [];
      assert Words([]) == [];
    }
  }

  /** Leading whitespace does not change the words. */
  lemma WordsSkipSpace(u: string)
    requires |u| > 0 && IsSpace(u[0])
    ensures Words(u) == Words(u[1..])
  {
    assert LeadingSpaces(u) == 1 + LeadingSpaces(u[1..]);
    assert u[LeadingSpaces(u)..] == u[1..][LeadingSpaces(u[1..])..];
  }

  /** Splitting `w + " " + rest` splits off the word `w` first. */
  lemma WordsCons(w: string, rest: string)
    requires |w| > 0 && NoSpace(w)
    ensures Words(w + " " + rest) == [w] + Words(rest)
  {
    var s := w + " " + rest;
    var u := " " + rest;
    assert s == w + u;
    assert LeadingSpaces(s) == 0;
    assert s[0..] == s;
    WordLengthPrefix(w, u);
    assert s[..|w|] == w;
    assert s[|w|..] == u;
    assert Words(s) == [w] + Words(u);
    assert u[1..] == rest;
    WordsSkipSpace(u);
  }

  lemma WordLengthPrefix(w: string, rest: string)
    requires NoSpace(w)
    requires |rest| > 0 && IsSpace(rest[0])
    ensures WordLength(w + rest) == |w|
  {
    if |w| > 0 {
      assert (w + rest)[1..] == w[1..] + rest;
      WordLengthPrefix(w[1..], rest);
    }
  }

  /** Joining whitespace-free words with single spaces and splitting again gives the words back:
      `" ".join(ws).split() == ws`. */
  lemma {:induction false} WordsJoin(ws: seq<string>)
    requires forall i :: 0 <= i < |ws| ==> |ws[i]| > 0 && NoSpace(ws[i])
    ensures Words(Join(ws, " ")) == ws
  {
    if |ws| == 0 {
    } else if |ws| == 1 {
      WordsOfWord(ws[0]);
    } else {
      WordsJoin(ws[1..]);
      WordsCons(ws[0], Join(ws[1..], " "));
    }
  }

  // ---------------------------------------------------------------------------
  // lower()

  /** `lower()` on one character, restricted to ASCII letters. */
  function LowerChar(c: char): char {
    if 'A' <= c <= 'Z' then (c as int + 32) as char else c
  }

  /** `str.lower()` for ASCII letters; every other character is kept. */
  function Lower(s: string): (r: string)
    ensures |r| == |s|
    ensures forall i :: 0 <= i < |s| ==> r[i] == LowerChar(s[i])
  {
    seq(|s|, i requires 0 <= i < |s| => LowerChar(s[i]))
  }

  lemma LowerKeepsSpace(c: char)
    ensures IsSpace(LowerChar(c)) <==> IsSpace(c)
  {
  }

  // ---------------------------------------------------------------------------
  // Decimal numerals: `str(n)` and `int(s)`

  function DigitChar(d: nat): (c: char)
    requires d < 10
    ensures IsAsciiDigit(c)
  {
    ('0' as int + d) as char
  }

  /** The value of a string of ASCII digits, as Python's `int(s)` computes it. */
  function DigitsValue(s: string): nat
    requires AllDigits(s)
  {
    if |s| == 0 then 0 else DigitsValue(s[..|s| - 1]) * 10 + (s[|s| - 1] as int - '0' as int)
  }

  /** `str(n)` for a natural number: digits only, no leading zero. */
  function NatToString(n: nat): (r: string)
    ensures IsDigits(r)
    ensures r[0] == '0' ==> n == 0
    decreases n
  {
    if n < 10 then [DigitChar(n)] else NatToString(n / 10) + [DigitChar(n % 10)]
  }

  /** `str(i)` for any integer. */
  function IntToString(i: int): (r: string)
    ensures |r| > 0
  {
    if i < 0 then "-" + NatToString(-i) else NatToString(i)
  }

  /** `int(str(n)) == n`. */
  lemma {:induction false} NatToStringRoundTrip(n: nat)
    ensures DigitsValue(NatToString(n)) == n
    decreases n
  {
    if n >= 10 {
      NatToStringRoundTrip(n / 10);
      var r := NatToString(n);
      assert r[..|r| - 1] == NatToString(n / 10);
    }
  }

  /** Different numbers print differently, so numbered identifiers are unique. */
  lemma NatToStringInjective(a: nat, b: nat)
    requires NatToString(a) == NatToString(b)
    ensures a == b
  {
    NatToStringRoundTrip(a);
    NatToStringRoundTrip(b);
  }

  /** `str(i)` on integers determines `i`. */
  lemma IntToStringInjective(a: int, b: int)
    requires IntToString(a) == IntToString(b)
    ensures a == b
  {
    if a < 0 && b < 0 {
      assert NatToString(-a) == IntToString(a)[1..];
      assert NatToString(-b) == IntToString(b)[1..];
      NatToStringInjective(-a, -b);
    } else if a >= 0 && b >= 0 {
      NatToStringInjective(a, b);
    }
  }

  /** The text of an integer is made of digits and a leading `-`. */
  lemma IntToStringChars(i: int, k: nat)
    requires k < |IntToString(i)|
    ensures IsAsciiDigit(IntToString(i)[k]) || IntToString(i)[k] == '-'
  {
    if i < 0 {
      if k > 0 {
        assert IntToString(i)[k] == NatToString(-i)[k - 1];
      }
    }
  }

  /** Two texts between the same head and the same tail are equal, when neither holds the
      tail's first character. */
  lemma SameBetween(head: string, x: string, y: string, tail: string)
    requires head + x + tail == head + y + tail
    requires |tail| > 0 && tail[0] !in x && tail[0] !in y
    ensures x == y
  {
    var l, r := head + x + tail, head + y + tail;
    assert x == l[|head|..|head| + |x|];
    assert y == r[|head|..|head| + |y|];
  }

  /** Joining parts that do not hold a one-character separator and splitting on it again
      gives back the parts. */
  lemma {:induction false} SplitJoinChar(parts: seq<string>, c: char)
    requires |parts| > 0
    requires forall i :: 0 <= i < |parts| ==> !Contains(parts[i], [c])
    ensures Split(Join(parts, [c]), [c]) == parts
  {
    if |parts| == 1 {
      var p := parts[0];
      match Find(p, [c], 0)
      case None =>
      case Some(k) => ContainsAt(p, [c], k);
    } else {
      var rest := Join(parts[1..], [c]);
      SplitJoinChar(parts[1..], c);
      assert [c][..0] == [];
      assert parts[0] + [c][..0] == parts[0];
      FirstOccurrence(parts[0], [c], rest);
      var s := parts[0] + [c] + rest;
      assert s[..|parts[0]|] == parts[0];
      assert s[|parts[0]| + 1..] == rest;
    }
  }
}

=== FILE: token_budget.dfy ===
/** The output-token guard of `TokenLimitedToolCallingAgent`. Before every step the agent
    reads the monitor's running total of output tokens and refuses the step once the total
    has reached its budget; otherwise the parent agent's step runs as usual. */
module TokenBudget {
  import opened Wrappers
  import opened Text

  const DefaultMaxOutputTokens: int := 10000
  /** The `max_steps` handed to the parent agent when the caller gives none. */
  const FallbackMaxSteps: int := 1000

  /** The `max_steps` keyword argument: left out by the caller, or passed (perhaps as `None`). */
  datatype StepsArg = Unsupplied | Supplied(value: Option<int>)

  /** What the constructor settles: the `max_steps` the parent agent receives and the
      output-token budget. */
  datatype Settings = Settings(maxSteps: Option<int>, maxOutputTokens: int)

  /** `TokenLimitedToolCallingAgent.__init__`. The fallback step limit is put in only when the
      caller left `max_steps` out; a value the caller passed, `None` included, is kept. */
  function Configure(maxOutputTokens: Option<int>, steps: StepsArg): (a: Settings)
    ensures maxOutputTokens.None? ==> a.maxOutputTokens == DefaultMaxOutputTokens
    ensures maxOutputTokens.Some? ==> a.maxOutputTokens == maxOutputTokens.value
    ensures steps.Supplied? ==> a.maxSteps == steps.value
    ensures a.maxSteps != Some(FallbackMaxSteps) ==> steps.Supplied?
  {
    Settings(if steps.Supplied? then steps.value else Some(FallbackMaxSteps),
             maxOutputTokens.GetOr(DefaultMaxOutputTokens))
  }

  /** The step is refused once the running total has reached the budget; reaching it exactly
      already counts. */
  predicate Refused(s: Settings, current: nat) {
    current >= s.maxOutputTokens
  }

  const MessageHead: string := "Reached maximum output tokens: "
  const MessageTail: string := ". Stopping agent execution."

  /** The text of the `AgentMaxStepsError`. */
  function RefusalMessage(current: nat, budget: int): string {
    MessageHead + NatToString(current) + "/" + IntToString(budget) + MessageTail
  }

  /** `TokenLimitedToolCallingAgent.step`. The parent's step is a state transformer; on a
      refusal it is not run, so the state comes back as it was. */
  function Step<S, T>(s: Settings, current: nat, state: S, parent: S -> (S, T)): (r: (S, Result<T, string>))
    ensures r.1.Err? <==> Refused(s, current)
    ensures r.1.Err? ==> r.0 == state && r.1.error == RefusalMessage(current, s.maxOutputTokens)
    ensures r.1.Ok? ==> r.0 == parent(state).0 && r.1.value == parent(state).1
  {
    if current >= s.maxOutputTokens then (state, Err(RefusalMessage(current, s.maxOutputTokens)))
    else
      var (state', result) := parent(state);
      (state', Ok(result))
  }

  /** The refusal message names the running total: two different totals never give the
      same message. */
  lemma RefusalMessageNamesTotal(a: nat, b: nat, budget: int)
    requires RefusalMessage(a, budget) == RefusalMessage(b, budget)
    ensures a == b
  {
    SameMiddle(MessageHead, NatToString(a), NatToString(b), "/", IntToString(budget), MessageTail);
    NatToStringInjective(a, b);
  }

  /** Two texts framed by the same texts on both sides are equal. */
  lemma SameMiddle(head: string, x: string, y: string, sep: string, mid: string, tail: string)
    requires head + x + sep + mid + tail == head + y + sep + mid + tail
    ensures x == y
  {
    var l, r := head + x + sep + mid + tail, head + y + sep + mid + tail;
    assert |x| == |y|;
    assert x == l[|head|..|head| + |x|];
    assert y == r[|head|..|head| + |y|];
  }

  /** A running total never goes down from one step to the next. */
  predicate NonDecreasing(counts: seq<nat>) {
    forall i :: 0 <= i < |counts| - 1 ==> counts[i] <= counts[i + 1]
  }

  /** With a total that never goes down, once a step is refused every later step is too. */
  lemma {:induction false} RefusalPersists(s: Settings, counts: seq<nat>, i: nat, j: nat)
    requires NonDecreasing(counts)
    requires i <= j < |counts|
    requires Refused(s, counts[i])
    ensures Refused(s, counts[j])
    decreases j - i
  {
    if i < j {
      assert counts[i] <= counts[i + 1];
      RefusalPersists(s, counts, i + 1, j);
    }
  }

  /** Consecutive step attempts, the `k`-th seeing the total `counts[k]`: the attempts whose
      parent step ran, in order. With a total that never goes down they are the first ones. */
  method RunSteps(s: Settings, counts: seq<nat>) returns (ran: seq<nat>)
    ensures forall k :: 0 <= k < |ran| ==> ran[k] < |counts| && !Refused(s, counts[ran[k]])
    ensures forall i :: 0 <= i < |counts| && !Refused(s, counts[i]) ==> i in ran
    ensures forall k, l :: 0 <= k < l < |ran| ==> ran[k] < ran[l]
    ensures NonDecreasing(counts) ==> forall k :: 0 <= k < |ran| ==> ran[k] == k
    ensures NonDecreasing(counts) ==> forall i :: |ran| <= i < |counts| ==> Refused(s, counts[i])
  {
    ran := [];
    var i := 0;
    while i < |counts|
      invariant i <= |counts|
      invariant forall k :: 0 <= k < |ran| ==> ran[k] < i && !Refused(s, counts[ran[k]])
      invariant forall j :: 0 <= j < i && !Refused(s, counts[j]) ==> j in ran
      invariant forall k, l :: 0 <= k < l < |ran| ==> ran[k] < ran[l]
      invariant NonDecreasing(counts) ==> forall k :: 0 <= k < |ran| ==> ran[k] == k
      invariant NonDecreasing(counts) ==> |ran| <= i && (|ran| < i ==> Refused(s, counts[|ran|]))
    {
      var (_, outcome) := Step(s, counts[i], (), (u: ()) => (u, ()));
      if outcome.Ok? {
        if NonDecreasing(counts) && |ran| < i {
          RefusalPersists(s, counts, |ran|, i);
        }
        ran := ran + [i];
      }
      i := i + 1;
    }
    if NonDecreasing(counts) {
      forall j | |ran| <= j < |counts|
        ensures Refused(s, counts[j])
      {
        if |ran| < j {
          RefusalPersists(s, counts, |ran|, j);
        } else if |ran| == |counts| {
        } else {
          assert !Refused(s, counts[j]) ==> j in ran;
        }
      }
    }
  }
}

=== FILE: tool_table.dfy ===
/** The cells of the parameter table printed for each MCP tool: one row per property of the
    tool's input schema, with its type, required mark, default and a shortened description.
    The table styling and the console are not modelled. */
module ToolTable {
  import opened Wrappers
  import opened Text
  import opened JsonValues

  const RequiredMark: string := "[bold red]\U{2713}[/bold red]"
  const NoMark: string := "[dim]\U{2014}[/dim]"
  const MaxDescription: nat := 60

  // ---------------------------------------------------------------------------
  // Type

  /** An option the loop passes over without a type: a string with no `type` inside it, or a
      list without the element `"type"`; `"type" in option` is false for both. */
  predicate Skipped(option: Json) {
    || (option.JStr? && !Contains(option.s, "type"))
    || (option.JArr? && JStr("type") !in option.items)
  }

  /** An option the loop and `" | ".join` can take: an object whose `type`, if any, is a
      string, or an option that is passed over. */
  predicate Usable(option: Json) {
    || (option.JObj? && (HasKey(option.fields, "type") ==> Get(option.fields, "type").value.JStr?))
    || Skipped(option)
  }

  /** Some key of an object `anyOf` has `type` inside it; looping over the object's keys then
      indexes that key string with `"type"`, which raises. */
  predicate KeyMentionsType(fields: Fields) {
    exists i :: 0 <= i < |fields| && Contains(fields[i].0, "type")
  }

  /** The string `type` an option carries, if any. */
  function TypeOf(option: Json): Option<string> {
    if option.JObj? && Get(option.fields, "type").Some? && Get(option.fields, "type").value.JStr?
    then Some(Get(option.fields, "type").value.s) else None
  }

  /** The positions of the options that carry a type, in increasing order. */
  function TypedIndices(options: seq<Json>): (ix: seq<nat>)
    ensures forall j :: 0 <= j < |ix| ==> ix[j] < |options| && TypeOf(options[ix[j]]).Some?
    ensures forall j, l :: 0 <= j < l < |ix| ==> ix[j] < ix[l]
    ensures forall i :: 0 <= i < |options| && TypeOf(options[i]).Some? ==> i in ix
    decreases |options|
  {
    if options == [] then []
    else
      var init := options[..|options| - 1];
      assert forall i :: 0 <= i < |init| ==> init[i] == options[i];
      TypedIndices(init) + if TypeOf(options[|options| - 1]).Some? then [|options| - 1] else []
  }

  /** The `type` of each `anyOf` option that has one, in order. An option must be an object
      whose type is a string, as `" | ".join` requires, or one the loop passes over. */
  function OptionTypes(options: seq<Json>): (r: Result<seq<string>, string>)
    ensures r.Ok? ==> |r.value| <= |options|
    ensures r.Ok? <==> forall i :: 0 <= i < |options| ==> Usable(options[i])
    ensures r.Ok? ==> forall t :: t in r.value <==> exists i :: 0 <= i < |options| && TypeOf(options[i]) == Some(t)
    ensures r.Ok? ==> |r.value| == |TypedIndices(options)|
    ensures r.Ok? ==> forall j :: 0 <= j < |r.value| ==> Some(r.value[j]) == TypeOf(options[TypedIndices(options)[j]])
  {
    if options == [] then Ok([])
    else
      var last := options[|options| - 1];
      var init := options[..|options| - 1];
      UsableStep(options);
      match OptionTypes(init)
      case Err(e) => Err(e)
      case Ok(ts) =>
        if !Usable(last) then
          Err(if last.JObj? then "TypeError: sequence item: expected str instance"
              else "TypeError: option cannot be indexed by 'type'")
        else
          TypesStepIndices(options, ts);
          TypesStepMembers(options, ts);
          Ok(ts + if TypeOf(last).Some? then [TypeOf(last).value] else [])
  }

  /** All options are usable exactly when those before the last are and the last is. */
  lemma UsableStep(options: seq<Json>)
    requires |options| > 0
    ensures var init := options[..|options| - 1];
      (forall i :: 0 <= i < |options| ==> Usable(options[i])) <==>
      (forall i :: 0 <= i < |init| ==> Usable(init[i])) && Usable(options[|options| - 1])
  {
    var init := options[..|options| - 1];
    assert forall i :: 0 <= i < |init| ==> init[i] == options[i];
  }

  /** One more option extends the types of the others, position by position, by its own type
      if it has one. */
  lemma TypesStepIndices(options: seq<Json>, ts: seq<string>)
    requires |options| > 0
    requires |ts| == |TypedIndices(options[..|options| - 1])|
    requires forall j :: 0 <= j < |ts| ==> Some(ts[j]) == TypeOf(options[..|options| - 1][TypedIndices(options[..|options| - 1])[j]])
    ensures var last := TypeOf(options[|options| - 1]);
      var r := ts + if last.Some? then [last.value] else [];
      && |r| == |TypedIndices(options)|
      && (forall j :: 0 <= j < |r| ==> Some(r[j]) == TypeOf(options[TypedIndices(options)[j]]))
  {
    var n := |options| - 1;
    var init := options[..n];
    var ix := TypedIndices(init);
    var last := TypeOf(options[n]);
    var r := ts + if last.Some? then [last.value] else [];
    assert TypedIndices(options) == ix + if last.Some? then [n] else [];
    forall j | 0 <= j < |r|
      ensures Some(r[j]) == TypeOf(options[TypedIndices(options)[j]])
    {
      if j < |ts| {
        assert TypedIndices(options)[j] == ix[j];
        assert options[ix[j]] == init[ix[j]];
      }
    }
  }

  /** One more option adds its own type, if it has one, to the types of the others. */
  lemma TypesStepMembers(options: seq<Json>, ts: seq<string>)
    requires |options| > 0
    requires forall t :: t in ts <==> exists i :: 0 <= i < |options| - 1 && TypeOf(options[i]) == Some(t)
    ensures var last := TypeOf(options[|options| - 1]);
      var r := ts + if last.Some? then [last.value] else [];
      forall t :: t in r <==> exists i :: 0 <= i < |options| && TypeOf(options[i]) == Some(t)
  {
    var last := TypeOf(options[|options| - 1]);
    var r := ts + if last.Some? then [last.value] else [];
    forall t ensures t in r <==> exists i :: 0 <= i < |options| && TypeOf(options[i]) == Some(t) {
      if t in r && t !in ts {
        assert TypeOf(options[|options| - 1]) == Some(t);
      }
    }
  }

  /** `_get_type_string`: the schema's own `type`, else its `anyOf` options' types joined with
      ` | `, else `object` for an `allOf`, else `any`. A null `type` is a blank cell, as Rich
      draws `None`; any other non-string `type` is not renderable. An `anyOf` that is an object
      or a string is looped over by key or by character and contributes no type. */
  function TypeString(schema: Fields): (r: Result<string, string>)
    ensures Get(schema, "type").Some? ==>
      (r.Ok? <==> Get(schema, "type").value.JStr? || Get(schema, "type").value.JNull?)
    ensures Get(schema, "type").Some? && r.Ok? ==>
      Get(schema, "type") == Some(JStr(r.value)) || (Get(schema, "type") == Some(JNull) && r.value == "")
    ensures Get(schema, "type").None? && Get(schema, "anyOf").Some? && Get(schema, "anyOf").value.JArr? ==>
      var opts := OptionTypes(Get(schema, "anyOf").value.items);
      (r.Ok? <==> opts.Ok?) && (r.Ok? ==> r.value == Join(opts.value, " | "))
    ensures Get(schema, "type").None? && Get(schema, "anyOf").Some? && Get(schema, "anyOf").value.JObj? ==>
      (r.Ok? <==> !KeyMentionsType(Get(schema, "anyOf").value.fields)) && (r.Ok? ==> r.value == "")
    ensures Get(schema, "type").None? && Get(schema, "anyOf").Some? && Get(schema, "anyOf").value.JStr? ==>
      r == Ok("")
    ensures Get(schema, "type").None? && Get(schema, "anyOf").Some? ==>
      (r.Err? <==> !(Get(schema, "anyOf").value.JArr? || Get(schema, "anyOf").value.JObj? || Get(schema, "anyOf").value.JStr?)
                   || (Get(schema, "anyOf").value.JArr? && OptionTypes(Get(schema, "anyOf").value.items).Err?)
                   || (Get(schema, "anyOf").value.JObj? && KeyMentionsType(Get(schema, "anyOf").value.fields)))
    ensures Get(schema, "type").None? && Get(schema, "anyOf").None? ==>
      r == Ok(if Get(schema, "allOf").Some? then "object" else "any")
  {
    match Get(schema, "type")
    case Some(JStr(t)) => Ok(t)
    case Some(JNull) => Ok("")
    case Some(_) => Err("NotRenderableError: type is not a string")
    case None =>
      match Get(schema, "anyOf")
      case Some(JArr(options)) =>
        var ts :- OptionTypes(options);
        Ok(Join(ts, " | "))
      case Some(JObj(fields)) =>
        if KeyMentionsType(fields) then Err("TypeError: string indices must be integers") else Ok("")
      case Some(JStr(_)) => Ok("")
      case Some(_) => Err("TypeError: anyOf is not iterable")
      case None => Ok(if HasKey(schema, "allOf") then "object" else "any")
  }

  /** When no option type contains `|`, the joined type names come apart again at ` | `:
      the cell lists exactly the options' types. */
  lemma {:induction false} AnyOfTypesRecoverable(ts: seq<string>)
    requires |ts| > 0
    requires forall i :: 0 <= i < |ts| ==> '|' !in ts[i]
    ensures Split(Join(ts, " | "), " | ") == ts
  {
    if |ts| == 1 {
      NoBar(ts[0]);
      JoinSplit(ts[0], " | ");
    } else {
      AnyOfTypesRecoverable(ts[1..]);
      NoBar(ts[0]);
      assert " | "[..2] == " |";
      FirstOccurrence(ts[0], " | ", Join(ts[1..], " | "));
    }
  }

  /** A text without `|` holds no ` | `, not even across the start of a following one. */
  lemma NoBar(a: string)
    requires '|' !in a
    ensures !Contains(a, " | ")
    ensures !Contains(a + " |", " | ")
  {
    forall k: nat ensures !OccursAt(a, " | ", k) {
      if k + 3 <= |a| {
        assert a[k..k + 3][1] == a[k + 1] != '|';
      }
    }
    var s := a + " |";
    forall k: nat ensures !OccursAt(s, " | ", k) {
      if k + 3 <= |s| {
        if k + 1 < |a| {
          assert s[k + 1] == a[k + 1];
        } else {
          assert s[k + 1] == ' ';
        }
        assert s[k..k + 3][1] == s[k + 1] != '|';
      }
    }
  }

  // ---------------------------------------------------------------------------
  // Cells

  /** The required column: the mark exactly for the names the schema lists as required. */
  function RequiredCell(name: string, required: set<string>): (r: string)
    ensures r == RequiredMark <==> name in required
    ensures r == NoMark <==> name !in required
  {
    if name in required then RequiredMark else NoMark
  }

  /** The default column: a dash when absent or `None`, lower-case `true`/`false`, a string
      in double quotes, anything else as `str()` prints it. */
  function DefaultCell(v: Option<Json>): (r: string)
    ensures v.None? || v == Some(JNull) ==> r == NoMark
    ensures v.Some? && v.value.JBool? ==> r == (if v.value.b then "true" else "false")
    ensures v.Some? && v.value.JStr? ==> |r| >= 2 && r[0] == '"' && r[|r| - 1] == '"'
    ensures v.Some? && v.value.JInt? ==> r == IntToString(v.value.i)
  {
    match v
    case None => NoMark
    case Some(JNull) => NoMark
    case Some(JBool(b)) => if b then "true" else "false"
    case Some(JStr(s)) => if s != "" then "\"" + s + "\"" else "\"\""
    case Some(other) => Show(other)
  }

  /** Every string default, empty or not, is shown as itself between double quotes, so the
      text inside the quotes is the default. */
  lemma DefaultStringQuoted(s: string)
    ensures DefaultCell(Some(JStr(s))) == "\"" + s + "\""
    ensures DefaultCell(Some(JStr(s)))[1..|s| + 1] == s
  {
  }

  /** The description column: at most 60 characters; a longer text keeps its first 57 and
      ends in `...`. */
  function DescriptionCell(d: string): (r: string)
    ensures |r| <= MaxDescription
    ensures |d| <= MaxDescription ==> r == d
    ensures |d| > MaxDescription ==> |r| == MaxDescription && r[..57] == d[..57] && r[57..] == "..."
  {
    if |d| > MaxDescription then d[..57] + "..." else d
  }

  /** A shortened description is short enough to be kept as it is. */
  lemma DescriptionCellIdempotent(d: string)
    ensures DescriptionCell(DescriptionCell(d)) == DescriptionCell(d)
  {
  }

  // ---------------------------------------------------------------------------
  // Rows

  datatype Row = Row(name: string, kind: string, required: string, default: string, description: string)

  /** A value `set` can hold: lists and objects are unhashable. */
  predicate Hashable(v: Json) {
    !v.JArr? && !v.JObj?
  }

  /** `set(input_schema.get("required", []))`: the names a list holds, an object's keys, or
      the characters of a string. A list holding a list or an object raises. */
  function RequiredNames(v: Option<Json>): (r: Result<set<string>, string>)
    ensures v.None? ==> r == Ok({})
    ensures v.Some? && v.value.JArr? ==>
      (r.Ok? <==> forall i :: 0 <= i < |v.value.items| ==> Hashable(v.value.items[i]))
    ensures v.Some? && v.value.JArr? && r.Ok? ==> forall name :: name in r.value <==> JStr(name) in v.value.items
    ensures v.Some? && v.value.JObj? ==> r == Ok(Keys(v.value.fields))
    ensures v.Some? && v.value.JStr? ==> r.Ok? && forall name :: name in r.value <==> |name| == 1 && name[0] in v.value.s
    ensures r.Ok? <==> || v.None?
                       || (v.value.JArr? && forall i :: 0 <= i < |v.value.items| ==> Hashable(v.value.items[i]))
                       || v.value.JObj?
                       || v.value.JStr?
  {
    match v
    case None => Ok({})
    case Some(JArr(items)) =>
      if exists i :: 0 <= i < |items| && !Hashable(items[i]) then Err("TypeError: unhashable type")
      else Ok(set i | 0 <= i < |items| && items[i].JStr? :: items[i].s)
    case Some(JObj(fields)) => Ok(Keys(fields))
    case Some(JStr(s)) => CharNames(s); Ok(set c | c in s :: [c])
    case Some(_) => Err("TypeError: object is not iterable")
  }

  /** The one-character strings of a string's characters. */
  lemma CharNames(s: string)
    ensures forall name :: name in (set c | c in s :: [c]) <==> |name| == 1 && name[0] in s
  {
    forall name ensures name in (set c | c in s :: [c]) <==> |name| == 1 && name[0] in s {
      if |name| == 1 && name[0] in s {
        assert name == [name[0]];
      }
    }
  }

  /** One property's row; its schema must be an object with a string description. */
  function PropertyRow(name: string, schema: Json, required: set<string>): (r: Result<Row, string>)
    ensures r.Ok? ==> schema.JObj? && TypeString(schema.fields).Ok? && Get(schema.fields, "description").GetOr(JStr("")).JStr?
    ensures r.Ok? ==> r.value == Row(name, TypeString(schema.fields).value, RequiredCell(name, required),
      DefaultCell(Get(schema.fields, "default")), DescriptionCell(Get(schema.fields, "description").GetOr(JStr("")).s))
    ensures schema.JObj? && TypeString(schema.fields).Ok? && Get(schema.fields, "description").GetOr(JStr("")).JStr? ==> r.Ok?
  {
    if !schema.JObj? then Err("AttributeError: schema has no attribute 'get'")
    else
      var kind :- TypeString(schema.fields);
      var description := Get(schema.fields, "description").GetOr(JStr(""));
      if !description.JStr? then Err("TypeError: description is not a string")
      else Ok(Row(name, kind, RequiredCell(name, required), DefaultCell(Get(schema.fields, "default")),
                  DescriptionCell(description.s)))
  }

  /** `_create_parameters_table`: one row per property of the input schema, in schema order;
      it fails exactly when the properties are not an object, the required names cannot be
      read or some property's row cannot be built. */
  function ParametersTable(inputSchema: Fields): (r: Result<seq<Row>, string>)
    ensures var props := Get(inputSchema, "properties").GetOr(JObj([]));
      var required := RequiredNames(Get(inputSchema, "required"));
      r.Ok? <==> (props.JObj? && required.Ok?
        && forall i :: 0 <= i < |props.fields| ==> PropertyRow(props.fields[i].0, props.fields[i].1, required.value).Ok?)
    ensures r.Ok? ==> Get(inputSchema, "properties").GetOr(JObj([])).JObj?
    ensures r.Ok? ==> var props := Get(inputSchema, "properties").GetOr(JObj([])).fields;
      && |r.value| == |props|
      && forall i :: 0 <= i < |props| ==> r.value[i].name == props[i].0
    ensures r.Ok? ==> var required := RequiredNames(Get(inputSchema, "required"));
      && required.Ok?
      && forall i :: 0 <= i < |r.value| ==> (r.value[i].required == RequiredMark <==> r.value[i].name in required.value)
    ensures r.Ok? ==>
      var props := Get(inputSchema, "properties").GetOr(JObj([])).fields;
      var required := RequiredNames(Get(inputSchema, "required")).value;
      forall i :: 0 <= i < |props| ==> Ok(r.value[i]) == PropertyRow(props[i].0, props[i].1, required)
  {
    var props := Get(inputSchema, "properties").GetOr(JObj([]));
    if !props.JObj? then Err("AttributeError: properties has no attribute 'items'")
    else
      var required :- RequiredNames(Get(inputSchema, "required"));
      MapAll(props.fields, (p: (string, Json)) => PropertyRow(p.0, p.1, required))
  }
}

=== FILE: toolcalls.dfy ===
/** What every tool-call grammar produces: OpenAI-style calls (`{"id": "call_<k>", "type":
    "function", "function": {"name": ..., "arguments": ...}}`) and the text left once the
    recognised blocks are deleted. */
module ToolCalls {
  import opened Wrappers
  import opened Text
  import opened JsonValues
  import opened Patterns

  /** One call. `id` is the `k` of `"call_<k>"`. The arguments are kept as the JSON value
      that `json.dumps` serialises (a grammar that passes a non-object through unserialised
      keeps that value as it is). */
  datatype ToolCall = ToolCall(id: nat, name: Json, arguments: Json)

  /** `(cleaned_content, tool_calls or None)`. */
  datatype Outcome = Outcome(text: string, calls: Option<seq<ToolCall>>)

  /** A direct child of the `<root>` element `ET.fromstring` builds: its tag and its `.text`
      (`None` when the element has no text before its first child or end). */
  datatype XmlChild = XmlChild(tag: string, text: Option<string>)

  /** `ET.fromstring` reduced to the children of the root element; `None` stands for
      `ET.ParseError`. */
  type XmlParser = string -> Option<seq<XmlChild>>

  /** The calls of an outcome, empty when there are none. */
  function CallsOf(o: Outcome): seq<ToolCall> {
    o.calls.GetOr([])
  }

  /** `match.group(i + 1)`, with `""` for a group that did not participate. */
  function Group(m: Match, i: nat): string {
    if i < |m.groups| && m.groups[i].Some? then m.groups[i].value else ""
  }

  /** The common end of every grammar: no call means the text is returned untouched with
      `None`; otherwise every block of the delimiter pattern is deleted, including blocks
      that produced no call, and the rest is stripped. */
  function Finish(s: string, pat: Pattern, calls: seq<ToolCall>): (r: Outcome)
    ensures r.calls.None? <==> |calls| == 0
    ensures r.calls.None? ==> r.text == s
    ensures r.calls.Some? ==> r.calls.value == calls && r.text == Strip(Sub(pat, s))
    ensures r.calls.Some? ==> |r.text| < |s| || Search(pat, s, 0).None?
  {
    if |calls| == 0 then Outcome(s, None)
    else
      SubLength(pat, s);
      Outcome(Strip(Sub(pat, s)), Some(calls))
  }

  /** An argument value as the invoke and bracket grammars store it: an all-digit text
      becomes an `int`, anything else stays the text. */
  function Coerce(v: string): (r: Json)
    ensures r.JInt? <==> IsDigits(v)
    ensures r.JInt? || r.JStr?
    ensures r.JStr? ==> r.s == v
    ensures r.JInt? ==> r.i >= 0 && r.i == DigitsValue(v)
  {
    if IsDigits(v) then JInt(DigitsValue(v)) else JStr(v)
  }

  /** A canonical numeral (no leading zero) survives the coercion: printing the integer
      gives the text back. */
  lemma CoerceCanonical(v: string)
    requires IsDigits(v)
    requires v[0] != '0' || |v| == 1
    ensures Show(Coerce(v)) == v
  {
    DigitsCanonical(v);
  }

  lemma {:induction false} DigitsCanonical(v: string)
    requires IsDigits(v)
    requires v[0] != '0' || |v| == 1
    ensures NatToString(DigitsValue(v)) == v
    decreases |v|
  {
    var n := DigitsValue(v);
    var last := v[|v| - 1];
    var d := last as int - '0' as int;
    if |v| == 1 {
      assert v[..|v| - 1] == [];
      assert DigitsValue(v[..|v| - 1]) == 0;
      assert n == d;
      assert NatToString(n) == [DigitChar(d)];
    } else {
      var init := v[..|v| - 1];
      assert init[0] == v[0];
      DigitsCanonical(init);
      var m := DigitsValue(init);
      assert n == m * 10 + d;
      DigitsPositive(init);
      assert n / 10 == m && n % 10 == d;
      assert NatToString(n) == NatToString(m) + [DigitChar(d)];
      assert v == init + [last];
    }
  }

  lemma {:induction false} DigitsPositive(v: string)
    requires IsDigits(v)
    requires v[0] != '0'
    ensures DigitsValue(v) > 0
    decreases |v|
  {
    if |v| > 1 {
      var init := v[..|v| - 1];
      assert init[0] == v[0];
      DigitsPositive(init);
    }
  }

  /** The ids `call_<base>`, `call_<base + 1>`, ... given in list order. */
  function Renumber(calls: seq<ToolCall>, base: nat): (r: seq<ToolCall>)
    ensures |r| == |calls|
    ensures forall k :: 0 <= k < |r| ==> r[k] == calls[k].(id := base + k)
  {
    seq(|calls|, k requires 0 <= k < |calls| => calls[k].(id := base + k))
  }

  /** What a grammar does with one block: the call it yields, if any, given the block's
      index among all blocks. */
  type BlockParser = (Match, nat) -> Option<ToolCall>

  /** The parser names each call after the index of its block (`"id": f"call_{idx}"`). */
  ghost predicate KeepsIndex(f: BlockParser) {
    forall m: Match, k: nat :: f(m, k).Some? ==> f(m, k).value.id == k
  }

  predicate IdsIncreasing(calls: seq<ToolCall>) {
    forall k :: 0 <= k < |calls| - 1 ==> calls[k].id < calls[k + 1].id
  }

  /** `for idx, match in enumerate(matches)`, keeping the calls the blocks from `i` on
      yield, in block order. Every call comes from the block its id names, and every block
      that yields a call is represented. */
  function Collect(f: BlockParser, ms: seq<Match>, i: nat): (r: seq<ToolCall>)
    requires i <= |ms|
    requires KeepsIndex(f)
    ensures |r| <= |ms| - i
    ensures IdsIncreasing(r)
    ensures forall k :: 0 <= k < |r| ==> i <= r[k].id < |ms| && f(ms[r[k].id], r[k].id) == Some(r[k])
    ensures forall j :: i <= j < |ms| && f(ms[j], j).Some? ==> f(ms[j], j).value in r
    decreases |ms| - i
  {
    if i == |ms| then []
    else
      var rest := Collect(f, ms, i + 1);
      match f(ms[i], i)
      case None => rest
      case Some(c) => [c] + rest
  }

  /** Every id differs from every other. */
  predicate DistinctIds(calls: seq<ToolCall>) {
    forall i, j :: 0 <= i < j < |calls| ==> calls[i].id != calls[j].id
  }
}

=== FILE: web_page_reader.dfy ===
/** The web-page reader workflow around its language model: the document text handed to the
    model, the page text fetched for each URL (with the Wikipedia REST fallback on HTTP 403)
    and its truncation. Fetching, HTML parsing, percent-decoding and the model are inputs;
    the model's output is post-processed by `Answers.ReaderPostprocess`. */
module WebPageReader {
  import opened Wrappers
  import opened Text
  import opened PercentEncoding

  /** About 8k tokens at four characters a token. */
  const MaxTextChars: nat := 32000
  /** The characters shared by all documents of one tool output. */
  const DocumentBudget: nat := 32000 * 4

  // ---------------------------------------------------------------------------
  // Model input

  /** What the reader is given: a document tool output (each document already rendered by
      `simple_stringify`), an object with an `output` text, or anything else as `str()`
      renders it. */
  datatype Documents = DocumentList(rendered: seq<string>) | WithOutput(output: string) | Other(text: string)

  datatype ReaderInput = ReaderInput(question: string, document: string)

  /** The characters each of `n` documents may keep. */
  function PerDocument(n: nat): (k: nat)
    requires n > 0
    ensures n * k <= DocumentBudget
    ensures DocumentBudget < n * (k + 1)
  {
    DocumentBudget / n
  }

  /** The document text: each rendered document cut to its share of the budget, joined with
      newlines. */
  function DocumentText(docs: Documents): (r: string)
    ensures docs.WithOutput? ==> r == docs.output
    ensures docs.Other? ==> r == docs.text
    ensures docs.DocumentList? && docs.rendered == [] ==> r == ""
  {
    match docs
    case DocumentList(ts) =>
      if ts == [] then ""
      else Join(seq(|ts|, i requires 0 <= i < |ts| => Take(ts[i], PerDocument(|ts|))), "\n")
    case WithOutput(o) => o
    case Other(t) => t
  }

  /** `preprocess_input`: the question must be set. */
  function PreprocessInput(question: Option<string>, docs: Documents): (r: Result<ReaderInput, string>)
    ensures r.Ok? <==> question.Some?
    ensures r.Ok? ==> r.value == ReaderInput(question.value, DocumentText(docs))
  {
    if question.None? then Err("AssertionError: Question is not set")
    else Ok(ReaderInput(question.value, DocumentText(docs)))
  }

  /** The pieces of a document list keep a prefix of each document, so the whole text stays
      within the budget plus one newline between neighbours. */
  lemma DocumentTextBound(ts: seq<string>)
    requires |ts| > 0
    ensures |DocumentText(DocumentList(ts))| <= DocumentBudget + |ts| - 1
  {
    var k := PerDocument(|ts|);
    var pieces := seq(|ts|, i requires 0 <= i < |ts| => Take(ts[i], k));
    JoinLengthBound(pieces, "\n", k);
  }

  /** Each piece is the start of its document: nothing is reordered or rewritten. */
  lemma DocumentPiecesArePrefixes(ts: seq<string>, i: nat)
    requires i < |ts|
    ensures var piece := Take(ts[i], PerDocument(|ts|));
      StartsWith(ts[i], piece) && (|ts[i]| <= PerDocument(|ts|) ==> piece == ts[i])
  {
  }

  lemma {:induction false} JoinLengthBound(parts: seq<string>, sep: string, k: nat)
    requires |parts| > 0
    requires forall i :: 0 <= i < |parts| ==> |parts[i]| <= k
    ensures |Join(parts, sep)| <= |parts| * k + (|parts| - 1) * |sep|
  {
    if |parts| > 1 {
      JoinLengthBound(parts[1..], sep, k);
      assert |Join(parts, sep)| == |parts[0]| + |sep| + |Join(parts[1..], sep)|;
      assert |parts| * k == k + (|parts| - 1) * k;
      assert (|parts| - 1) * |sep| == |sep| + (|parts| - 2) * |sep|;
    }
  }

  // ---------------------------------------------------------------------------
  // URLs

  /** The parts of a URL `urlparse` yields that the fallback uses. */
  datatype UrlParts = UrlParts(scheme: string, netloc: string, path: string, params: string, query: string, fragment: string)

  predicate SchemeChar(c: char) {
    IsAsciiLetter(c) || IsAsciiDigit(c) || c == '+' || c == '-' || c == '.'
  }

  /** The schemes whose last path segment may carry `;params`. */
  const UsesParams: set<string> := {"", "ftp", "hdl", "prospero", "http", "imap", "https", "shttp",
                                     "rtsp", "rtsps", "rtspu", "sip", "sips", "mms", "sftp", "tel"}

  /** The index of the first character of `s` in `cs`, or `|s|`. */
  function FirstOf(s: string, cs: set<char>): (i: nat)
    ensures i <= |s|
    ensures forall k :: 0 <= k < i ==> s[k] !in cs
    ensures i < |s| ==> s[i] in cs
  {
    if s == [] || s[0] in cs then 0 else 1 + FirstOf(s[1..], cs)
  }

  /** The index of the last character of `s` equal to `c`, or -1. */
  function LastOf(s: string, c: char): (i: int)
    ensures -1 <= i < |s|
    ensures forall k :: i < k < |s| ==> s[k] != c
    ensures i >= 0 ==> s[i] == c
  {
    if s == [] then -1 else if s[|s| - 1] == c then |s| - 1 else LastOf(s[..|s| - 1], c)
  }

  /** The length of the scheme, when the text before the first `:` is one: a letter, then
      scheme characters; 0 otherwise. */
  function SchemeLength(url: string): (n: nat)
    ensures n <= |url|
    ensures n > 0 ==> n < |url| && url[n] == ':' && IsAsciiLetter(url[0]) && forall k :: 0 <= k < n ==> SchemeChar(url[k])
  {
    var i := FirstOf(url, {':'});
    if 0 < i < |url| && IsAsciiLetter(url[0]) && forall k :: 0 <= k < i ==> SchemeChar(url[k]) then i else 0
  }

  /** The scheme, lower-cased, and the rest of the URL after its `:`. */
  function SplitScheme(url: string): (r: (string, string))
    ensures SchemeLength(url) == 0 ==> r == ("", url)
    ensures SchemeLength(url) > 0 ==> url == url[..SchemeLength(url)] + ":" + r.1 && r.0 == Lower(url[..SchemeLength(url)])
  {
    var n := SchemeLength(url);
    if n > 0 then
      assert url == url[..n] + ":" + url[n + 1..];
      (Lower(url[..n]), url[n + 1..])
    else ("", url)
  }

  /** After `//`, the network location up to the next `/`, `?` or `#`, and what follows. */
  function SplitNetloc(rest: string): (r: (string, string))
    ensures !(|rest| >= 2 && rest[..2] == "//") ==> r == ("", rest)
    ensures |rest| >= 2 && rest[..2] == "//" ==> rest == "//" + r.0 + r.1
  {
    if |rest| >= 2 && rest[..2] == "//" then
      var e := 2 + FirstOf(rest[2..], {'/', '?', '#'});
      assert rest == "//" + rest[2..e] + rest[e..];
      (rest[2..e], rest[e..])
    else ("", rest)
  }

  /** `s.split(c, 1)`: the text before the first `c` and the text after it, if any. */
  function SplitOnce(s: string, c: char): (r: (string, string))
    ensures c !in s ==> r == (s, "")
    ensures c !in r.0
    ensures c in s ==> s == r.0 + [c] + r.1
  {
    var i := FirstOf(s, {c});
    if i < |s| then
      assert s == s[..i] + [c] + s[i + 1..];
      (s[..i], s[i + 1..])
    else
      NoCharAt(s, c);
      (s, "")
  }

  lemma NoCharAt(s: string, c: char)
    requires forall k :: 0 <= k < |s| ==> s[k] != c
    ensures c !in s
  {
  }

  /** `urlparse(url)`: the scheme (lower-cased), the network location after `//`, then the
      fragment after the first `#`, the query after the first `?`, and `;params` split off
      the last path segment for the schemes that use them. */
  function UrlParse(url: string): (u: UrlParts)
    ensures u.scheme == SplitScheme(url).0
  {
    var (scheme, afterScheme) := SplitScheme(url);
    var (netloc, rest) := SplitNetloc(afterScheme);
    var (beforeHash, fragment) := SplitOnce(rest, '#');
    var (pathAndParams, query) := SplitOnce(beforeHash, '?');
    var semi := ParamsStart(pathAndParams);
    if scheme in UsesParams && semi < |pathAndParams| then
      UrlParts(scheme, netloc, pathAndParams[..semi], pathAndParams[semi + 1..], query, fragment)
    else
      UrlParts(scheme, netloc, pathAndParams, "", query, fragment)
  }

  /** Where `;params` begins: the first `;` after the last `/`, or the first `;` when there is
      no `/`; `|s|` when there is none. */
  function ParamsStart(s: string): (i: nat)
    ensures i <= |s|
    ensures i < |s| ==> s[i] == ';'
    ensures ';' !in s ==> i == |s|
  {
    var slash := LastOf(s, '/');
    if slash >= 0 then slash + FirstOf(s[slash..], {';'}) else FirstOf(s, {';'})
  }

  /** A plain `https://<host>/wiki/<title>` URL parses into its host and path. */
  lemma WikiUrlParses(host: string, title: string)
    requires forall k :: 0 <= k < |host| ==> host[k] !in {'/', '?', '#'}
    requires forall k :: 0 <= k < |title| ==> title[k] !in {'?', '#', ';'}
    ensures var u := UrlParse("https://" + host + "/wiki/" + title);
      u.scheme == "https" && u.netloc == host && u.path == "/wiki/" + title
  {
    var path := "/wiki/" + title;
    var afterScheme := "//" + host + path;
    HttpsScheme(afterScheme);
    assert "https://" + host + "/wiki/" + title == "https:" + afterScheme;
    assert SplitScheme("https:" + afterScheme) == ("https", afterScheme);
    HostNetloc(host, path);
    PathOfTitle(title);
    NoCharAt(path, '#');
    NoCharAt(path, '?');
    NoCharAt(path, ';');
  }

  lemma PathOfTitle(title: string)
    requires forall k :: 0 <= k < |title| ==> title[k] !in {'?', '#', ';'}
    ensures var path := "/wiki/" + title;
      path[0] == '/' && forall k :: 0 <= k < |path| ==> path[k] !in {'?', '#', ';'}
  {
    var path := "/wiki/" + title;
    forall k | 0 <= k < |path| ensures path[k] !in {'?', '#', ';'} {
      if k >= 6 { assert path[k] == title[k - 6]; }
    }
  }

  lemma HttpsScheme(rest: string)
    ensures SplitScheme("https:" + rest) == ("https", rest)
  {
    var url := "https:" + rest;
    assert url[5] == ':';
    assert forall k :: 0 <= k < 5 ==> url[k] == "https"[k] && url[k] !in {':'};
    FirstOfStops("https", ":" + rest, {':'});
    assert "https" + (":" + rest) == url;
    assert SchemeLength(url) == 5;
    assert url[..5] == "https";
    assert url[6..] == rest;
    assert forall k :: 0 <= k < 5 ==> LowerChar("https"[k]) == "https"[k];
    assert Lower("https") == "https";
  }

  lemma HostNetloc(host: string, path: string)
    requires forall k :: 0 <= k < |host| ==> host[k] !in {'/', '?', '#'}
    requires |path| > 0 && path[0] == '/'
    ensures SplitNetloc("//" + host + path) == (host, path)
  {
    var rest := "//" + host + path;
    assert rest[..2] == "//";
    assert rest[2..] == host + path;
    FirstOfStops(host, path, {'/', '?', '#'});
    assert rest[2..2 + |host|] == host;
    assert rest[2 + |host|..] == path;
  }

  lemma FirstOfStops(a: string, b: string, cs: set<char>)
    requires forall k :: 0 <= k < |a| ==> a[k] !in cs
    requires |b| > 0 && b[0] in cs
    ensures FirstOf(a + b, cs) == |a|
  {
    if a != [] {
      assert (a + b)[1..] == a[1..] + b;
      FirstOfStops(a[1..], b, cs);
    } else {
      assert a + b == b;
    }
  }

  // ---------------------------------------------------------------------------
  // Fetching

  /** What fetching a URL gives: the page decoded as UTF-8, an HTTP error status, or another
      failure. */
  datatype Fetched = Html(html: string) | HttpError(code: int) | Failed(message: string)

  /** A Wikipedia article page: a host ending in `wikipedia.org` and a path under `/wiki/`. */
  predicate IsWikiArticle(u: UrlParts) {
    EndsWith(u.netloc, "wikipedia.org") && StartsWith(u.path, "/wiki/")
  }

  /** The REST endpoint for the same article; `unquote` decodes the title. */
  function RestUrl(u: UrlParts, unquote: string -> string): (r: string)
    requires IsWikiArticle(u)
    ensures var title := Quote(unquote(u.path[6..]));
      && r == u.scheme + "://" + u.netloc + "/api/rest_v1/page/html/" + title
      && WellEncoded(title) && '/' !in title && Decode(title) == Utf8Text(unquote(u.path[6..]))
  {
    var title := unquote(u.path[6..]);
    QuoteDecodes(title);
    WellEncodedNoSlash(Quote(title));
    u.scheme + "://" + u.netloc + "/api/rest_v1/page/html/" + Quote(title)
  }

  /** `" ".join(text.split())`. */
  function Collapse(text: string): (r: string)
    ensures Words(r) == Words(text)
  {
    WordsJoin(Words(text));
    Join(Words(text), " ")
  }

  /** Collapsing twice changes nothing more. */
  lemma CollapseIdempotent(text: string)
    ensures Collapse(Collapse(text)) == Collapse(text)
  {
  }

  /** `get_text_from_url`: the collapsed text of the page (the visible text as the HTML
      parser finds it), cut to `MaxTextChars`. A 403 on a Wikipedia article is retried once
      on the REST endpoint; every other failure is raised. */
  function GetText(url: string, fetch: string -> Fetched, unquote: string -> string,
                   visibleText: string -> string): (r: Result<string, string>)
    ensures r.Ok? ==> |r.value| <= MaxTextChars
    ensures fetch(url).Html? ==> r == Ok(Take(Collapse(visibleText(fetch(url).html)), MaxTextChars))
    ensures fetch(url).Failed? ==> r == Err(fetch(url).message)
    ensures fetch(url).HttpError? && (fetch(url).code != 403 || !IsWikiArticle(UrlParse(url))) ==> r.Err?
    ensures fetch(url) == HttpError(403) && IsWikiArticle(UrlParse(url)) ==>
      var retry := fetch(RestUrl(UrlParse(url), unquote));
      (r.Ok? <==> retry.Html?) && (retry.Html? ==> r.value == Take(Collapse(visibleText(retry.html)), MaxTextChars))
  {
    match fetch(url)
    case Html(h) => Ok(Take(Collapse(visibleText(h)), MaxTextChars))
    case Failed(m) => Err(m)
    case HttpError(code) =>
      var u := UrlParse(url);
      if code == 403 && IsWikiArticle(u) then
        match fetch(RestUrl(u, unquote))
        case Html(h) => Ok(Take(Collapse(visibleText(h)), MaxTextChars))
        case Failed(m) => Err(m)
        case HttpError(c) => Err("HTTPError: HTTP Error " + IntToString(c))
      else Err("HTTPError: HTTP Error " + IntToString(code))
  }

  /** The page texts of `run_web_page_reader`, one per URL in order; the first failure is
      raised and ends the run. Each text fits the limit. */
  function PageTexts(urls: seq<string>, fetch: string -> Fetched, unquote: string -> string,
                     visibleText: string -> string): (r: Result<seq<string>, string>)
    ensures r.Ok? <==> forall i :: 0 <= i < |urls| ==> GetText(urls[i], fetch, unquote, visibleText).Ok?
    ensures r.Ok? ==> |r.value| == |urls|
    ensures r.Ok? ==> forall i :: 0 <= i < |urls| ==> r.value[i] == GetText(urls[i], fetch, unquote, visibleText).value
    ensures r.Ok? ==> forall i :: 0 <= i < |urls| ==> |r.value[i]| <= MaxTextChars
  {
    MapAll(urls, u => GetText(u, fetch, unquote, visibleText))
  }
}

=== FILE: wrappers.dfy ===
/** Failure-compatible Option and Result types shared by every module of the model. */
module Wrappers {

  /** A value that may be absent: Python's `None` versus a present value. */
  datatype Option<+T> = None | Some(value: T) {

    predicate IsFailure() {
      None?
    }

    function PropagateFailure<U>(): Option<U>
      requires None?
    {
      None
    }

    function Extract(): T
      requires Some?
    {
      value
    }

    function GetOr(default: T): T {
      match this
      case Some(v) => v
      case None => default
    }
  }

  /** The outcome of an operation that can raise: `Ok` carries the value, `Err` the exception text. */
  datatype Result<+T, +E> = Ok(value: T) | Err(error: E) {

    predicate IsFailure() {
      Err?
    }

    function PropagateFailure<U>(): Result<U, E>
      requires Err?
    {
      Err(error)
    }

    function Extract(): T
      requires Ok?
    {
      value
    }
  }

  /** Applies `f` to every element in order, stopping at the first failure: a Python loop that
      collects results and lets the first exception through. */
  function MapAll<T, U, E(==)>(xs: seq<T>, f: T -> Result<U, E>): (r: Result<seq<U>, E>)
    ensures r.Ok? <==> forall i :: 0 <= i < |xs| ==> f(xs[i]).Ok?
    ensures r.Ok? ==> |r.value| == |xs| && forall i :: 0 <= i < |xs| ==> r.value[i] == f(xs[i]).value
    ensures r.Err? ==> exists i :: 0 <= i < |xs| && f(xs[i]).Err? && f(xs[i]).error == r.error && forall j :: 0 <= j < i ==> f(xs[j]).Ok?
  {
    if xs == [] then Ok([])
    else
      match f(xs[0])
      case Err(e) => Err(e)
      case Ok(y) =>
        var rest := MapAll(xs[1..], f);
        assert forall i :: 0 <= i < |xs| - 1 ==> xs[1..][i] == xs[i + 1];
        if rest.Err? then
          var i :| 0 <= i < |xs[1..]| && f(xs[1..][i]).Err? && f(xs[1..][i]).error == rest.error && forall j :: 0 <= j < i ==> f(xs[1..][j]).Ok?;
          assert f(xs[i + 1]).Err? && f(xs[i + 1]).error == rest.error;
          Err(rest.error)
        else Ok([y] + rest.value)
  }
}
